=== FILE: README.md ===
# JSchnizzle editing session in Dafny

JSchnizzle is a desktop editor for yUML and websequencediagrams.com
scripts. A session holds four ordered lists of diagrams (activity, class,
use case, sequence), a dirty flag and the name of the definitions file.
Actions never change the session directly. They dispatch `JSEvent`s
through a `Dispatcher`, and the main window's `onEvent` turns each event
into calls on the `ApplicationModel`.

This project models that design functionally:

- **Data.** Diagrams live in a heap of objects (`Diagrams.Heap`). The
  model's lists hold references, because the Java lists find and remove
  diagrams by identity.
- **Events.** `Events` holds the immutable event record and the ordered
  listener list. `MainWindow.Step` is `onEvent` followed by
  `updateActionStates`. `MainWindow.Run` folds `Step` over a sequence of
  events.
- **Actions.** Each file and diagram action (`FileActions`, `UIUtils`) is a
  function. It takes the session, the user's dialog answers and the
  platform as inputs. It returns the events it dispatches, in order, plus
  the files written and the diagram heap.
- **Renderers and names.** `Renderers` covers renderer selection, the style
  catalogues and the requests the two renderers build. `YumlScript` is the
  yUML script flattener. `FileNames` holds the `.jsl`, `.jpg` and `.svg`
  name rules.
- **Integer arithmetic.** `JavaInt` models 32-bit `int` arithmetic. It is
  used by dialog centring (`UIUtils`) and the image scale slider
  (`ImagePanel`).
- **The whole session.** `Sessions` runs the actions' events through the
  window. The headline theorem is `Sessions.SaveThenOpenRestores`: saving
  and then opening the saved file (with Open or Load) rebuilds every
  per-type list in the same order, from fresh objects that persist to the
  same records, and leaves the model clean and named after the canonical
  path of the file.

## What each outside effect becomes

- **Dialog answers** are parameters: `FileActions.Answer` (YES, NO, CANCEL
  or a closed dialog), the file chosen (or none), whether the edit panel
  was left with OK or Cancel, and the entries typed into it.
- **The file system** is a map from path to `FileActions.FileContent`.
  `Platform` supplies the separator, `getCanonicalPath` (which may fail)
  and whether a file can be opened for writing.
- **The network, Batik and JSON.** The network is
  `Renderers.Services.exchange`. Batik transcoding, `ImageUtils.decodeImage`,
  `URLEncoder`, the JSON `img` field and the presence of the JSON `errors`
  array are uninterpreted functions.
- **System properties** are `Option<string>` inputs.

`JSEvent` is a datatype. Its getters are its fields, so they return exactly
the constructor's arguments, and no value can change after construction.
The constructor accepts any type, source and payload. `new Diagram()` is
`Diagrams.NewDiagram`, with every field null. `new ApplicationModel()` is
`ApplicationModel.Initial`: four empty lists, clean, no file name.

Two places where the code and its documentation disagree; the model follows
the code:

- **`DiagramModified` does not always mark the model dirty.** The handler
  first calls `refreshSelectedDiagram` with the type's selected row. With no
  selected row that row is -1, and `get(-1)` throws before `markModelDirty`
  runs. So the model becomes dirty only when the diagram's list has a
  selection (`MainWindow.ModifiedEvent`).
- **`Diagram.java` has no style field,** although the edit panel and both
  renderers call `getStyle`/`setStyle` on it. A style field is modelled
  because those callers need it.

## Model

All source paths are under `src/main/java/com/alternatecomputing/jschnizzle/`.

| member | source | states |
|---|---|---|
| Seqs.IndexOf | src/main/java/com/alternatecomputing/jschnizzle/JSchnizzle.java:558-572 | `indexOf` gives the first position holding the diagram, and -1 exactly when the list does not hold it |
| Seqs.RemoveFirst | src/main/java/com/alternatecomputing/jschnizzle/model/ApplicationModel.java:65-84 | `removeElement` drops only the first occurrence. It keeps the others in order and leaves a list without the element as it was; the multiset loses exactly one copy |
| JavaString.Trim | src/main/java/com/alternatecomputing/jschnizzle/renderer/YUMLRenderer.java:51 | the trimmed text starts and ends with a character above U+0020, and is empty exactly when every character is at most U+0020 |
| JavaString.TrimIdempotent | src/main/java/com/alternatecomputing/jschnizzle/renderer/YUMLRenderer.java:58 | trimming a trimmed line changes nothing |
| JavaString.Tokens | src/main/java/com/alternatecomputing/jschnizzle/renderer/YUMLRenderer.java:51-54 | every `StringTokenizer` token is non-empty and holds no newline |
| JavaString.TokensConcat | src/main/java/com/alternatecomputing/jschnizzle/renderer/YUMLRenderer.java:51-54 | the tokens, joined back together, are the script with its newlines removed: tokenizing loses nothing else |
| JavaString.TokensSplit | src/main/java/com/alternatecomputing/jschnizzle/renderer/YUMLRenderer.java:51-54 | a newline always separates tokens, so consecutive newlines produce no empty token |
| JavaString.TokensNoDelimiter | src/main/java/com/alternatecomputing/jschnizzle/renderer/YUMLRenderer.java:51-54 | a non-empty line without a newline is exactly one token |
| JavaString.ToLower | src/main/java/com/alternatecomputing/jschnizzle/action/AbstractFileAction.java:53 | `toLowerCase` keeps the length and lower-cases each character in place |
| JavaString.LastIndexOf | src/main/java/com/alternatecomputing/jschnizzle/action/OpenAction.java:84-88 | the last position of the separator, and -1 exactly when it is absent |
| JavaString.Substring | src/main/java/com/alternatecomputing/jschnizzle/action/OpenAction.java:84-88 | `substring` succeeds exactly when `0 <= begin <= end <= length` and otherwise throws an index exception |
| JavaInt.Wrap | src/main/java/com/alternatecomputing/jschnizzle/ui/ImagePanel.java:117-118 | the `int` an overflowing product wraps to is congruent to it modulo 2^32, and equals it when it fits |
| JavaInt.DivTruncates | src/main/java/com/alternatecomputing/jschnizzle/util/UIUtils.java:69-70 | `int` division truncates toward zero: the remainder has the dividend's sign and is smaller than the divisor |
| Diagrams.SetName | src/main/java/com/alternatecomputing/jschnizzle/model/Diagram.java:42-58 | the next `getName` returns the value set, null included, and no other field changes |
| Diagrams.SetNote | src/main/java/com/alternatecomputing/jschnizzle/model/Diagram.java:60-76 | the next `getNote` returns the value set, and no other field changes |
| Diagrams.SetScript | src/main/java/com/alternatecomputing/jschnizzle/model/Diagram.java:78-95 | the next `getScript` returns the value set, and no other field changes |
| Diagrams.SetStyle | src/main/java/com/alternatecomputing/jschnizzle/util/UIUtils.java:118 | the style chosen in the panel is stored, and no other field changes |
| Diagrams.SetType | src/main/java/com/alternatecomputing/jschnizzle/model/Diagram.java:140-151 | the type can be replaced after creation, and no other field changes |
| Diagrams.SetImage | src/main/java/com/alternatecomputing/jschnizzle/model/Diagram.java:97-113 | `nonBeanImage(img)` stores the transient image, which `nonBeanImage()` then returns; nothing else changes |
| Diagrams.SetEncodedImage | src/main/java/com/alternatecomputing/jschnizzle/model/Diagram.java:115-138 | the SVG text is always stored. An image already present is kept. Otherwise the image becomes the decoding of the text, and stays null when decoding fails. No other field changes |
| Diagrams.Restore | src/main/java/com/alternatecomputing/jschnizzle/action/OpenAction.java:94-97 | a diagram rebuilt from a saved record persists to that same record, and its image is the decoding of the stored SVG, or null without one |
| Diagrams.Alloc | src/main/java/com/alternatecomputing/jschnizzle/action/CreateActivityDiagramAction.java:54-57 | `new Diagram()` yields a reference no existing diagram has, and every existing object is kept |
| ApplicationModel.AddDiagram | src/main/java/com/alternatecomputing/jschnizzle/model/ApplicationModel.java:94-113 | the diagram goes to the end of its own type's list and the model becomes dirty. The other three lists and the file name are unchanged. An untyped diagram throws before anything changes |
| ApplicationModel.DeleteDiagram | src/main/java/com/alternatecomputing/jschnizzle/model/ApplicationModel.java:65-84 | the first occurrence leaves its own type's list only, and the model becomes dirty. An untyped diagram throws before anything changes |
| ApplicationModel.DeleteAllDiagrams | src/main/java/com/alternatecomputing/jschnizzle/model/ApplicationModel.java:86-92 | all four lists become empty and the model clean; the file name is kept |
| ApplicationModel.MarkClean | src/main/java/com/alternatecomputing/jschnizzle/model/ApplicationModel.java:115-125 | `isModelDirty` then answers false, and nothing else changes |
| ApplicationModel.MarkDirty | src/main/java/com/alternatecomputing/jschnizzle/model/ApplicationModel.java:115-125 | `isModelDirty` then answers true, and nothing else changes |
| ApplicationModel.SetFileName | src/main/java/com/alternatecomputing/jschnizzle/model/ApplicationModel.java:41-47 | `getFileName` returns the last value set, null included, and nothing else changes |
| ApplicationModel.SetSelectedDiagram | src/main/java/com/alternatecomputing/jschnizzle/model/ApplicationModel.java:127-133 | the selected diagram is recorded; the lists and the dirty flag are untouched |
| ApplicationModel.AddTwiceKeepsBoth | src/main/java/com/alternatecomputing/jschnizzle/model/ApplicationModel.java:94-113 | there is no duplicate check: adding a diagram twice puts two more copies in its list |
| ApplicationModel.DeleteUndoesAdd | src/main/java/com/alternatecomputing/jschnizzle/model/ApplicationModel.java:65-113 | deleting a diagram just added restores every list, when it was not already there |
| ApplicationModel.DeleteAbsentStillDirties | src/main/java/com/alternatecomputing/jschnizzle/model/ApplicationModel.java:65-84 | deleting a diagram its list does not hold changes no list, yet the model becomes dirty |
| Events.AddedEvents | src/main/java/com/alternatecomputing/jschnizzle/action/OpenAction.java:99-108 | one DiagramAdded per diagram, in the given order |
| Events.AddListener | src/main/java/com/alternatecomputing/jschnizzle/event/Dispatcher.java:32-34 | the listener is appended at the end, and earlier entries keep their places |
| Events.RemoveListener | src/main/java/com/alternatecomputing/jschnizzle/event/Dispatcher.java:41-43 | exactly one registration is dropped; an unregistered listener leaves the list as it was |
| Events.Broadcast | src/main/java/com/alternatecomputing/jschnizzle/event/Dispatcher.java:50-54 | one delivery per list entry, so an empty list has no effect |
| Events.DispatchEvent | src/main/java/com/alternatecomputing/jschnizzle/event/Dispatcher.java:50-54 | the loop hands the same event to entry `i` as its `i`-th call, in registration order |
| Events.DeliveriesCountRegistrations | src/main/java/com/alternatecomputing/jschnizzle/event/Dispatcher.java:32-54 | a listener receives an event once per registration: twice if added twice, never if never added |
| Events.BroadcastConcat | src/main/java/com/alternatecomputing/jschnizzle/event/Dispatcher.java:50-54 | listeners registered earlier are called before those registered later |
| Events.RemoveUndoesAdd | src/main/java/com/alternatecomputing/jschnizzle/event/Dispatcher.java:32-43 | removing a listener just added, when it was not registered before, restores the list |
| Events.AddListenerReceives | src/main/java/com/alternatecomputing/jschnizzle/event/Dispatcher.java:32-54 | registering a listener makes it receive exactly one more copy of every event |
| Renderers.StylesForType | src/main/java/com/alternatecomputing/jschnizzle/renderer/YUMLRenderer.java:40-44 | each renderer gives its fixed catalogue whatever the type (the web-sequence one is at WebSequenceRenderer.java lines 48-58 and 133-135): three yUML styles from "nofunky;" to "scruffy;", nine web-sequence styles from "default" to "napkin". No two entries share a value |
| Renderers.RegisterRenderer | src/main/java/com/alternatecomputing/jschnizzle/renderer/RendererFactory.java:26-28 | the renderer is appended, duplicates kept, earlier entries in place |
| Renderers.FirstMatch | src/main/java/com/alternatecomputing/jschnizzle/renderer/RendererFactory.java:30-37 | the position of a renderer that accepts the diagram with none accepting before it, or -1 exactly when none accepts |
| Renderers.GetRendererForDiagram | src/main/java/com/alternatecomputing/jschnizzle/renderer/RendererFactory.java:30-37 | the lookup fails exactly when no registered renderer accepts the diagram, including with an empty registry. Otherwise it returns a registered renderer that accepts the diagram, with none registered before it accepting |
| Renderers.RegisterKeepsAnswer | src/main/java/com/alternatecomputing/jschnizzle/renderer/RendererFactory.java:26-37 | registering more renderers never changes the renderer found for a diagram that had one |
| Renderers.RegisteredCoversEveryType | src/main/java/com/alternatecomputing/jschnizzle/JSchnizzle.java:132-135 | with yUML registered before web sequence, sequence diagrams get web sequence and the other three types get yUML. An untyped diagram gets none |
| Renderers.PostUriRoundTrip | src/main/java/com/alternatecomputing/jschnizzle/renderer/YUMLRenderer.java:75 | the style value and the type modifier can be read back from the post address, when the style has no `/` |
| Renderers.FormBodyRoundTrip | src/main/java/com/alternatecomputing/jschnizzle/renderer/WebSequenceRenderer.java:71 | the style value and the encoded script can be read back from the request body, when the style has no `&` |
| Renderers.FetchAndTranscode | src/main/java/com/alternatecomputing/jschnizzle/renderer/YUMLRenderer.java:84-104 | the SVG is fetched from the base URL plus the returned name. It is stored with `setEncodedImage` before transcoding, so a transcoder failure still leaves it stored. A failed fetch changes nothing |
| Renderers.RenderYuml | src/main/java/com/alternatecomputing/jschnizzle/renderer/YUMLRenderer.java:46-105 | a null script fails before any request. At most a post and then a get are sent, the get to the base URL. Only the SVG and the image derived from it change. An image is only ever the transcoding of the SVG now stored |
| Renderers.RenderWebSequence | src/main/java/com/alternatecomputing/jschnizzle/renderer/WebSequenceRenderer.java:60-127 | the same guarantees for the web-sequence renderer. The image comes from base + the reply's `img` field. An image is returned only when the reply holds an `errors` array; without one the render fails after the SVG was stored and transcoded |
| Renderers.YumlPostShape | src/main/java/com/alternatecomputing/jschnizzle/renderer/YUMLRenderer.java:75-78 | the yUML post goes to base + "diagram/" + style value + "/" + type modifier + "/", carrying the flattened script. The base is "http://yuml.me/" when the property is unset |
| Renderers.WebSequencePostShape | src/main/java/com/alternatecomputing/jschnizzle/renderer/WebSequenceRenderer.java:69-80 | the web-sequence post goes to the base URL, with "style=" + value + "&format=svg&message=" + the encoded script |
| YumlScript.FlattenScript | src/main/java/com/alternatecomputing/jschnizzle/renderer/YUMLRenderer.java:51-63 | the posted text always ends with ".svg", and a blank script gives exactly ".svg" |
| YumlScript.AppendTokens | src/main/java/com/alternatecomputing/jschnizzle/renderer/YUMLRenderer.java:53-62 | the `StringBuilder` loop builds the flattened text of the tokens |
| YumlScript.BuildDslText | src/main/java/com/alternatecomputing/jschnizzle/renderer/YUMLRenderer.java:51-63 | trimming, tokenizing, the loop and the ".svg" suffix together give the flattened script |
| YumlScript.FlattenWithoutComments | src/main/java/com/alternatecomputing/jschnizzle/renderer/YUMLRenderer.java:53-62 | without `#` lines the text is the trimmed lines joined by ", " |
| YumlScript.TrailingCommentDangles | src/main/java/com/alternatecomputing/jschnizzle/renderer/YUMLRenderer.java:55-61 | a trailing comment line still earns the line before it a ", ", which is left dangling |
| YumlScript.TrailingCommentInScript | src/main/java/com/alternatecomputing/jschnizzle/renderer/YUMLRenderer.java:51-63 | a script ending in a comment line is posted as the last kept line, ", " and ".svg" |
| UIUtils.CenterComponent | src/main/java/com/alternatecomputing/jschnizzle/util/UIUtils.java:67-72 | the component keeps its size. Away from `int` overflow, its margins inside the parent differ by at most one pixel on each axis, and are equal when the two sizes have the same parity |
| UIUtils.CenterOnBalanced | src/main/java/com/alternatecomputing/jschnizzle/util/UIUtils.java:68-69 | one axis of the centring leaves margins that differ by at most one pixel, and equal margins for sizes of the same parity, whenever no `int` overflows |
| UIUtils.InitialStyle | src/main/java/com/alternatecomputing/jschnizzle/util/UIUtils.java:100-106 | the combo box starts on the original style when the diagram has a script, otherwise on the first catalogue entry. An empty catalogue without a script throws |
| UIUtils.OpenPanel | src/main/java/com/alternatecomputing/jschnizzle/util/UIUtils.java:83-110 | the panel keeps the original script and style and shows null texts as empty fields. It fails exactly when no renderer accepts the diagram |
| UIUtils.CopyEntries | src/main/java/com/alternatecomputing/jschnizzle/util/UIUtils.java:116-119 | OK stores name, note, style and script as entered, and nothing else |
| UIUtils.NeedsRendering | src/main/java/com/alternatecomputing/jschnizzle/util/UIUtils.java:146-148 | re-rendering is needed exactly when the script or the style differs from the captured ones. A new diagram always needs it. An unchanged script with a null style throws |
| UIUtils.Announce | src/main/java/com/alternatecomputing/jschnizzle/util/UIUtils.java:131-138 | a new diagram is announced with DiagramAdded then SelectDiagram, an edited one with DiagramModified only |
| UIUtils.Commit | src/main/java/com/alternatecomputing/jschnizzle/util/UIUtils.java:115-152 | the fields are copied first and only that diagram changes. The events are ProgressStarted, then the announcement or nothing, then ProgressCompleted. A throwing `needsRendering` announces nothing. A rendered diagram that is announced holds an image and its SVG |
| UIUtils.NewDiagramIsRendered | src/main/java/com/alternatecomputing/jschnizzle/util/UIUtils.java:121-144 | a new diagram is always sent to its renderer. It is announced as added and selected exactly when rendering succeeds |
| UIUtils.UnchangedEditSkipsRendering | src/main/java/com/alternatecomputing/jschnizzle/util/UIUtils.java:146-148 | an edit with script and style unchanged sends no request and reports the diagram modified |
| UIUtils.FailedEditKeepsFields | src/main/java/com/alternatecomputing/jschnizzle/util/UIUtils.java:116-143 | an edit whose render fails keeps the entered fields on the diagram but dispatches no DiagramModified |
| UIUtils.UntouchedOkStoresEmptyTexts | src/main/java/com/alternatecomputing/jschnizzle/util/UIUtils.java:92-120 | OK on an untouched panel stores "" for a null name or note and re-renders nothing |
| UIUtils.Create | src/main/java/com/alternatecomputing/jschnizzle/action/CreateActivityDiagramAction.java:52-62 | a create action makes a fresh diagram of its fixed type and leaves every other object as it was. Any events it dispatches start with ProgressStarted. Cancel dispatches nothing and sends no request |
| UIUtils.CreateAnnouncesOrFails | src/main/java/com/alternatecomputing/jschnizzle/action/CreateActivityDiagramAction.java:52-62 | with the program's renderers, Cancel dispatches nothing; OK either announces the diagram as added and selected, or dispatches only the progress events |
| UIUtils.CreateCommits | src/main/java/com/alternatecomputing/jschnizzle/util/UIUtils.java:113-158 | when a renderer accepts the new diagram, OK dispatches the progress events with, between them, either nothing or DiagramAdded then SelectDiagram |
| UIUtils.Edit | src/main/java/com/alternatecomputing/jschnizzle/action/EditDiagramAction.java:52-60 | editing changes nothing when no panel can be built or the dialog is cancelled. OK changes only that diagram and dispatches the progress events with, between them, nothing or DiagramModified |
| UIUtils.EditTextsOnly | src/main/java/com/alternatecomputing/jschnizzle/util/UIUtils.java:113-148 | an edit that keeps the script and style sends no request, stores the entered texts and reports the diagram modified |
| ImagePanel.SetDiagram | src/main/java/com/alternatecomputing/jschnizzle/ui/ImagePanel.java:94-113 | the slider returns to 5 and the diagram is remembered. The original image is shown at its own size exactly when there is a diagram with an image; otherwise nothing is shown |
| ImagePanel.SliderChanged | src/main/java/com/alternatecomputing/jschnizzle/ui/ImagePanel.java:76-148 | with no diagram only the slider moves. At 5 the diagram is shown again. Dragging shows a fast-scaled image of at least 1×1. Release shows the SVG rasterised at the scaled size when the transcoder succeeds, and anything rasterised comes from a release with an SVG present |
| ImagePanel.Max1 | src/main/java/com/alternatecomputing/jschnizzle/ui/ImagePanel.java:119 | `Math.max(1, x)` is at least 1 and at least x, and is one of them |
| ImagePanel.ScaleDimBounds | src/main/java/com/alternatecomputing/jschnizzle/ui/ImagePanel.java:117-118 | without overflow the scaled size is even, between 0 and twice the size, and is `size × value / 5` rounded down to even |
| ImagePanel.ScaleDimMarks | src/main/java/com/alternatecomputing/jschnizzle/ui/ImagePanel.java:117-118 | at 5 the scaled size is the size rounded down to even, at 10 double the size, and at 0 zero |
| ImagePanel.SetDiagramIdempotent | src/main/java/com/alternatecomputing/jschnizzle/ui/ImagePanel.java:94-113 | showing the same diagram twice is showing it once |
| ImagePanel.MidpointRestoresOriginal | src/main/java/com/alternatecomputing/jschnizzle/ui/ImagePanel.java:78-79 | whatever scaling happened, moving the slider back to 5 shows the original image |
| ImagePanel.DragShowsFastScale | src/main/java/com/alternatecomputing/jschnizzle/ui/ImagePanel.java:115-127 | while dragging, the image is shown scaled from the original, never below 1×1, at the formula's preferred size |
| ImagePanel.ReleaseShowsRasterised | src/main/java/com/alternatecomputing/jschnizzle/ui/ImagePanel.java:129-148 | on release, a diagram with an image and its SVG is shown rasterised from the SVG at the formula's size, which becomes the preferred size |
| ImagePanel.FailedRasterisationKeepsDisplay | src/main/java/com/alternatecomputing/jschnizzle/ui/ImagePanel.java:129-152 | a transcoder failure on release leaves the display and its size as they were |
| FileNames.Name | src/main/java/com/alternatecomputing/jschnizzle/action/SaveAction.java:76 | `getName` is a suffix of the path holding no separator, and is the whole path when the path has none |
| FileNames.AcceptIgnoresCase | src/main/java/com/alternatecomputing/jschnizzle/action/AbstractFileAction.java:52-57 | a name and its lower-cased form are accepted alike by the `.jsl` filter and by the image filter |
| FileNames.SaveTarget | src/main/java/com/alternatecomputing/jschnizzle/action/SaveAction.java:76-78 | a name already ending in ".jsl" in any case is kept. Otherwise ".jsl" is appended to the canonical path, and the save fails when that path cannot be had |
| FileNames.SaveTargetIdempotent | src/main/java/com/alternatecomputing/jschnizzle/action/SaveAction.java:76-78 | the file a save chose has the extension, so saving to it again writes the same file |
| FileNames.ExportTarget | src/main/java/com/alternatecomputing/jschnizzle/action/ExportImageAction.java:92-94 | a name ending in ".jpg" or ".svg" in any case is kept. Otherwise ".jpg" is appended to the canonical path |
| FileNames.ExportTargetDefaultsToJpeg | src/main/java/com/alternatecomputing/jschnizzle/action/ExportImageAction.java:92-100 | an export target always has an image extension, is JPEG unless the name was ".svg", and is left unchanged by the rule applied again |
| FileNames.ParentDirectory | src/main/java/com/alternatecomputing/jschnizzle/action/OpenAction.java:84-88 | the start directory is the file name up to its last separator, and the directory, separator and name make it up again. A name without a separator throws |
| MainWindow.UpdateActionStates | src/main/java/com/alternatecomputing/jschnizzle/JSchnizzle.java:597-600 | Save is enabled exactly when the model is dirty and named, Save As exactly when it is dirty; nothing else changes |
| MainWindow.Step | src/main/java/com/alternatecomputing/jschnizzle/JSchnizzle.java:514-595 | after every event, even one whose handling throws, the save actions agree with the model |
| MainWindow.RunConcat | src/main/java/com/alternatecomputing/jschnizzle/JSchnizzle.java:514-595 | handling two batches of events is handling the first and then the second |
| MainWindow.RunEnablement | src/main/java/com/alternatecomputing/jschnizzle/JSchnizzle.java:589-591 | after any non-empty run of events the save actions agree with the model |
| MainWindow.StepPreservesWellFormed | src/main/java/com/alternatecomputing/jschnizzle/JSchnizzle.java:514-595 | every event keeps each list holding only diagrams of its type and every selected row inside its list |
| MainWindow.RunPreservesWellFormed | src/main/java/com/alternatecomputing/jschnizzle/JSchnizzle.java:514-595 | so does any sequence of events |
| MainWindow.QuietEventsKeepModel | src/main/java/com/alternatecomputing/jschnizzle/JSchnizzle.java:552-574 | Log, progress and SelectDiagram events leave the lists, dirty flag and file name alone |
| MainWindow.AddedEvent | src/main/java/com/alternatecomputing/jschnizzle/JSchnizzle.java:524-526 | DiagramAdded appends the diagram to its type's list and dirties the model. Any other payload changes nothing but the save actions |
| MainWindow.DeletedEvent | src/main/java/com/alternatecomputing/jschnizzle/JSchnizzle.java:527-530 | DiagramDeleted removes the first occurrence from its type's list only, dirties the model and clears the display |
| MainWindow.DeleteAllEvent | src/main/java/com/alternatecomputing/jschnizzle/JSchnizzle.java:531-534 | DiagramDeleteAll empties every list, cleans the model, clears the selection and display, and disables both saves |
| MainWindow.ModifiedEvent | src/main/java/com/alternatecomputing/jschnizzle/JSchnizzle.java:535-551 | DiagramModified changes no list. It dirties the model exactly when the type's list has a selection, and then shows the selected diagram |
| MainWindow.SelectEvent | src/main/java/com/alternatecomputing/jschnizzle/JSchnizzle.java:558-574 | SelectDiagram displays the diagram and selects its row in its own list when the list holds it. The other lists' selections stay |
| MainWindow.FileNameEvent | src/main/java/com/alternatecomputing/jschnizzle/JSchnizzle.java:575-583 | FileNameChanged records the name or null and cleans the model. The title becomes "JSchnizzle" or "JSchnizzle - " + name. Both saves are disabled; the selection and the shown diagram stay |
| MainWindow.FileNameWrongPayload | src/main/java/com/alternatecomputing/jschnizzle/JSchnizzle.java:575-583 | a non-string payload retitles the frame, then the cast throws and the model stays |
| MainWindow.MousePressed | src/main/java/com/alternatecomputing/jschnizzle/JSchnizzle.java:338-382 | pressing in one list clears the other three selections and keeps its own. When another list held a selection, its listener blanks the image panel; otherwise the display stays |
| MainWindow.MousePressedKeepsWellFormed | src/main/java/com/alternatecomputing/jschnizzle/JSchnizzle.java:360-382 | a press keeps the lists typed and every remaining selection in range |
| MainWindow.MousePressedIdempotent | src/main/java/com/alternatecomputing/jschnizzle/JSchnizzle.java:360-382 | pressing the same list a second time changes nothing more |
| FileActions.Records | src/main/java/com/alternatecomputing/jschnizzle/action/SaveAction.java:82-87 | the encoder writes one record per diagram, in list order |
| FileActions.SavedRecordsByType | src/main/java/com/alternatecomputing/jschnizzle/action/SaveAction.java:82-86 | the saved file holds activity, class, use case and sequence in turn. Picking the records of one type out of it gives that list, in order |
| FileActions.SaveToFile | src/main/java/com/alternatecomputing/jschnizzle/action/SaveAction.java:74-99 | a writable target gets the records of all diagrams, and FileNameChanged carries its canonical path. A failure sends no FileNameChanged. ProgressCompleted is always sent; ProgressStarted is not sent when the canonical path fails first |
| FileActions.Save | src/main/java/com/alternatecomputing/jschnizzle/action/SaveAction.java:66-72 | without a file name nothing happens; otherwise the session is saved to that name |
| FileActions.SaveFirst | src/main/java/com/alternatecomputing/jschnizzle/action/OpenAction.java:75-82 | a clean model is not asked. When dirty, YES saves, CANCEL abandons the action, and NO or a closed dialog goes on without saving |
| FileActions.SaveFirstWithoutFileName | src/main/java/com/alternatecomputing/jschnizzle/action/SaveAction.java:67-72 | YES for a model that was never named saves nothing, and the action goes on |
| FileActions.AllocAll | src/main/java/com/alternatecomputing/jschnizzle/action/OpenAction.java:94-97 | decoding makes one new, distinct object per record, in file order, each restored from its record. Existing objects are kept |
| FileActions.TranscodeAll | src/main/java/com/alternatecomputing/jschnizzle/action/OpenAction.java:99-108 | the loop handles diagrams in order while their SVG transcodes and stops at the first that does not. It changes only images |
| FileActions.ReadDefinitions | src/main/java/com/alternatecomputing/jschnizzle/action/OpenAction.java:93-121 | a missing or non-definitions file dispatches nothing; otherwise DiagramDeleteAll comes first |
| FileActions.StartDirectory | src/main/java/com/alternatecomputing/jschnizzle/action/OpenAction.java:84-88 | with no file name the chooser's default is used. Otherwise it is the file name's parent, and a name without a separator throws |
| FileActions.OpenWith | src/main/java/com/alternatecomputing/jschnizzle/action/OpenAction.java:74-123 | CANCEL on a dirty model does nothing. Otherwise the prompt's events come first. Without a directory or a chosen file nothing more happens. With one, the read's events follow, between ProgressStarted and ProgressCompleted |
| FileActions.Load | src/main/java/com/alternatecomputing/jschnizzle/action/LoadAction.java:66-106 | Load is Open without the transcoding loop |
| FileActions.TranscodeAllCompletes | src/main/java/com/alternatecomputing/jschnizzle/action/OpenAction.java:99-108 | when every diagram transcodes, the loop announces them all |
| FileActions.TranscodeAllKeepsRecords | src/main/java/com/alternatecomputing/jschnizzle/action/OpenAction.java:99-108 | storing images leaves every diagram's saved record as it was |
| FileActions.ReadDefinitionsSucceeds | src/main/java/com/alternatecomputing/jschnizzle/action/OpenAction.java:93-112 | a successful read makes new objects holding the saved records. Its events are DiagramDeleteAll, one DiagramAdded each in file order, SelectDiagram of the first, and FileNameChanged with the canonical path |
| FileActions.OpenUnreadableFile | src/main/java/com/alternatecomputing/jschnizzle/action/OpenAction.java:94-98 | an unreadable file dispatches only the progress events, so nothing is cleared |
| FileActions.OpenStopsAtTranscodeFailure | src/main/java/com/alternatecomputing/jschnizzle/action/OpenAction.java:99-118 | a transcoder failure at diagram k keeps the k diagrams already added and sends no FileNameChanged |
| FileActions.OpenEmptyFile | src/main/java/com/alternatecomputing/jschnizzle/action/OpenAction.java:111 | an empty definitions list clears the session and then `next()` throws: no selection, no FileNameChanged |
| FileActions.Close | src/main/java/com/alternatecomputing/jschnizzle/action/CloseAction.java:60-77 | CANCEL on a dirty model does nothing. Otherwise the prompt's events are followed by ProgressStarted, DiagramDeleteAll, FileNameChanged(null) and ProgressCompleted |
| FileActions.Exit | src/main/java/com/alternatecomputing/jschnizzle/action/ExitAction.java:55-69 | the program ends exactly when the prompt was not cancelled and the confirmation is YES. Only YES on a dirty model saves, writing what the save action writes |
| FileActions.Delete | src/main/java/com/alternatecomputing/jschnizzle/action/DeleteDiagramAction.java:52-58 | exactly one DiagramDeleted, with a null source and the diagram, is dispatched exactly when there is a target and the answer is YES |
| FileActions.ExportContent | src/main/java/com/alternatecomputing/jschnizzle/action/ExportImageAction.java:96-131 | a ".jpg" name gets the SVG transcoded to JPEG, any other name gets the SVG text itself |
| FileActions.Export | src/main/java/com/alternatecomputing/jschnizzle/action/ExportImageAction.java:67-131 | without a chosen file nothing happens. Otherwise the progress events bracket the export whatever fails, and only the target file can change |
| FileActions.ExportSvgVerbatim | src/main/java/com/alternatecomputing/jschnizzle/action/ExportImageAction.java:129-131 | exporting to a ".svg" name writes the diagram's SVG text unchanged |
| FileActions.ExportDefaultsToJpeg | src/main/java/com/alternatecomputing/jschnizzle/action/ExportImageAction.java:92-100 | a name with neither extension is exported as JPEG to the canonical path plus ".jpg" |
| Sessions.ReplayAdded | src/main/java/com/alternatecomputing/jschnizzle/model/ApplicationModel.java:94-113 | handling one DiagramAdded per diagram appends each to its own type's list, in order |
| Sessions.ReplayRead | src/main/java/com/alternatecomputing/jschnizzle/action/OpenAction.java:93-121 | handling a successful read leaves exactly the file's diagrams, by type in file order, clean and named, with progress ended |
| Sessions.ReplaySave | src/main/java/com/alternatecomputing/jschnizzle/action/SaveAction.java:90-91 | handling a successful save keeps the lists, names the session and cleans it |
| Sessions.SavedSession | src/main/java/com/alternatecomputing/jschnizzle/action/SaveAction.java:74-99 | after a save the file holds the records of all diagrams, and the session is clean and named after the file's canonical path |
| Sessions.ReopenSaved | src/main/java/com/alternatecomputing/jschnizzle/action/OpenAction.java:74-123 | opening that file from the clean session rebuilds each list from new objects holding that type's records, clean and named |
| Sessions.SaveThenOpenRestores | src/main/java/com/alternatecomputing/jschnizzle/action/OpenAction.java:98-112 | save then open or load restores every per-type list in the same order, as fresh objects with the same records. The model ends clean and named after the saved file |
| Sessions.CloseClearsSession | src/main/java/com/alternatecomputing/jschnizzle/action/CloseAction.java:60-77 | after Close (unless cancelled) every list is empty, there is no file name, no selection and no display. The model is clean, the title plain and both saves disabled |
| Sessions.CreateThenReplay | src/main/java/com/alternatecomputing/jschnizzle/util/UIUtils.java:121-158 | a cancelled create leaves the window as it was. Otherwise the created diagram either leaves the model as it was, or ends last in its list, selected and displayed, with the model dirty |
| Sessions.DeleteThenReplay | src/main/java/com/alternatecomputing/jschnizzle/action/DeleteDiagramAction.java:52-58 | a confirmed delete takes one copy of the diagram out of its list only, dirties the model and clears the display. Any other answer changes nothing |

## Left out

- Swing wiring is not modelled. This covers layouts, menus, popups, look-and-feel, the list selection listeners, the chooser's files-only mode and `checkForTriggerEvent`. Dialog answers and chosen files are inputs instead. Only the selection and display effects of `mousePressed` and the list selection changes of the events are kept.
- HTTP, proxy set-up and JSON parsing are foreign I/O; a request's reply is an uninterpreted function.
- The `NumberFormatException` that `Integer.parseInt` throws for a malformed `http.proxyPort` (YUMLRenderer.java:72, WebSequenceRenderer.java:99) is not modelled, because the proxy properties are not inputs of the model.
- The Batik transcoder, `ImageIO` and `ImageUtils` are foreign libraries. Transcoding and decoding are uninterpreted functions returning an optional image. The JPEG quality hint is not modelled.
- `XMLEncoder`/`XMLDecoder` and `EnumPersistenceDelegate` are foreign serialisation. A definitions file is a sequence of records holding every bean property of a diagram.
- A diagram style is a (caption, value) pair compared by value; `DiagramStyle` is not part of this model, and value comparison agrees with `equals` on an enum because the values in each catalogue are distinct.
- Hand-edited definitions files whose `idref` makes two entries share one object are not modelled: each record decodes to its own new diagram, as for every file the save action writes.
- Threads and `SwingUtilities.invokeLater` are modelled sequentially: the window handles an action's events after the action, in dispatch order.
- Logging (LOGGER and `EventDispatcherAppender`) is not modelled. The Log event only appends its payload to the console, and a null payload throws and changes nothing.
- `UIUtils.logMessage` and `UIUtils.logException` (console logging) are not modelled.
- The clipboard (`CopyToClipboardAction`, `ImageSelection`) is left out; it is a thin AWT wrapper.
- `AboutAction` is left out; it is a static dialog.
- `SaveAsAction` is left out: its chooser is dialog wiring around the modelled `saveToFile`.
- `java.io.File` path normalisation is not applied; paths are taken as already normal.
- JavaString.ToLower: lower-cases ASCII letters only, because the names it is applied to are only compared with the ASCII suffixes ".jsl", ".jpg" and ".svg".
- ImagePanel.SliderChanged: the `float` conversion of the scaled sizes is not modelled. The sizes are the `int` results the `float`s are computed from, which the casts give back for images of realistic size.
- ImagePanel.SliderChanged: the change listener that `setDiagram` triggers by resetting the slider is not modelled. Its only effect is to show the same diagram again, which `ImagePanel.SetDiagramIdempotent` shows changes nothing.
- MainWindow.ModifiedEvent: the model is dirtied only when the list has a selection, weaker than "always dirty", because `refreshSelectedDiagram` throws on row -1 first.
- Exit's second confirmation is modelled only as whether the program ends; `System.exit` itself is not.
- JSchnizzle constructs ExitAction with four arguments while ExitAction declares a three-argument constructor; the three-argument ExitAction is modelled.
- Strings are sequences of characters; UTF-16 surrogate pairs are not distinguished, since the program only searches for ASCII characters and suffixes.

=== FILE: appmodel.dfy ===
/** The session store (`model/ApplicationModel.java`): four ordered diagram
    lists, one per type, a dirty flag, the current file name and a selected
    diagram. The lists hold references into the diagram heap, because the
    Java lists hold the diagram objects themselves and find them by identity.
 */
module ApplicationModel {
  import opened Base
  import opened Diagrams
  import Seqs

  datatype Model = Model(
    fileName: Option<string>,
    activity: seq<Ref>,
    classes: seq<Ref>,
    useCases: seq<Ref>,
    sequences: seq<Ref>,
    dirty: bool,
    selectedDiagram: Option<Ref>)

  /** `new ApplicationModel()`: four empty lists, clean, no file name. */
  const Initial: Model := Model(None, [], [], [], [], false, None)

  /** The list shown for diagrams of type `t`. */
  function ListOf(m: Model, t: DiagramType): seq<Ref> {
    match t
    case Activity => m.activity
    case Class => m.classes
    case UseCase => m.useCases
    case Sequence => m.sequences
  }

  /** Replace the list of type `t`; everything else is kept. */
  function WithList(m: Model, t: DiagramType, l: seq<Ref>): (r: Model)
    ensures ListOf(r, t) == l
    ensures forall u :: u != t ==> ListOf(r, u) == ListOf(m, u)
    ensures r.fileName == m.fileName && r.dirty == m.dirty && r.selectedDiagram == m.selectedDiagram
  {
    match t
    case Activity => m.(activity := l)
    case Class => m.(classes := l)
    case UseCase => m.(useCases := l)
    case Sequence => m.(sequences := l)
  }

  /** The four lists are equal (the rest of the model may differ). */
  predicate SameLists(a: Model, b: Model) {
    forall t :: ListOf(a, t) == ListOf(b, t)
  }

  /** Each list holds diagrams of its own type. */
  predicate ListsTyped(m: Model, h: Heap) {
    forall t, i :: 0 <= i < |ListOf(m, t)| ==> TypeOf(h, ListOf(m, t)[i]) == Some(t)
  }

  /** Every diagram of the model: the four lists one after another, each in
      its own order. */
  function AllDiagrams(m: Model): seq<Ref> {
    m.activity + m.classes + m.useCases + m.sequences
  }

  /** Each list is part of all the diagrams. */
  lemma ListInAllDiagrams(m: Model, t: DiagramType)
    ensures forall x :: x in ListOf(m, t) ==> x in AllDiagrams(m)
  {
  }

  /** Every diagram the model holds is a live object, seen list by list
      and all together. */
  predicate ListsLive(m: Model, h: Heap) {
    && (forall t, x :: x in ListOf(m, t) ==> x in h.objects)
    && (forall x :: x in AllDiagrams(m) ==> x in h.objects)
  }

  /** Typed lists hold only live diagrams. */
  lemma TypedListsAreLive(m: Model, h: Heap)
    requires ListsTyped(m, h)
    ensures ListsLive(m, h)
  {
    forall t, x | x in ListOf(m, t)
      ensures x in h.objects
    {
      var i :| 0 <= i < |ListOf(m, t)| && ListOf(m, t)[i] == x;
      assert TypeOf(h, ListOf(m, t)[i]) == Some(t);
    }
    forall x | x in AllDiagrams(m)
      ensures x in h.objects
    {
      if x in m.activity { assert x in ListOf(m, Activity); }
      else if x in m.classes { assert x in ListOf(m, Class); }
      else if x in m.useCases { assert x in ListOf(m, UseCase); }
      else { assert x in ListOf(m, Sequence); }
    }
  }

  /** `addDiagram`: appends the diagram to the end of its type's list, with no
      duplicate check, and marks the model dirty. Switching on a null type
      throws `NullPointerException` before anything changes. */
  function AddDiagram(m: Model, h: Heap, d: Ref): (r: Result<Model>)
    ensures r.Err? <==> TypeOf(h, d).None?
    ensures r.Err? ==> r.error == NullPointer
    ensures r.Ok? ==> var t := TypeOf(h, d).value;
      && ListOf(r.value, t) == ListOf(m, t) + [d]
      && (forall u :: u != t ==> ListOf(r.value, u) == ListOf(m, u))
      && r.value.dirty
      && r.value.fileName == m.fileName
      && r.value.selectedDiagram == m.selectedDiagram
  {
    match TypeOf(h, d)
    case None => Err(NullPointer)
    case Some(t) => Ok(WithList(m, t, ListOf(m, t) + [d]).(dirty := true))
  }

  /** `deleteDiagram`: removes the first occurrence of the diagram from its
      type's list only, and marks the model dirty even when the diagram was
      not in the list. */
  function DeleteDiagram(m: Model, h: Heap, d: Ref): (r: Result<Model>)
    ensures r.Err? <==> TypeOf(h, d).None?
    ensures r.Err? ==> r.error == NullPointer
    ensures r.Ok? ==> var t := TypeOf(h, d).value;
      && ListOf(r.value, t) == Seqs.RemoveFirst(ListOf(m, t), d)
      && (forall u :: u != t ==> ListOf(r.value, u) == ListOf(m, u))
      && r.value.dirty
      && r.value.fileName == m.fileName
      && r.value.selectedDiagram == m.selectedDiagram
  {
    match TypeOf(h, d)
    case None => Err(NullPointer)
    case Some(t) => Ok(WithList(m, t, Seqs.RemoveFirst(ListOf(m, t), d)).(dirty := true))
  }

  /** `deleteAllDiagrams`: empties all four lists and marks the model clean. */
  function DeleteAllDiagrams(m: Model): (r: Model)
    ensures forall t :: ListOf(r, t) == []
    ensures !r.dirty
    ensures r.fileName == m.fileName && r.selectedDiagram == m.selectedDiagram
  {
    m.(activity := [], classes := [], useCases := [], sequences := [], dirty := false)
  }

  /** `markModelClean`: clears the flag and changes nothing else. */
  function MarkClean(m: Model): (r: Model)
    ensures !r.dirty && r.(dirty := m.dirty) == m
  {
    m.(dirty := false)
  }

  /** `markModelDirty`: sets the flag and changes nothing else. */
  function MarkDirty(m: Model): (r: Model)
    ensures r.dirty && r.(dirty := m.dirty) == m
  {
    m.(dirty := true)
  }

  /** `setFileName`: the next `getFileName` returns exactly this, null included. */
  function SetFileName(m: Model, fileName: Option<string>): (r: Model)
    ensures r.fileName == fileName && r.(fileName := m.fileName) == m
  {
    m.(fileName := fileName)
  }

  /** `setSelectedDiagram`: records the diagram (or null) and changes
      nothing else; no list or flag is touched. */
  function SetSelectedDiagram(m: Model, d: Option<Ref>): (r: Model)
    ensures r.selectedDiagram == d && r.(selectedDiagram := m.selectedDiagram) == m
    ensures SameLists(r, m) && r.dirty == m.dirty
  {
    m.(selectedDiagram := d)
  }

  /** Adding the same diagram twice gives two more entries, not one. */
  lemma AddTwiceKeepsBoth(m: Model, h: Heap, d: Ref)
    requires TypeOf(h, d).Some?
    ensures var once := AddDiagram(m, h, d).value;
      var twice := AddDiagram(once, h, d).value;
      var t := TypeOf(h, d).value;
      multiset(ListOf(twice, t))[d] == multiset(ListOf(m, t))[d] + 2
  {
    var t := TypeOf(h, d).value;
    var once := AddDiagram(m, h, d).value;
    var twice := AddDiagram(once, h, d).value;
    assert ListOf(twice, t) == ListOf(m, t) + [d] + [d];
  }

  /** Deleting a diagram that was just added restores the lists, provided the
      diagram was not already in its list (only the first occurrence goes). */
  lemma DeleteUndoesAdd(m: Model, h: Heap, d: Ref)
    requires TypeOf(h, d).Some? && d !in ListOf(m, TypeOf(h, d).value)
    ensures SameLists(DeleteDiagram(AddDiagram(m, h, d).value, h, d).value, m)
  {
    var t := TypeOf(h, d).value;
    var added := AddDiagram(m, h, d).value;
    assert Seqs.IndexOf(ListOf(added, t), d) == |ListOf(m, t)|;
    var deleted := DeleteDiagram(added, h, d).value;
    assert ListOf(deleted, t) == ListOf(m, t);
  }

  /** Deleting a diagram that is not in its list changes no list, yet the
      model still becomes dirty. */
  lemma DeleteAbsentStillDirties(m: Model, h: Heap, d: Ref)
    requires TypeOf(h, d).Some? && d !in ListOf(m, TypeOf(h, d).value)
    ensures var r := DeleteDiagram(m, h, d).value;
      SameLists(r, m) && r.dirty
  {
  }
}

=== FILE: base.dfy ===
/** Failure-carrying wrappers used throughout the model.

    Java's `null` becomes `None`, and a thrown exception becomes `Err` carrying
    the kind of exception, so that every caller can model its `catch` and
    `finally` blocks explicitly.
 */
module Base {

  /** A value that may be absent (a Java reference that may be null). */
  datatype Option<+T> = None | Some(value: T) {
    function GetOr(default: T): T {
      match this
      case Some(v) => v
      case None => default
    }
  }

  /** The Java exceptions the modelled code throws or catches. */
  datatype Error =
    | NullPointer                    // dereference of a null reference
    | ClassCast                      // a payload of the wrong class
    | IndexOutOfBounds               // list or string index outside its bounds
    | NoSuchElement                  // iterator exhausted
    | IllegalArgument                // e.g. selecting index 0 of an empty combo box
    | NoRenderer                     // RendererException: no registered renderer
    | NoScript                       // RendererException: "no script defined."
    | IOFailure                      // IOException (file or network)
    | TranscodeFailure               // Batik TranscoderException
    | MalformedResponse              // JSONException: a reply without the expected field

  /** The outcome of a Java call: a value, or the exception it throws. */
  datatype Result<+T> = Ok(value: T) | Err(error: Error) {
    predicate IsFailure() { Err? }

    function PropagateFailure<U>(): Result<U>
      requires Err?
    {
      Err(error)
    }

    function Extract(): T
      requires Ok?
    {
      value
    }
  }
}

=== FILE: diagram.dfy ===
/** Diagrams (`model/Diagram.java`) and the types it uses, plus the object
    heap that gives diagrams their Java identity.

    `Diagram` is a mutable Java bean held by reference: the per-type lists,
    the events and the edit dialog all share one object, and lists find it by
    identity. The model therefore keeps diagram values in a `Heap` and passes
    `Ref`s around; a Java setter call becomes a heap update.
 */
module Diagrams {
  import opened Base

  /** The four kinds of diagram, one list each in the window. */
  datatype DiagramType = Activity | Class | UseCase | Sequence

  /** A rendering style: the caption shown in the style combo box and the value
      sent to the rendering service. */
  datatype DiagramStyle = DiagramStyle(caption: string, value: string)

  /** A decoded raster image; only its size is observable by the model. */
  datatype Image = Image(width: int, height: int, pixels: nat)

  /** The fields of a `Diagram`; a Java `null` is `None`. `image` is the
      transient decoded image (`nonBeanImage`), `encodedImage` its persisted
      text form. */
  datatype Diagram = Diagram(
    name: Option<string>,
    note: Option<string>,
    script: Option<string>,
    style: Option<DiagramStyle>,
    image: Option<Image>,
    encodedImage: Option<string>,
    diagramType: Option<DiagramType>)

  /** `new Diagram()`: the class declares no constructor, so every field is null. */
  const NewDiagram: Diagram := Diagram(None, None, None, None, None, None, None)

  /** `setName`: changes the name and nothing else. */
  function SetName(d: Diagram, name: Option<string>): (r: Diagram)
    ensures r.name == name && r.(name := d.name) == d
  {
    d.(name := name)
  }

  /** `setNote`: changes the note and nothing else. */
  function SetNote(d: Diagram, note: Option<string>): (r: Diagram)
    ensures r.note == note && r.(note := d.note) == d
  {
    d.(note := note)
  }

  /** `setScript`: changes the script and nothing else. */
  function SetScript(d: Diagram, script: Option<string>): (r: Diagram)
    ensures r.script == script && r.(script := d.script) == d
  {
    d.(script := script)
  }

  /** `setStyle`: changes the style and nothing else. */
  function SetStyle(d: Diagram, style: Option<DiagramStyle>): (r: Diagram)
    ensures r.style == style && r.(style := d.style) == d
  {
    d.(style := style)
  }

  /** `setType`: public, so nothing in the class stops the type changing. */
  function SetType(d: Diagram, t: Option<DiagramType>): (r: Diagram)
    ensures r.diagramType == t && r.(diagramType := d.diagramType) == d
  {
    d.(diagramType := t)
  }

  /** `nonBeanImage(Image)`: stores the transient image and nothing else. */
  function SetImage(d: Diagram, image: Option<Image>): (r: Diagram)
    ensures r.image == image && r.(image := d.image) == d
  {
    d.(image := image)
  }

  /** `setEncodedImage`: always stores the text; when no image is present it
      also decodes one, where `decode` stands for `ImageUtils.decodeImage`
      (`None` when that throws `IOException`, which is logged and swallowed,
      or reads no image). An image already present is kept. */
  function SetEncodedImage(d: Diagram, encoded: string, decode: string -> Option<Image>): (r: Diagram)
    ensures r.encodedImage == Some(encoded)
    ensures d.image.Some? ==> r.image == d.image
    ensures d.image.None? ==> r.image == decode(encoded)
    ensures r.(encodedImage := d.encodedImage, image := d.image) == d
  {
    var withText := d.(encodedImage := Some(encoded));
    if d.image.None? then withText.(image := decode(encoded)) else withText
  }

  /** The bean properties `XMLEncoder` writes for a diagram: every field
      except the transient image, which has no bean-style accessor. */
  datatype Record = Record(
    encodedImage: Option<string>,
    name: Option<string>,
    note: Option<string>,
    script: Option<string>,
    style: Option<DiagramStyle>,
    diagramType: Option<DiagramType>)

  /** What saving writes for one diagram. */
  function Persist(d: Diagram): Record {
    Record(d.encodedImage, d.name, d.note, d.script, d.style, d.diagramType)
  }

  /** What `XMLDecoder` rebuilds from a record: a `new Diagram()` on which the
      setter of every non-null property is called. */
  function Restore(rec: Record, decode: string -> Option<Image>): (d: Diagram)
    ensures Persist(d) == rec
    ensures d.image == (if rec.encodedImage.Some? then decode(rec.encodedImage.value) else None)
  {
    var d := NewDiagram.(name := rec.name, note := rec.note, script := rec.script,
                         style := rec.style, diagramType := rec.diagramType);
    match rec.encodedImage
    case Some(e) => SetEncodedImage(d, e, decode)
    case None => d
  }

  /** A reference to a `Diagram` object. */
  type Ref = nat

  /** The diagram objects alive in the program, and the next unused reference. */
  datatype Heap = Heap(objects: map<Ref, Diagram>, next: Ref)

  /** Every live reference is below `next`, so `next` is always fresh. */
  predicate ValidHeap(h: Heap) {
    forall r :: r in h.objects ==> r < h.next
  }

  /** `new Diagram()` followed by setters: a fresh object holding `d`. */
  function Alloc(h: Heap, d: Diagram): (res: (Heap, Ref))
    requires ValidHeap(h)
    ensures res.1 !in h.objects
    ensures res.0.objects == h.objects[res.1 := d]
    ensures ValidHeap(res.0)
  {
    (Heap(h.objects[h.next := d], h.next + 1), h.next)
  }

  /** The type of the diagram a reference points to; `None` for a dangling
      reference or a diagram whose type was never set. */
  function TypeOf(h: Heap, r: Ref): Option<DiagramType> {
    if r in h.objects then h.objects[r].diagramType else None
  }
}

=== FILE: events.dfy ===
/** Application events (`event/JSEvent.java`) and their broadcast
    (`event/Dispatcher.java`).
 */
module Events {
  import opened Diagrams
  import Seqs

  /** The event kinds the window handles. */
  datatype EventType =
    | Log
    | DiagramAdded
    | DiagramDeleted
    | DiagramDeleteAll
    | DiagramModified
    | ProgressStarted
    | ProgressCompleted
    | SelectDiagram
    | FileNameChanged

  /** An event payload is any object: `null`, a diagram, or a string (a file
      name or a log line). */
  datatype Payload = NoPayload | DiagramRef(ref: Ref) | Text(text: string)

  /** Sources are never inspected; only whether one was given is kept. */
  datatype Source = NoSource | SourceObject(id: nat)

  /** `JSEvent`: an immutable record. The constructor checks nothing, so any
      payload may accompany any event type, and the accessors return exactly
      the constructor arguments. */
  datatype JSEvent = JSEvent(eventType: EventType, source: Source, payload: Payload)

  /** The progress events every action brackets its work with; both carry
      a null source and a null payload. */
  const Started: JSEvent := JSEvent(ProgressStarted, NoSource, NoPayload)
  const Completed: JSEvent := JSEvent(ProgressCompleted, NoSource, NoPayload)

  /** One DiagramAdded per reference, in order. */
  function AddedEvents(src: Source, refs: seq<Ref>): (r: seq<JSEvent>)
    ensures |r| == |refs|
    ensures forall i :: 0 <= i < |refs| ==> r[i] == JSEvent(DiagramAdded, src, DiagramRef(refs[i]))
  {
    seq(|refs|, i requires 0 <= i < |refs| => JSEvent(DiagramAdded, src, DiagramRef(refs[i])))
  }

  /** The announcements of a non-empty list: the first diagram's, then the
      rest's. */
  lemma AddedEventsCons(src: Source, refs: seq<Ref>)
    requires |refs| > 0
    ensures AddedEvents(src, refs) == [JSEvent(DiagramAdded, src, DiagramRef(refs[0]))] + AddedEvents(src, refs[1..])
  {
    var all, rest := AddedEvents(src, refs), AddedEvents(src, refs[1..]);
    assert forall i :: 1 <= i < |refs| ==> all[i] == rest[i - 1];
  }

  /** A registered listener, by identity. */
  type Listener = nat

  /** One call `listener.onEvent(event)`. */
  datatype Delivery = Delivery(listener: Listener, event: JSEvent)

  /** `addListener`: the listener goes to the end of the list, duplicates
      included. */
  function AddListener(listeners: seq<Listener>, l: Listener): (r: seq<Listener>)
    ensures |r| == |listeners| + 1 && r[|listeners|] == l
    ensures forall i :: 0 <= i < |listeners| ==> r[i] == listeners[i]
  {
    listeners + [l]
  }

  /** `removeListener`: `Collection.remove` drops the first occurrence only;
      an unregistered listener leaves the list as it was. */
  function RemoveListener(listeners: seq<Listener>, l: Listener): (r: seq<Listener>)
    ensures l !in listeners ==> r == listeners
    ensures l in listeners ==> |r| == |listeners| - 1
    ensures multiset(r) == multiset(listeners) - multiset{l}
  {
    Seqs.RemoveFirst(listeners, l)
  }

  /** The calls `dispatchEvent` makes, as a reference: one delivery per list
      entry, in list order. */
  function Broadcast(listeners: seq<Listener>, e: JSEvent): (r: seq<Delivery>)
    ensures |r| == |listeners|
  {
    if |listeners| == 0 then [] else [Delivery(listeners[0], e)] + Broadcast(listeners[1..], e)
  }

  /** How many of the deliveries go to `l`. */
  function DeliveriesTo(ds: seq<Delivery>, l: Listener): nat {
    if |ds| == 0 then 0 else (if ds[0].listener == l then 1 else 0) + DeliveriesTo(ds[1..], l)
  }

  /** `dispatchEvent`: walks the listener list in order and hands every entry
      the same event. The list itself is a value, so it cannot change. */
  method DispatchEvent(listeners: seq<Listener>, e: JSEvent) returns (deliveries: seq<Delivery>)
    ensures |deliveries| == |listeners|
    ensures forall i :: 0 <= i < |listeners| ==> deliveries[i] == Delivery(listeners[i], e)
    ensures deliveries == Broadcast(listeners, e)
  {
    deliveries := [];
    var i := 0;
    while i < |listeners|
      invariant 0 <= i <= |listeners|
      invariant deliveries + Broadcast(listeners[i..], e) == Broadcast(listeners, e)
      invariant |deliveries| == i
      invariant forall k :: 0 <= k < i ==> deliveries[k] == Delivery(listeners[k], e)
    {
      assert listeners[i..][1..] == listeners[i + 1..];
      deliveries := deliveries + [Delivery(listeners[i], e)];
      i := i + 1;
    }
    assert listeners[i..] == [];
  }

  /** A listener receives each event once per registration: twice if it was
      added twice, never if it was not added. */
  lemma {:induction false} DeliveriesCountRegistrations(listeners: seq<Listener>, e: JSEvent, l: Listener)
    ensures DeliveriesTo(Broadcast(listeners, e), l) == multiset(listeners)[l]
  {
    if |listeners| > 0 {
      DeliveriesCountRegistrations(listeners[1..], e, l);
      assert listeners == [listeners[0]] + listeners[1..];
      assert Broadcast(listeners, e)[1..] == Broadcast(listeners[1..], e);
    }
  }

  /** Broadcasting to a concatenation delivers to the first part, then the
      second. */
  lemma {:induction false} BroadcastConcat(a: seq<Listener>, b: seq<Listener>, e: JSEvent)
    ensures Broadcast(a + b, e) == Broadcast(a, e) + Broadcast(b, e)
  {
    if |a| == 0 {
      assert a + b == b;
    } else {
      assert (a + b)[0] == a[0];
      assert (a + b)[1..] == a[1..] + b;
      BroadcastConcat(a[1..], b, e);
    }
  }

  /** A listener added and then removed leaves the list as before, provided
      it was not registered already (only its first entry is removed). */
  lemma RemoveUndoesAdd(listeners: seq<Listener>, l: Listener)
    requires l !in listeners
    ensures RemoveListener(AddListener(listeners, l), l) == listeners
  {
    var added := AddListener(listeners, l);
    assert Seqs.IndexOf(added, l) == |listeners|;
    assert added[..|listeners|] == listeners;
  }

  /** Adding a listener makes it receive one more copy of every event. */
  lemma AddListenerReceives(listeners: seq<Listener>, e: JSEvent, l: Listener)
    ensures DeliveriesTo(Broadcast(AddListener(listeners, l), e), l)
         == DeliveriesTo(Broadcast(listeners, e), l) + 1
  {
    DeliveriesCountRegistrations(listeners, e, l);
    DeliveriesCountRegistrations(AddListener(listeners, l), e, l);
  }
}

=== FILE: fileactions.dfy ===
/** The file and diagram actions as producers of event sequences: each one
    reads the session as it is when the user invokes it and returns the
    events it dispatches, in order, together with what it did to the files
    and to the diagram heap. The window handles those events afterwards
    (see `MainWindow.Run`).

    Dialog answers and the file the user picks are inputs. The XML encoding
    of a definitions file is abstracted to the sequence of diagram records it
    holds; Batik transcoding and image decoding are the oracles `transcode`,
    `jpeg` and `decode`.
 */
module FileActions {
  import opened Base
  import opened Diagrams
  import opened ApplicationModel
  import opened Events
  import opened FileNames

  /** What `JOptionPane.showConfirmDialog` returns. */
  datatype Answer = Yes | No | Cancel | Closed

  /** What a file holds, as far as the actions can tell. */
  datatype FileContent =
    | Definitions(records: seq<Record>)   // an XMLEncoder list of diagrams
    | SvgText(text: string)
    | JpegImage(image: Image)
    | Empty                               // opened for writing, nothing written

  type Files = map<string, FileContent>

  /** The action object as an event source; sources are never inspected. */
  const ActionSource: Source := SourceObject(0)

  const ClearEvent: JSEvent := JSEvent(DiagramDeleteAll, ActionSource, NoPayload)

  /** `FileNameChanged` with a file name, or with null. */
  function FileNameChangedTo(name: Option<string>): JSEvent {
    JSEvent(FileNameChanged, ActionSource, if name.Some? then Text(name.value) else NoPayload)
  }

  /** The records of the given diagrams, in order. */
  function Records(h: Heap, refs: seq<Ref>): (r: seq<Record>)
    requires forall x :: x in refs ==> x in h.objects
    ensures |r| == |refs|
    ensures forall i :: 0 <= i < |refs| ==> r[i] == Persist(h.objects[refs[i]])
  {
    seq(|refs|, i requires 0 <= i < |refs| => Persist(h.objects[refs[i]]))
  }

  /** The records of type `t`, in order. */
  function RecordsOfType(recs: seq<Record>, t: DiagramType): seq<Record> {
    if |recs| == 0 then []
    else (if recs[0].diagramType == Some(t) then [recs[0]] else []) + RecordsOfType(recs[1..], t)
  }

  lemma {:induction false} RecordsOfTypeConcat(a: seq<Record>, b: seq<Record>, t: DiagramType)
    ensures RecordsOfType(a + b, t) == RecordsOfType(a, t) + RecordsOfType(b, t)
  {
    if |a| == 0 {
      assert a + b == b;
    } else {
      assert (a + b)[0] == a[0];
      assert (a + b)[1..] == a[1..] + b;
      RecordsOfTypeConcat(a[1..], b, t);
    }
  }

  /** Picking type `t` out of records of one type keeps all or none. */
  lemma {:induction false} RecordsOfOneType(recs: seq<Record>, u: DiagramType, t: DiagramType)
    requires forall i :: 0 <= i < |recs| ==> recs[i].diagramType == Some(u)
    ensures RecordsOfType(recs, t) == if u == t then recs else []
  {
    if |recs| > 0 {
      RecordsOfOneType(recs[1..], u, t);
      assert recs == [recs[0]] + recs[1..];
    }
  }

  lemma RecordsConcat(h: Heap, a: seq<Ref>, b: seq<Ref>)
    requires forall x :: x in a + b ==> x in h.objects
    ensures Records(h, a + b) == Records(h, a) + Records(h, b)
  {
  }

  /** The saved file holds each list of the model, in order, among the
      records of its type: taking the records of type `t` gives back list
      `t`. */
  lemma SavedRecordsByType(m: Model, h: Heap, t: DiagramType)
    requires ListsTyped(m, h)
    ensures ListsLive(m, h) && forall x :: x in ListOf(m, t) ==> x in h.objects
    ensures RecordsOfType(Records(h, AllDiagrams(m)), t) == Records(h, ListOf(m, t))
  {
    TypedListsAreLive(m, h);
    ListInAllDiagrams(m, t);
    var a, c, uc, s := Records(h, m.activity), Records(h, m.classes), Records(h, m.useCases), Records(h, m.sequences);
    AllRecordsSplit(m, h);
    ListRecordsOfType(m, h, Activity, t);
    ListRecordsOfType(m, h, Class, t);
    ListRecordsOfType(m, h, UseCase, t);
    ListRecordsOfType(m, h, Sequence, t);
    PickByType(a, c, uc, s, t);
  }

  /** Of four record lists, each all of one type in the order of the
      model's lists, picking type `t` out of their concatenation gives the
      list of type `t`. */
  lemma PickByType(a: seq<Record>, c: seq<Record>, uc: seq<Record>, s: seq<Record>, t: DiagramType)
    requires RecordsOfType(a, t) == if t == Activity then a else []
    requires RecordsOfType(c, t) == if t == Class then c else []
    requires RecordsOfType(uc, t) == if t == UseCase then uc else []
    requires RecordsOfType(s, t) == if t == Sequence then s else []
    ensures RecordsOfType(a + c + uc + s, t) == match t
      case Activity => a case Class => c case UseCase => uc case Sequence => s
  {
    RecordsOfTypeConcat(a, c, t);
    RecordsOfTypeConcat(a + c, uc, t);
    RecordsOfTypeConcat(a + c + uc, s, t);
  }

  /** The records of all diagrams are those of the four lists in turn. */
  lemma AllRecordsSplit(m: Model, h: Heap)
    requires ListsLive(m, h)
    ensures Records(h, AllDiagrams(m))
         == Records(h, m.activity) + Records(h, m.classes) + Records(h, m.useCases) + Records(h, m.sequences)
  {
    RecordsConcat(h, m.activity, m.classes);
    RecordsConcat(h, m.activity + m.classes, m.useCases);
    RecordsConcat(h, m.activity + m.classes + m.useCases, m.sequences);
  }

  /** Picking type `t` out of the records of list `u` keeps all or none. */
  lemma ListRecordsOfType(m: Model, h: Heap, u: DiagramType, t: DiagramType)
    requires ListsTyped(m, h)
    ensures forall x :: x in ListOf(m, u) ==> x in h.objects
    ensures RecordsOfType(Records(h, ListOf(m, u)), t) == if u == t then Records(h, ListOf(m, u)) else []
  {
    TypedListsAreLive(m, h);
    ListInAllDiagrams(m, u);
    var recs := Records(h, ListOf(m, u));
    forall i | 0 <= i < |recs|
      ensures recs[i].diagramType == Some(u)
    {
      assert TypeOf(h, ListOf(m, u)[i]) == Some(u);
    }
    RecordsOfOneType(recs, u, t);
  }

  /** What a save leaves behind: the files and the events dispatched. */
  datatype Saved = Saved(files: Files, events: seq<JSEvent>)

  /** `saveToFile`. When the target needs `.jsl` added, the canonical path
      is taken first, so its failure is caught before `ProgressStarted` and
      only `ProgressCompleted` goes out. A file that cannot be opened for
      writing gives no `FileNameChanged`; neither does a failure of the
      canonical path taken for that event after writing. */
  function SaveToFile(m: Model, h: Heap, files: Files, path: string, p: Platform): (r: Saved)
    requires ListsLive(m, h)
    ensures SaveTarget(path, p).None? ==> r == Saved(files, [Completed])
    ensures SaveTarget(path, p).Some? ==>
      var target := SaveTarget(path, p).value;
      && (p.writable(target) ==> r.files == files[target := Definitions(Records(h, AllDiagrams(m)))])
      && (!p.writable(target) ==> r.files == files)
      && (p.writable(target) && p.canon(target).Some? ==>
            r.events == [Started, FileNameChangedTo(p.canon(target)), Completed])
      && (!p.writable(target) || p.canon(target).None? ==> r.events == [Started, Completed])
  {
    match SaveTarget(path, p)
    case None => Saved(files, [Completed])
    case Some(target) =>
      if !p.writable(target) then Saved(files, [Started, Completed])
      else
        var written := files[target := Definitions(Records(h, AllDiagrams(m)))];
        match p.canon(target)
        case None => Saved(written, [Started, Completed])
        case Some(c) => Saved(written, [Started, FileNameChangedTo(Some(c)), Completed])
  }

  /** `SaveAction.actionPerformed`: saves to the model's file name, and does
      nothing at all when there is none. */
  function Save(m: Model, h: Heap, files: Files, p: Platform): (r: Saved)
    requires ListsLive(m, h)
    ensures m.fileName.None? ==> r == Saved(files, [])
    ensures m.fileName.Some? ==> r == SaveToFile(m, h, files, m.fileName.value, p)
  {
    if m.fileName.None? then Saved(files, []) else SaveToFile(m, h, files, m.fileName.value, p)
  }

  /** The save-first prompt shared by Open, Load, Close and Exit: a clean
      model is not asked about; YES saves, CANCEL abandons the action (None),
      and NO or closing the dialog goes on without saving. */
  function SaveFirst(m: Model, h: Heap, files: Files, p: Platform, answer: Answer): (r: Option<Saved>)
    requires ListsLive(m, h)
    ensures r.None? <==> m.dirty && answer == Cancel
    ensures m.dirty && answer == Yes ==> r == Some(Save(m, h, files, p))
    ensures !m.dirty || answer == No || answer == Closed ==> r == Some(Saved(files, []))
  {
    if !m.dirty then Some(Saved(files, []))
    else match answer
      case Yes => Some(Save(m, h, files, p))
      case Cancel => None
      case _ => Some(Saved(files, []))
  }

  /** Answering YES for a model that was never saved saves nothing: Save has
      no file name to use, and the action goes on. */
  lemma SaveFirstWithoutFileName(m: Model, h: Heap, files: Files, p: Platform)
    requires ListsLive(m, h) && m.dirty && m.fileName.None?
    ensures SaveFirst(m, h, files, p, Yes) == Some(Saved(files, []))
  {
  }

  /** The diagrams `XMLDecoder` builds from the records, each a new object,
      in file order. */
  function AllocAll(h: Heap, records: seq<Record>, decode: string -> Option<Image>): (r: (Heap, seq<Ref>))
    requires ValidHeap(h)
    ensures ValidHeap(r.0) && |r.1| == |records|
    ensures forall x :: x in h.objects ==> x in r.0.objects && r.0.objects[x] == h.objects[x]
    ensures forall i :: 0 <= i < |records| ==>
      r.1[i] !in h.objects && r.1[i] in r.0.objects && r.0.objects[r.1[i]] == Restore(records[i], decode)
    ensures forall i, j :: 0 <= i < j < |records| ==> r.1[i] != r.1[j]
    decreases |records|
  {
    if |records| == 0 then (h, [])
    else
      var first := Alloc(h, Restore(records[0], decode));
      var rest := AllocAll(first.0, records[1..], decode);
      (rest.0, [first.1] + rest.1)
  }

  /** A diagram whose SVG text is present and transcodes. */
  predicate Transcodes(d: Diagram, transcode: string -> Option<Image>) {
    d.encodedImage.Some? && transcode(d.encodedImage.value).Some?
  }

  /** The loop of `OpenAction`: each diagram's SVG is transcoded and the
      image stored on it before it is announced. A null SVG
      (`NullPointerException`) or a transcoder failure ends the loop. Returns
      the heap and how many diagrams were announced. */
  function TranscodeAll(h: Heap, refs: seq<Ref>, transcode: string -> Option<Image>): (r: (Heap, nat))
    requires forall x :: x in refs ==> x in h.objects
    ensures r.1 <= |refs| && r.0.next == h.next
    ensures forall x :: x in h.objects <==> x in r.0.objects
    ensures forall x :: x in h.objects ==> Persist(r.0.objects[x]) == Persist(h.objects[x])
    ensures forall i :: 0 <= i < r.1 ==> Transcodes(h.objects[refs[i]], transcode)
    ensures r.1 < |refs| ==> !Transcodes(h.objects[refs[r.1]], transcode)
    decreases |refs|
  {
    if |refs| == 0 then (h, 0)
    else
      var d := h.objects[refs[0]];
      if !Transcodes(d, transcode) then (h, 0)
      else
        var image := transcode(d.encodedImage.value).value;
        var stored := h.(objects := h.objects[refs[0] := SetImage(d, Some(image))]);
        var rest := TranscodeAll(stored, refs[1..], transcode);
        (rest.0, rest.1 + 1)
  }

  /** What reading a definitions file does between `ProgressStarted` and
      `ProgressCompleted`: the heap after decoding, and the events. */
  datatype Loaded = Loaded(heap: Heap, events: seq<JSEvent>)

  /** The `try` block of Open (with `transcode`) and Load (without). A file
      that is missing or holds no definitions fails before anything is
      dispatched. Otherwise everything is cleared and the diagrams are added
      in file order; then the canonical path is taken and the first diagram
      selected (`next()` throws on an empty list), and the file name is
      announced. A failure at any point skips the rest. */
  function ReadDefinitions(h: Heap, files: Files, file: string, p: Platform, decode: string -> Option<Image>,
                           transcode: Option<string -> Option<Image>>): (r: Loaded)
    requires ValidHeap(h)
    ensures file !in files || !files[file].Definitions? ==> r == Loaded(h, [])
    ensures file in files && files[file].Definitions? ==> |r.events| > 0 && r.events[0] == ClearEvent
  {
    if file !in files || !files[file].Definitions? then Loaded(h, [])
    else
      var decoded := AllocAll(h, files[file].records, decode);
      var refs := decoded.1;
      var loop := if transcode.Some? then TranscodeAll(decoded.0, refs, transcode.value) else (decoded.0, |refs|);
      var added := [ClearEvent] + AddedEvents(ActionSource, refs[..loop.1]);
      if loop.1 < |refs| || p.canon(file).None? || |refs| == 0 then Loaded(loop.0, added)
      else Loaded(loop.0, added + [JSEvent(SelectDiagram, ActionSource, DiagramRef(refs[0])),
                                   FileNameChangedTo(p.canon(file))])
  }

  /** What Open or Load leaves behind, with the directory the chooser was
      started in (None: the chooser's default). */
  datatype Opened = Opened(heap: Heap, files: Files, events: seq<JSEvent>, startDirectory: Option<string>)

  /** The chooser's start directory: the model's file name up to its last
      separator; a file name without one throws before the chooser opens. */
  function StartDirectory(m: Model, p: Platform): (r: Result<Option<string>>)
    ensures m.fileName.None? ==> r == Ok(None)
    ensures m.fileName.Some? ==> (r.Ok? <==> ParentDirectory(m.fileName.value, p.separator).Ok?)
    ensures m.fileName.Some? && r.Ok? ==> r.value == Some(ParentDirectory(m.fileName.value, p.separator).value)
  {
    if m.fileName.None? then Ok(None)
    else
      var dir :- ParentDirectory(m.fileName.value, p.separator);
      Ok(Some(dir))
  }

  /** `OpenAction.actionPerformed` (with `transcode`) and
      `LoadAction.actionPerformed` (without): the save-first prompt, the
      chooser, then the file read between the progress events. */
  function OpenWith(m: Model, h: Heap, files: Files, p: Platform, answer: Answer, chosen: Option<string>,
                    decode: string -> Option<Image>, transcode: Option<string -> Option<Image>>): (r: Opened)
    requires ValidHeap(h) && ListsLive(m, h)
    ensures m.dirty && answer == Cancel ==> r == Opened(h, files, [], None)
    ensures !(m.dirty && answer == Cancel) ==>
      var gate := SaveFirst(m, h, files, p, answer).value;
      && r.files == gate.files
      && (StartDirectory(m, p).Err? || chosen.None? ==> r.events == gate.events && r.heap == h)
      && (StartDirectory(m, p).Ok? ==> r.startDirectory == StartDirectory(m, p).value)
      && (StartDirectory(m, p).Ok? && chosen.Some? ==>
            var read := ReadDefinitions(h, gate.files, chosen.value, p, decode, transcode);
            r.events == gate.events + [Started] + read.events + [Completed] && r.heap == read.heap)
  {
    match SaveFirst(m, h, files, p, answer)
    case None => Opened(h, files, [], None)
    case Some(gate) =>
      match StartDirectory(m, p)
      case Err(_) => Opened(h, gate.files, gate.events, None)
      case Ok(dir) =>
        match chosen
        case None => Opened(h, gate.files, gate.events, dir)
        case Some(file) =>
          var read := ReadDefinitions(h, gate.files, file, p, decode, transcode);
          Opened(read.heap, gate.files, gate.events + [Started] + read.events + [Completed], dir)
  }

  /** `OpenAction.actionPerformed`. */
  function Open(m: Model, h: Heap, files: Files, p: Platform, answer: Answer, chosen: Option<string>,
                decode: string -> Option<Image>, transcode: string -> Option<Image>): (r: Opened)
    requires ValidHeap(h) && ListsLive(m, h)
    ensures r == OpenWith(m, h, files, p, answer, chosen, decode, Some(transcode))
  {
    OpenWith(m, h, files, p, answer, chosen, decode, Some(transcode))
  }

  /** `LoadAction.actionPerformed`: Open without transcoding; the diagrams
      keep the images decoded while reading. */
  function Load(m: Model, h: Heap, files: Files, p: Platform, answer: Answer, chosen: Option<string>,
                decode: string -> Option<Image>): (r: Opened)
    requires ValidHeap(h) && ListsLive(m, h)
    ensures r == OpenWith(m, h, files, p, answer, chosen, decode, None)
  {
    OpenWith(m, h, files, p, answer, chosen, decode, None)
  }

  /** The loop runs to the end when every diagram transcodes. */
  lemma TranscodeAllCompletes(h: Heap, refs: seq<Ref>, transcode: string -> Option<Image>)
    requires forall x :: x in refs ==> x in h.objects
    requires forall i :: 0 <= i < |refs| ==> Transcodes(h.objects[refs[i]], transcode)
    ensures TranscodeAll(h, refs, transcode).1 == |refs|
  {
  }

  /** Storing images leaves the records of the diagrams as they were. */
  lemma TranscodeAllKeepsRecords(h: Heap, refs: seq<Ref>, transcode: string -> Option<Image>)
    requires forall x :: x in refs ==> x in h.objects
    ensures forall x :: x in refs ==> x in TranscodeAll(h, refs, transcode).0.objects
    ensures Records(TranscodeAll(h, refs, transcode).0, refs) == Records(h, refs)
  {
    var after := TranscodeAll(h, refs, transcode).0;
    forall i | 0 <= i < |refs|
      ensures Persist(after.objects[refs[i]]) == Persist(h.objects[refs[i]])
    {
      assert after.objects[refs[i]] == h.objects[refs[i]].(image := after.objects[refs[i]].image);
    }
  }

  /** A successful read: every diagram decodes to a new object with the
      saved record, all are announced in file order, the first is selected
      and the canonical path becomes the file name. */
  lemma ReadDefinitionsSucceeds(h: Heap, files: Files, file: string, p: Platform, decode: string -> Option<Image>,
                                transcode: Option<string -> Option<Image>>)
    requires ValidHeap(h) && file in files && files[file].Definitions? && |files[file].records| > 0
    requires p.canon(file).Some?
    requires transcode.Some? ==>
      forall i :: 0 <= i < |files[file].records| ==>
        files[file].records[i].encodedImage.Some? && transcode.value(files[file].records[i].encodedImage.value).Some?
    ensures var refs := AllocAll(h, files[file].records, decode).1;
      var r := ReadDefinitions(h, files, file, p, decode, transcode);
      && (forall x :: x in refs ==> x in r.heap.objects && x !in h.objects)
      && (forall x :: x in h.objects ==> x in r.heap.objects && r.heap.objects[x] == h.objects[x])
      && Records(r.heap, refs) == files[file].records
      && r.events == [ClearEvent] + AddedEvents(ActionSource, refs)
                     + [JSEvent(SelectDiagram, ActionSource, DiagramRef(refs[0])), FileNameChangedTo(p.canon(file))]
  {
    var recs := files[file].records;
    var decoded := AllocAll(h, recs, decode);
    var refs := decoded.1;
    assert refs[..|refs|] == refs;
    AllocAllRecords(h, recs, decode);
    if transcode.Some? {
      DecodedDiagramsTranscode(h, recs, decode, transcode.value);
    }
    var loop := if transcode.Some? then TranscodeAll(decoded.0, refs, transcode.value) else (decoded.0, |refs|);
    assert loop.1 == |refs|;
    var r := ReadDefinitions(h, files, file, p, decode, transcode);
    assert r.heap == loop.0;
    assert r.events == [ClearEvent] + AddedEvents(ActionSource, refs[..loop.1])
                     + [JSEvent(SelectDiagram, ActionSource, DiagramRef(refs[0])), FileNameChangedTo(p.canon(file))];
  }

  /** The decoded diagrams hold the records they were decoded from. */
  lemma AllocAllRecords(h: Heap, recs: seq<Record>, decode: string -> Option<Image>)
    requires ValidHeap(h)
    ensures var a := AllocAll(h, recs, decode);
      (forall x :: x in a.1 ==> x in a.0.objects) && Records(a.0, a.1) == recs
  {
    var a := AllocAll(h, recs, decode);
    forall i | 0 <= i < |recs|
      ensures Persist(a.0.objects[a.1[i]]) == recs[i]
    {
    }
  }

  /** When every record's SVG transcodes, so does every decoded diagram, and
      the loop keeps their records. */
  lemma DecodedDiagramsTranscode(h: Heap, recs: seq<Record>, decode: string -> Option<Image>,
                                 transcode: string -> Option<Image>)
    requires ValidHeap(h)
    requires forall i :: 0 <= i < |recs| ==> recs[i].encodedImage.Some? && transcode(recs[i].encodedImage.value).Some?
    ensures var a := AllocAll(h, recs, decode);
      var loop := TranscodeAll(a.0, a.1, transcode);
      && loop.1 == |recs|
      && (forall x :: x in a.1 ==> x in loop.0.objects)
      && Records(loop.0, a.1) == recs
      && (forall x :: x in h.objects ==> x in loop.0.objects && loop.0.objects[x] == h.objects[x])
  {
    var a := AllocAll(h, recs, decode);
    AllocAllRecords(h, recs, decode);
    forall i | 0 <= i < |recs|
      ensures Transcodes(a.0.objects[a.1[i]], transcode)
    {
      assert Persist(a.0.objects[a.1[i]]) == recs[i];
    }
    TranscodeAllCompletes(a.0, a.1, transcode);
    TranscodeAllKeepsRecords(a.0, a.1, transcode);
    TranscodeAllKeepsOthers(a.0, a.1, transcode, h);
  }

  /** The loop only touches the diagrams it is given. */
  lemma TranscodeAllKeepsOthers(h: Heap, refs: seq<Ref>, transcode: string -> Option<Image>, before: Heap)
    requires forall x :: x in refs ==> x in h.objects
    requires forall x :: x in before.objects ==> x in h.objects && h.objects[x] == before.objects[x] && x !in refs
    ensures forall x :: x in before.objects ==>
      x in TranscodeAll(h, refs, transcode).0.objects && TranscodeAll(h, refs, transcode).0.objects[x] == before.objects[x]
    decreases |refs|
  {
    if |refs| > 0 && Transcodes(h.objects[refs[0]], transcode) {
      var d := h.objects[refs[0]];
      var stored := h.(objects := h.objects[refs[0] := SetImage(d, Some(transcode(d.encodedImage.value).value))]);
      TranscodeAllKeepsOthers(stored, refs[1..], transcode, before);
    }
  }

  /** A file that cannot be read or holds no definitions leaves the session
      alone: between the progress events nothing is dispatched, so the
      lists are not cleared. */
  lemma OpenUnreadableFile(m: Model, h: Heap, files: Files, p: Platform, chosen: string,
                           decode: string -> Option<Image>, transcode: string -> Option<Image>)
    requires ValidHeap(h) && ListsLive(m, h) && !m.dirty && StartDirectory(m, p).Ok?
    requires chosen !in files || !files[chosen].Definitions?
    ensures var r := Open(m, h, files, p, Cancel, Some(chosen), decode, transcode);
      r.events == [Started, Completed] && r.heap == h
  {
  }

  /** A transcoder failure at diagram `k` keeps the `k` diagrams already
      added, and no `FileNameChanged` follows, so the session keeps the old
      file name. */
  lemma OpenStopsAtTranscodeFailure(h: Heap, files: Files, file: string, p: Platform,
                                    decode: string -> Option<Image>, transcode: string -> Option<Image>, k: nat)
    requires ValidHeap(h) && file in files && files[file].Definitions?
    requires k < |files[file].records|
    requires forall i :: 0 <= i < k ==>
      files[file].records[i].encodedImage.Some? && transcode(files[file].records[i].encodedImage.value).Some?
    requires files[file].records[k].encodedImage.None? || transcode(files[file].records[k].encodedImage.value).None?
    ensures var r := ReadDefinitions(h, files, file, p, decode, Some(transcode));
      && |r.events| == k + 1 && r.events[0] == ClearEvent
      && (forall i :: 1 <= i <= k ==> r.events[i].eventType == DiagramAdded)
  {
    var recs := files[file].records;
    var decoded := AllocAll(h, recs, decode);
    var refs := decoded.1;
    var loop := TranscodeAll(decoded.0, refs, transcode);
    assert !Transcodes(decoded.0.objects[refs[k]], transcode);
  }

  /** An empty definitions list clears the session, then `next()` throws:
      no selection and no `FileNameChanged`. */
  lemma OpenEmptyFile(h: Heap, files: Files, file: string, p: Platform,
                      decode: string -> Option<Image>, transcode: Option<string -> Option<Image>>)
    requires ValidHeap(h) && file in files && files[file] == Definitions([])
    ensures ReadDefinitions(h, files, file, p, decode, transcode).events == [ClearEvent]
  {
  }

  /** `CloseAction.actionPerformed`: after the prompt, clear everything and
      forget the file name, between the progress events. */
  function Close(m: Model, h: Heap, files: Files, p: Platform, answer: Answer): (r: Saved)
    requires ListsLive(m, h)
    ensures m.dirty && answer == Cancel ==> r == Saved(files, [])
    ensures !(m.dirty && answer == Cancel) ==>
      var gate := SaveFirst(m, h, files, p, answer).value;
      r == Saved(gate.files, gate.events + [Started, ClearEvent, FileNameChangedTo(None), Completed])
  {
    match SaveFirst(m, h, files, p, answer)
    case None => Saved(files, [])
    case Some(gate) => Saved(gate.files, gate.events + [Started, ClearEvent, FileNameChangedTo(None), Completed])
  }

  /** What Exit leaves behind, and whether the program ends. */
  datatype Exited = Exited(files: Files, events: seq<JSEvent>, exits: bool)

  /** `ExitAction.actionPerformed`: the save-first prompt, then a second
      confirmation; only YES there ends the program. */
  function Exit(m: Model, h: Heap, files: Files, p: Platform, answer: Answer, confirm: Answer): (r: Exited)
    requires ListsLive(m, h)
    ensures r.exits <==> !(m.dirty && answer == Cancel) && confirm == Yes
    ensures !m.dirty ==> r.events == [] && r.files == files
    ensures m.dirty && answer == Yes ==> r.events == Save(m, h, files, p).events && r.files == Save(m, h, files, p).files
    ensures m.dirty && answer != Yes ==> r.events == [] && r.files == files
  {
    match SaveFirst(m, h, files, p, answer)
    case None => Exited(files, [], false)
    case Some(gate) => Exited(gate.files, gate.events, confirm == Yes)
  }

  /** `DeleteDiagramAction.actionPerformed`: the target's name is read for
      the prompt, so a null target throws first; YES dispatches one
      DiagramDeleted with a null source. */
  function Delete(target: Option<Ref>, answer: Answer): (r: seq<JSEvent>)
    ensures target.Some? && answer == Yes <==> r != []
    ensures r != [] ==> r == [JSEvent(DiagramDeleted, NoSource, DiagramRef(target.value))]
  {
    if target.Some? && answer == Yes then [JSEvent(DiagramDeleted, NoSource, DiagramRef(target.value))] else []
  }

  /** What the export writes into the opened file: the SVG transcoded to
      JPEG (`jpeg`, None on a transcoder failure) for a `.jpg` name, the SVG
      text itself otherwise. A null diagram or a null SVG throws
      `NullPointerException` after the file was opened, leaving it empty. */
  function ExportContent(h: Heap, target: Option<Ref>, file: string, sep: char,
                         jpeg: string -> Option<Image>): (r: FileContent)
    requires target.Some? ==> target.value in h.objects
    ensures r.SvgText? ==> target.Some? && !HasExtension(file, sep, JpegExtension)
                           && Some(r.text) == h.objects[target.value].encodedImage
    ensures r.JpegImage? ==> target.Some? && HasExtension(file, sep, JpegExtension)
                             && h.objects[target.value].encodedImage.Some?
                             && Some(r.image) == jpeg(h.objects[target.value].encodedImage.value)
  {
    if target.None? || h.objects[target.value].encodedImage.None? then Empty
    else
      var svg := h.objects[target.value].encodedImage.value;
      if HasExtension(file, sep, JpegExtension) then
        match jpeg(svg)
        case Some(image) => JpegImage(image)
        case None => Empty
      else SvgText(svg)
  }

  /** `ExportImageAction.actionPerformed`: the chooser, the default
      extension, then the file written between the progress events. The
      progress events bracket every export the user confirmed, whatever
      fails. */
  function Export(h: Heap, target: Option<Ref>, files: Files, p: Platform, chosen: Option<string>,
                  jpeg: string -> Option<Image>): (r: Saved)
    requires target.Some? ==> target.value in h.objects
    ensures chosen.None? ==> r == Saved(files, [])
    ensures chosen.Some? ==> r.events == [Started, Completed]
    ensures chosen.Some? && ExportTarget(chosen.value, p).Some? && p.writable(ExportTarget(chosen.value, p).value) ==>
      var file := ExportTarget(chosen.value, p).value;
      r.files == files[file := ExportContent(h, target, file, p.separator, jpeg)]
    ensures chosen.Some? && (ExportTarget(chosen.value, p).None? || !p.writable(ExportTarget(chosen.value, p).value)) ==>
      r.files == files
  {
    match chosen
    case None => Saved(files, [])
    case Some(path) =>
      match ExportTarget(path, p)
      case None => Saved(files, [Started, Completed])
      case Some(file) =>
        if !p.writable(file) then Saved(files, [Started, Completed])
        else Saved(files[file := ExportContent(h, target, file, p.separator, jpeg)], [Started, Completed])
  }

  /** Exporting to a `.svg` name writes the diagram's SVG text verbatim. */
  lemma ExportSvgVerbatim(h: Heap, d: Ref, files: Files, p: Platform, path: string, jpeg: string -> Option<Image>)
    requires d in h.objects && h.objects[d].encodedImage.Some?
    requires HasExtension(path, p.separator, SvgExtension) && !HasExtension(path, p.separator, JpegExtension)
    requires p.writable(path)
    ensures Export(h, Some(d), files, p, Some(path), jpeg).files == files[path := SvgText(h.objects[d].encodedImage.value)]
  {
  }

  /** A name with neither image extension is exported as JPEG next to the
      canonical path. */
  lemma ExportDefaultsToJpeg(h: Heap, d: Ref, files: Files, p: Platform, path: string, jpeg: string -> Option<Image>)
    requires d in h.objects && h.objects[d].encodedImage.Some?
    requires !HasExtension(path, p.separator, SvgExtension) && !HasExtension(path, p.separator, JpegExtension)
    requires p.separator != '.' && p.separator !in "jpg"
    requires p.canon(path).Some? && p.writable(p.canon(path).value + JpegExtension)
    requires jpeg(h.objects[d].encodedImage.value).Some?
    ensures var file := p.canon(path).value + JpegExtension;
      Export(h, Some(d), files, p, Some(path), jpeg).files
        == files[file := JpegImage(jpeg(h.objects[d].encodedImage.value).value)]
  {
    ExportTargetDefaultsToJpeg(path, p);
  }
}

=== FILE: filenames.dfy ===
/** File-name rules of the file actions: the definition-file extension and
    the chooser filter (`action/AbstractFileAction.java`), the extension
    `saveToFile` adds (`action/SaveAction.java`), the start directory of the
    open chooser (`action/OpenAction.java`, `action/LoadAction.java`) and the
    export filter, default extension and format choice
    (`action/ExportImageAction.java`).

    Paths are strings; `java.io.File`'s own normalisation (doubled or
    trailing separators) is not applied, so paths are taken as already
    normal.
 */
module FileNames {
  import opened Base
  import opened JavaString

  /** `FILE_EXTENSION`. */
  const FileExtension: string := ".jsl"
  const JpegExtension: string := ".jpg"
  const SvgExtension: string := ".svg"

  /** What the program asks of the platform: `File.separatorChar`,
      `getCanonicalPath` (which may throw `IOException`: `None`), and whether
      a `FileOutputStream` can be opened on a path. */
  datatype Platform = Platform(separator: char, canon: string -> Option<string>, writable: string -> bool)

  /** `File.getName`: the part of the path after its last separator. */
  function Name(path: string, sep: char): (r: string)
    ensures sep !in r && EndsWith(path, r)
    ensures sep !in path ==> r == path
  {
    var i := LastIndexOf(path, sep);
    assert path[|path| - |path[i + 1..]|..] == path[i + 1..];
    path[i + 1..]
  }

  /** Appending text without a separator extends the name by that text. */
  lemma NameOfAppended(path: string, sep: char, extra: string)
    requires sep !in extra
    ensures Name(path + extra, sep) == Name(path, sep) + extra
  {
    var whole := path + extra;
    var i := LastIndexOf(path, sep);
    assert forall j :: |path| <= j < |whole| ==> whole[j] == extra[j - |path|];
    if i >= 0 {
      assert whole[i] == sep;
    }
    assert LastIndexOf(whole, sep) == i;
  }

  /** The name, lower-cased, ends with `ext`. */
  predicate HasExtension(path: string, sep: char, ext: string) {
    EndsWith(ToLower(Name(path, sep)), ext)
  }

  /** The definition chooser's filter: `.jsl` in any case, or a directory. */
  predicate AcceptDefinition(path: string, sep: char, isDirectory: bool) {
    HasExtension(path, sep, FileExtension) || isDirectory
  }

  /** The export chooser's filter: `.jpg` or `.svg` in any case, or a
      directory. */
  predicate AcceptImage(path: string, sep: char, isDirectory: bool) {
    HasExtension(path, sep, JpegExtension) || HasExtension(path, sep, SvgExtension) || isDirectory
  }

  /** Lower-casing twice is lower-casing once. */
  lemma ToLowerIdempotent(s: string)
    ensures ToLower(ToLower(s)) == ToLower(s)
  {
  }

  /** Lower-casing adds no separator that is not a letter. */
  lemma LowerKeepsSeparatorOut(name: string, sep: char)
    requires sep !in name && !('a' <= sep <= 'z')
    ensures sep !in ToLower(name)
  {
  }

  /** An extension is recognised in any case: a name and its lower-cased
      form are accepted alike. */
  lemma AcceptIgnoresCase(name: string, sep: char, isDirectory: bool)
    requires sep !in name && !('a' <= sep <= 'z')
    ensures AcceptDefinition(name, sep, isDirectory) <==> AcceptDefinition(ToLower(name), sep, isDirectory)
    ensures AcceptImage(name, sep, isDirectory) <==> AcceptImage(ToLower(name), sep, isDirectory)
  {
    ToLowerIdempotent(name);
    LowerKeepsSeparatorOut(name, sep);
    assert Name(name, sep) == name;
    assert Name(ToLower(name), sep) == ToLower(name);
  }

  /** A lower-case extension appended to a path ends the lower-cased name. */
  lemma AppendedExtension(path: string, sep: char, ext: string)
    requires sep !in ext && ToLower(ext) == ext
    ensures HasExtension(path + ext, sep, ext)
  {
    NameOfAppended(path, sep, ext);
    var name := Name(path, sep) + ext;
    var n := |name| - |ext|;
    assert name[n..] == ext;
    ToLowerSuffix(name, n);
    assert ToLower(name)[n..] == ext;
    assert EndsWith(ToLower(name), ext);
  }

  lemma ExtensionsAreLowerCase()
    ensures ToLower(FileExtension) == FileExtension
    ensures ToLower(JpegExtension) == JpegExtension
    ensures ToLower(SvgExtension) == SvgExtension
  {
    assert ToLower(FileExtension)[1] == LowerChar('j');
    assert ToLower(JpegExtension)[1] == LowerChar('j');
    assert ToLower(SvgExtension)[1] == LowerChar('s');
  }

  /** The file `saveToFile` writes: the path itself when its name already
      ends with `.jsl` in any case, otherwise the canonical path with `.jsl`
      appended (`None` when the canonical path cannot be had). */
  function SaveTarget(path: string, p: Platform): (r: Option<string>)
    ensures HasExtension(path, p.separator, FileExtension) ==> r == Some(path)
    ensures !HasExtension(path, p.separator, FileExtension) ==>
      (r.Some? <==> p.canon(path).Some?) && (r.Some? ==> r.value == p.canon(path).value + FileExtension)
  {
    if HasExtension(path, p.separator, FileExtension) then Some(path)
    else
      match p.canon(path)
      case None => None
      case Some(c) => Some(c + FileExtension)
  }

  /** The file a save chose has the definition extension, so saving to it
      again writes that same file. */
  lemma SaveTargetIdempotent(path: string, p: Platform)
    requires SaveTarget(path, p).Some? && p.separator != '.' && p.separator !in "jsl"
    ensures HasExtension(SaveTarget(path, p).value, p.separator, FileExtension)
    ensures SaveTarget(SaveTarget(path, p).value, p) == SaveTarget(path, p)
  {
    if !HasExtension(path, p.separator, FileExtension) {
      ExtensionsAreLowerCase();
      AppendedExtension(p.canon(path).value, p.separator, FileExtension);
    }
  }

  /** The file an export writes: the path itself when its name ends with
      `.jpg` or `.svg` in any case, otherwise the canonical path with `.jpg`
      appended. */
  function ExportTarget(path: string, p: Platform): (r: Option<string>)
    ensures HasExtension(path, p.separator, JpegExtension) || HasExtension(path, p.separator, SvgExtension) ==> r == Some(path)
    ensures !HasExtension(path, p.separator, JpegExtension) && !HasExtension(path, p.separator, SvgExtension) ==>
      (r.Some? <==> p.canon(path).Some?) && (r.Some? ==> r.value == p.canon(path).value + JpegExtension)
  {
    if HasExtension(path, p.separator, JpegExtension) || HasExtension(path, p.separator, SvgExtension) then Some(path)
    else
      match p.canon(path)
      case None => None
      case Some(c) => Some(c + JpegExtension)
  }

  /** A name without an image extension is exported as JPEG; an export
      target always has one of the two extensions, and applying the rule to
      it again changes nothing. */
  lemma ExportTargetDefaultsToJpeg(path: string, p: Platform)
    requires ExportTarget(path, p).Some? && p.separator != '.' && p.separator !in "jpg"
    ensures var target := ExportTarget(path, p).value;
      && (HasExtension(target, p.separator, JpegExtension) || HasExtension(target, p.separator, SvgExtension))
      && (!HasExtension(path, p.separator, SvgExtension) ==> HasExtension(target, p.separator, JpegExtension))
      && ExportTarget(target, p) == Some(target)
  {
    if !HasExtension(path, p.separator, JpegExtension) && !HasExtension(path, p.separator, SvgExtension) {
      ExtensionsAreLowerCase();
      AppendedExtension(p.canon(path).value, p.separator, JpegExtension);
    }
  }

  /** The open chooser's start directory:
      `fileName.substring(0, fileName.lastIndexOf(separatorChar))`, which
      throws for a file name without a separator. The directory, the
      separator and the name make up the file name again. */
  function ParentDirectory(fileName: string, sep: char): (r: Result<string>)
    ensures r.Err? <==> sep !in fileName
    ensures r.Err? ==> r.error == IndexOutOfBounds
    ensures r.Ok? ==> fileName == r.value + [sep] + Name(fileName, sep) && sep !in Name(fileName, sep)
  {
    var i := LastIndexOf(fileName, sep);
    var r := Substring(fileName, 0, i);
    if r.Ok? then
      assert r.value == fileName[..i];
      assert fileName == fileName[..i] + [sep] + fileName[i + 1..];
      r
    else r
  }
}

=== FILE: imagepanel.dfy ===
/** The diagram display (`ui/ImagePanel.java`): the shown image and a scale
    slider with ticks 0..10 whose middle tick means actual size. While the
    slider is dragged the raster image is scaled quickly; when it is released
    the stored SVG is rasterised again at the new size.

    The panel holds a reference to a diagram and reads the diagram's current
    image and SVG text from the heap at each slider change.
 */
module ImagePanel {
  import opened Base
  import opened Diagrams
  import JavaInt

  /** `INTERVALS`: the slider's maximum; its middle, 5, is actual size. */
  const Intervals: int := 10
  const Midpoint: int := Intervals / 2

  /** What the scrolling area shows. */
  datatype Shown =
    | Blank                                             // no component
    | Original(image: Image)                            // the diagram's own image
    | FastScaled(width: int, height: int, source: Image) // getScaledInstance of the image
    | SvgScaled(image: Image)                           // the SVG rasterised at a new size

  datatype Panel = Panel(
    diagram: Option<Ref>,
    slider: int,
    shown: Shown,
    preferredSize: Option<(int, int)>)   // None: never set by the panel

  /** `new ImagePanel()`: no diagram, slider in the middle, nothing shown. */
  const InitialPanel: Panel := Panel(None, Midpoint, Blank, None)

  /** A Java reference always designates a live object. */
  predicate Live(h: Heap, d: Option<Ref>) {
    d.Some? ==> d.value in h.objects
  }

  /** The transient image of the diagram a reference points to. */
  function ImageOf(h: Heap, d: Ref): Option<Image>
    requires d in h.objects
  {
    h.objects[d].image
  }

  /** `size * slider.getValue() / INTERVALS * 2`, evaluated in `int`. */
  function ScaleDim(size: int, value: int): int {
    JavaInt.Mul(JavaInt.Div(JavaInt.Mul(size, value), Intervals), 2)
  }

  /** `setDiagram`: empties the display, remembers the diagram, puts the
      slider back in the middle, and shows the diagram's image at its own size
      when there is one. */
  function SetDiagram(p: Panel, h: Heap, d: Option<Ref>): (r: Panel)
    requires Live(h, d)
    ensures r.diagram == d && r.slider == Midpoint
    ensures r.shown.Original? <==> d.Some? && ImageOf(h, d.value).Some?
    ensures r.shown.Original? ==> r.shown.image == ImageOf(h, d.value).value
    ensures !r.shown.Original? ==> r.shown == Blank && r.preferredSize == p.preferredSize
    ensures r.shown.Original? ==> r.preferredSize == Some((r.shown.image.width, r.shown.image.height))
  {
    var cleared := p.(diagram := d, slider := Midpoint, shown := Blank);
    if d.Some? && ImageOf(h, d.value).Some? then
      var image := ImageOf(h, d.value).value;
      cleared.(shown := Original(image), preferredSize := Some((image.width, image.height)))
    else cleared
  }

  /** The slider's change listener, after the slider took `value`
      (`adjusting` while it is being dragged). `transcode(svg, w, h)` stands
      for Batik rasterising the SVG with width and height hints; `None` is a
      `TranscoderException`, which is logged. A null image or SVG text throws
      `NullPointerException` out of the listener, leaving only the new slider
      value. */
  function SliderChanged(p: Panel, h: Heap, value: int, adjusting: bool,
                         transcode: (string, int, int) -> Option<Image>): (r: Panel)
    requires Live(h, p.diagram)
    ensures r.slider == value && r.diagram == p.diagram
    ensures p.diagram.None? ==> r == p.(slider := value)
    ensures p.diagram.Some? && value == Midpoint ==> r == SetDiagram(p, h, p.diagram)
    ensures p.diagram.Some? && value != Midpoint && ImageOf(h, p.diagram.value).None? ==> r == p.(slider := value)
    ensures r.shown.FastScaled? && r != p.(slider := value) ==> adjusting && r.shown.width >= 1 && r.shown.height >= 1
    ensures r.shown.SvgScaled? && r != p.(slider := value) ==> !adjusting && h.objects[p.diagram.value].encodedImage.Some?
    ensures p.diagram.Some? && value != Midpoint && !adjusting ==>
      var d := h.objects[p.diagram.value];
      d.image.Some? && d.encodedImage.Some? ==>
        var width := ScaleDim(d.image.value.width, value);
        var height := ScaleDim(d.image.value.height, value);
        transcode(d.encodedImage.value, width, height).Some? ==>
          && r.shown == SvgScaled(transcode(d.encodedImage.value, width, height).value)
          && r.preferredSize == Some((width, height))
  {
    var moved := p.(slider := value);
    if p.diagram.None? then moved
    else if value == Midpoint then SetDiagram(p, h, p.diagram)
    else
      var d := h.objects[p.diagram.value];
      if d.image.None? then moved
      else
        var image := d.image.value;
        var width := ScaleDim(image.width, value);
        var height := ScaleDim(image.height, value);
        if adjusting then
          moved.(shown := FastScaled(Max1(width), Max1(height), image), preferredSize := Some((width, height)))
        else if d.encodedImage.None? then moved
        else
          match transcode(d.encodedImage.value, width, height)
          case None => moved
          case Some(scaled) => moved.(shown := SvgScaled(scaled), preferredSize := Some((width, height)))
  }

  /** `Math.max(1, x)`. */
  function Max1(x: int): (r: int)
    ensures r >= 1 && r >= x && (r == x || r == 1)
  {
    if x < 1 then 1 else x
  }

  /** The product of a size and a slider value stays between 0 and ten
      times the size, so it fits in an `int`. */
  lemma ProductFits(size: int, value: int)
    requires 0 <= size <= JavaInt.MAX_INT / Intervals && 0 <= value <= Intervals
    ensures 0 <= size * value <= Intervals * size <= JavaInt.MAX_INT
  {
    assert Intervals * size - size * value == size * (Intervals - value);
  }

  /** For an image size whose product with the slider value fits in an `int`,
      the scaled size is even, lies between 0 and twice the size, and is
      `size * value / 5` rounded down to an even number. */
  lemma ScaleDimBounds(size: int, value: int)
    requires 0 <= size <= JavaInt.MAX_INT / Intervals && 0 <= value <= Intervals
    ensures var r := ScaleDim(size, value);
      && r % 2 == 0 && 0 <= r <= 2 * size
      && r * 5 <= size * value < r * 5 + 10
  {
    ProductFits(size, value);
    var product := size * value;
    assert JavaInt.Mul(size, value) == product;
    var q := product / Intervals;
    assert JavaInt.Div(product, Intervals) == q;
    assert JavaInt.Mul(q, 2) == 2 * q;
  }

  /** At the middle tick the scaled size is the size itself, rounded down to
      an even number; at the top tick it is double. */
  lemma ScaleDimMarks(size: int)
    requires 0 <= size <= JavaInt.MAX_INT / Intervals
    ensures ScaleDim(size, Midpoint) == size - size % 2
    ensures ScaleDim(size, Intervals) == 2 * size
    ensures ScaleDim(size, 0) == 0
  {
    ScaleDimBounds(size, Midpoint);
    var mid := ScaleDim(size, Midpoint);
    assert size * Midpoint == 5 * size;
    assert mid <= size < mid + 2;
    ScaleDimBounds(size, Intervals);
    var top := ScaleDim(size, Intervals);
    assert size * Intervals == 10 * size;
    assert 2 * size - 2 < top <= 2 * size;
    ScaleDimBounds(size, 0);
  }

  /** Showing the same diagram twice is the same as showing it once. */
  lemma SetDiagramIdempotent(p: Panel, h: Heap, d: Option<Ref>)
    requires Live(h, d)
    ensures SetDiagram(SetDiagram(p, h, d), h, d) == SetDiagram(p, h, d)
  {
  }

  /** Whatever scaling happened, moving the slider back to the middle shows
      the diagram's image at its own size again. */
  lemma MidpointRestoresOriginal(p: Panel, h: Heap, value: int, adjusting: bool, again: bool,
                                 transcode: (string, int, int) -> Option<Image>)
    requires Live(h, p.diagram) && p.diagram.Some? && ImageOf(h, p.diagram.value).Some?
    ensures var r := SliderChanged(SliderChanged(p, h, value, adjusting, transcode), h, Midpoint, again, transcode);
      r.shown == Original(ImageOf(h, p.diagram.value).value) && r.slider == Midpoint
  {
  }

  /** While dragging, a diagram with an image is always shown scaled from
      that image, never with a zero dimension, at the size the scale
      formula gives. */
  lemma DragShowsFastScale(p: Panel, h: Heap, value: int, transcode: (string, int, int) -> Option<Image>)
    requires Live(h, p.diagram) && p.diagram.Some? && ImageOf(h, p.diagram.value).Some?
    requires 0 <= value <= Intervals && value != Midpoint
    ensures var image := ImageOf(h, p.diagram.value).value;
      var r := SliderChanged(p, h, value, true, transcode);
      && r.shown.FastScaled? && r.shown.source == image
      && r.shown.width >= 1 && r.shown.height >= 1
      && r.preferredSize == Some((ScaleDim(image.width, value), ScaleDim(image.height, value)))
  {
  }

  /** On release, a diagram with an image and its SVG is shown rasterised
      from the SVG at the size the scale formula gives. */
  lemma ReleaseShowsRasterised(p: Panel, h: Heap, value: int, transcode: (string, int, int) -> Option<Image>)
    requires Live(h, p.diagram) && p.diagram.Some? && value != Midpoint
    requires var d := h.objects[p.diagram.value];
      d.image.Some? && d.encodedImage.Some?
      && transcode(d.encodedImage.value, ScaleDim(d.image.value.width, value),
                   ScaleDim(d.image.value.height, value)).Some?
    ensures var d := h.objects[p.diagram.value];
      var width := ScaleDim(d.image.value.width, value);
      var height := ScaleDim(d.image.value.height, value);
      var r := SliderChanged(p, h, value, false, transcode);
      && r.shown == SvgScaled(transcode(d.encodedImage.value, width, height).value)
      && r.preferredSize == Some((width, height))
  {
  }

  /** On release, a failed rasterisation leaves the display as it was. */
  lemma FailedRasterisationKeepsDisplay(p: Panel, h: Heap, value: int,
                                        transcode: (string, int, int) -> Option<Image>)
    requires Live(h, p.diagram) && p.diagram.Some? && value != Midpoint
    requires var d := h.objects[p.diagram.value];
      d.image.Some? && d.encodedImage.Some?
      && transcode(d.encodedImage.value, ScaleDim(d.image.value.width, value),
                   ScaleDim(d.image.value.height, value)).None?
    ensures var r := SliderChanged(p, h, value, false, transcode);
      r.shown == p.shown && r.preferredSize == p.preferredSize
  {
  }
}

=== FILE: jint.dfy ===
/** Java `int` arithmetic: 32-bit two's-complement wrap-around and division
    that truncates toward zero (Dafny's own `/` is Euclidean).
 */
module JavaInt {

  const TWO_32: int := 0x1_0000_0000
  const MIN_INT: int := -0x8000_0000
  const MAX_INT: int := 0x7fff_ffff

  predicate IsInt(x: int) {
    MIN_INT <= x <= MAX_INT
  }

  /** The `int` value that the mathematical integer `x` wraps to. */
  function Wrap(x: int): (r: int)
    ensures IsInt(r)
    ensures (r - x) % TWO_32 == 0
    ensures IsInt(x) ==> r == x
  {
    (x - MIN_INT) % TWO_32 + MIN_INT
  }

  /** `a + b` on `int`. */
  function Add(a: int, b: int): int {
    Wrap(a + b)
  }

  /** `a - b` on `int`. */
  function Sub(a: int, b: int): int {
    Wrap(a - b)
  }

  /** `a * b` on `int`. */
  function Mul(a: int, b: int): int {
    Wrap(a * b)
  }

  /** `a / b` on `int` for a positive divisor (the program divides only by
      the constants 2 and 10): the quotient rounded toward zero. No positive
      divisor can overflow, so no wrapping is needed. */
  function Div(a: int, b: int): int
    requires b > 0
  {
    if a < 0 then -((-a) / b) else a / b
  }

  /** Division truncates: the remainder has the sign of the dividend and is
      smaller than the divisor. */
  lemma DivTruncates(a: int, b: int)
    requires b > 0
    ensures 0 <= a ==> 0 <= a - Div(a, b) * b < b
    ensures a < 0 ==> -b < a - Div(a, b) * b <= 0
  {
    var n := if a < 0 then -a else a;
    assert n == (n / b) * b + n % b;
  }
}

=== FILE: jstring.dfy ===
/** The `java.lang.String` and `java.util.StringTokenizer` behaviour the
    program relies on, on strings as sequences of characters.
 */
module JavaString {
  import opened Base

  /** `String.trim` strips every character whose code is at most U+0020. */
  predicate IsTrimmable(c: char) {
    c <= ' '
  }

  /** The leading part of `String.trim`: drop trimmable characters from the front. */
  function TrimStart(s: string): (r: string)
    ensures |r| <= |s| && r == s[|s| - |r|..]
    ensures forall k :: 0 <= k < |s| - |r| ==> IsTrimmable(s[k])
    ensures r == [] || !IsTrimmable(r[0])
  {
    if |s| > 0 && IsTrimmable(s[0]) then TrimStart(s[1..]) else s
  }

  /** The trailing part of `String.trim`: drop trimmable characters from the end. */
  function TrimEnd(s: string): (r: string)
    ensures |r| <= |s| && r == s[..|r|]
    ensures forall k :: |r| <= k < |s| ==> IsTrimmable(s[k])
    ensures r == [] || !IsTrimmable(r[|r| - 1])
  {
    if |s| > 0 && IsTrimmable(s[|s| - 1]) then TrimEnd(s[..|s| - 1]) else s
  }

  /** `String.trim`. */
  function Trim(s: string): (r: string)
    ensures |r| <= |s|
    ensures r == [] || (!IsTrimmable(r[0]) && !IsTrimmable(r[|r| - 1]))
    ensures r == [] <==> forall k :: 0 <= k < |s| ==> IsTrimmable(s[k])
  {
    var t := TrimStart(s);
    var r := TrimEnd(t);
    assert r != [] ==> r[0] == t[0];
    r
  }

  /** A string that neither starts nor ends with a trimmable character is
      its own trim. */
  lemma TrimUntrimmed(s: string)
    requires |s| > 0 && !IsTrimmable(s[0]) && !IsTrimmable(s[|s| - 1])
    ensures Trim(s) == s
  {
    assert TrimStart(s) == s;
    assert s[..|s|] == s;
    assert TrimEnd(s) == s;
  }

  /** Trimming twice is trimming once. */
  lemma TrimIdempotent(s: string)
    ensures Trim(Trim(s)) == Trim(s)
  {
    var r := Trim(s);
    if r != [] {
      assert TrimStart(r) == r;
      assert TrimEnd(r) == r;
    }
  }

  /** `Character.toLowerCase` on the ASCII letters; every other character is
      kept (see the README for why this suffices for the suffix tests). */
  function LowerChar(c: char): char {
    if 'A' <= c <= 'Z' then (c as int + 32) as char else c
  }

  /** `String.toLowerCase`, character by character. */
  function ToLower(s: string): (r: string)
    ensures |r| == |s|
    ensures forall i :: 0 <= i < |s| ==> r[i] == LowerChar(s[i])
  {
    if |s| == 0 then [] else [LowerChar(s[0])] + ToLower(s[1..])
  }

  /** Lower-casing a suffix is taking the suffix of the lower-cased string. */
  lemma ToLowerSuffix(s: string, n: nat)
    requires n <= |s|
    ensures ToLower(s)[n..] == ToLower(s[n..])
  {
  }

  /** `String.startsWith`. */
  predicate StartsWith(s: string, prefix: string) {
    |prefix| <= |s| && s[..|prefix|] == prefix
  }

  /** `String.endsWith`. */
  predicate EndsWith(s: string, suffix: string) {
    |suffix| <= |s| && s[|s| - |suffix|..] == suffix
  }

  /** Appending a suffix makes the string end with it. */
  lemma EndsWithAppended(s: string, suffix: string)
    ensures EndsWith(s + suffix, suffix)
  {
    assert (s + suffix)[|s + suffix| - |suffix|..] == suffix;
  }

  /** `String.lastIndexOf(char)`: the last position of `c`, or -1. */
  function LastIndexOf(s: string, c: char): (r: int)
    ensures -1 <= r < |s|
    ensures r == -1 <==> c !in s
    ensures 0 <= r ==> s[r] == c && forall j :: r < j < |s| ==> s[j] != c
  {
    if |s| == 0 then -1
    else if s[|s| - 1] == c then |s| - 1
    else
      var k := LastIndexOf(s[..|s| - 1], c);
      assert c in s ==> c in s[..|s| - 1];
      k
  }

  /** `String.substring(begin, end)`, which throws
      `StringIndexOutOfBoundsException` outside `0 <= begin <= end <= length`. */
  function Substring(s: string, begin: int, end: int): (r: Result<string>)
    ensures r.Ok? <==> 0 <= begin <= end <= |s|
    ensures r.Err? ==> r.error == IndexOutOfBounds
    ensures r.Ok? ==> |r.value| == end - begin
  {
    if 0 <= begin <= end <= |s| then Ok(s[begin..end]) else Err(IndexOutOfBounds)
  }

  /** Length of the run of non-delimiter characters at the front of `s`. */
  function RunLength(s: string, d: char): (n: nat)
    ensures n <= |s|
    ensures forall k :: 0 <= k < n ==> s[k] != d
    ensures n == |s| || s[n] == d
  {
    if |s| == 0 || s[0] == d then 0 else 1 + RunLength(s[1..], d)
  }

  /** The tokens of `new StringTokenizer(s, d)` with a one-character delimiter
      set: the maximal non-empty runs of non-delimiter characters, in order. */
  function Tokens(s: string, d: char): (r: seq<string>)
    ensures forall i :: 0 <= i < |r| ==> |r[i]| > 0 && d !in r[i]
    decreases |s|
  {
    if |s| == 0 then []
    else if s[0] == d then Tokens(s[1..], d)
    else
      var n := RunLength(s, d);
      [s[..n]] + Tokens(s[n..], d)
  }

  /** The string with every delimiter removed. */
  function Strip(s: string, d: char): (r: string)
    ensures d !in r
  {
    if |s| == 0 then []
    else if s[0] == d then Strip(s[1..], d)
    else [s[0]] + Strip(s[1..], d)
  }

  /** All strings of a sequence, concatenated. */
  function Concat(ss: seq<string>): string {
    if |ss| == 0 then [] else ss[0] + Concat(ss[1..])
  }

  lemma {:induction false} StripConcat(a: string, b: string, d: char)
    ensures Strip(a + b, d) == Strip(a, d) + Strip(b, d)
  {
    if |a| == 0 {
      assert a + b == b;
    } else {
      assert (a + b)[1..] == a[1..] + b;
      StripConcat(a[1..], b, d);
    }
  }

  lemma {:induction false} StripNone(s: string, d: char)
    requires d !in s
    ensures Strip(s, d) == s
  {
    if |s| > 0 {
      StripNone(s[1..], d);
    }
  }

  /** The tokens lose only delimiters: joined back together they are the
      input with its delimiters removed. */
  lemma {:induction false} TokensConcat(s: string, d: char)
    ensures Concat(Tokens(s, d)) == Strip(s, d)
    decreases |s|
  {
    if |s| == 0 {
    } else if s[0] == d {
      TokensConcat(s[1..], d);
    } else {
      var n := RunLength(s, d);
      assert s == s[..n] + s[n..];
      TokensConcat(s[n..], d);
      StripConcat(s[..n], s[n..], d);
      assert d !in s[..n];
      StripNone(s[..n], d);
    }
  }

  /** A delimiter always separates tokens: the text on either side of it is
      tokenized independently, so no token spans a delimiter and consecutive
      delimiters give no empty token. */
  lemma {:induction false} TokensSplit(a: string, b: string, d: char)
    ensures Tokens(a + [d] + b, d) == Tokens(a, d) + Tokens(b, d)
    decreases |a|
  {
    if |a| == 0 {
      assert a + [d] + b == [d] + b;
      assert ([d] + b)[1..] == b;
    } else if a[0] == d {
      assert (a + [d] + b)[1..] == a[1..] + [d] + b;
      TokensSplit(a[1..], b, d);
    } else {
      var s := a + [d] + b;
      var n := RunLength(a, d);
      var m := RunLength(s, d);
      RunLengthPrefix(a, [d] + b, d);
      assert s == a + ([d] + b);
      assert m == n;
      assert s[..m] == a[..n];
      assert s[m..] == a[n..] + [d] + b;
      TokensSplit(a[n..], b, d);
    }
  }

  /** The run at the front of `a + rest` ends inside `a` when `rest` starts
      with the delimiter. */
  lemma {:induction false} RunLengthPrefix(a: string, rest: string, d: char)
    requires |rest| > 0 && rest[0] == d
    ensures RunLength(a + rest, d) == RunLength(a, d)
    decreases |a|
  {
    if |a| == 0 {
      assert a + rest == rest;
    } else if a[0] != d {
      assert (a + rest)[1..] == a[1..] + rest;
      RunLengthPrefix(a[1..], rest, d);
    }
  }

  /** A string without delimiters is a single token, unless it is empty. */
  lemma TokensNoDelimiter(s: string, d: char)
    requires |s| > 0 && d !in s
    ensures Tokens(s, d) == [s]
  {
    assert RunLength(s, d) == |s|;
    assert s[..|s|] == s;
    assert Tokens(s[|s|..], d) == [];
  }
}

=== FILE: renderer.dfy ===
/** Renderer selection (`renderer/RendererFactory.java`) and the two
    renderers (`renderer/YUMLRenderer.java`, `renderer/WebSequenceRenderer.java`):
    which diagrams each accepts, its style catalogue, the requests it sends and
    what it leaves on the diagram.

    The network, the system properties, `URLEncoder`, the JSON parser and the
    Batik transcoder are all parameters gathered in `Services`.
 */
module Renderers {
  import opened Base
  import opened Diagrams
  import opened JavaString
  import YumlScript
  import Seqs

  datatype Renderer = YUML | WebSequence

  /** `canRender`: the test is `DiagramType.X.equals(type)`, so a diagram with
      no type is accepted by neither renderer and nothing is thrown. */
  predicate CanRender(r: Renderer, d: Diagram) {
    match r
    case YUML => d.diagramType == Some(Activity) || d.diagramType == Some(Class) || d.diagramType == Some(UseCase)
    case WebSequence => d.diagramType == Some(Sequence)
  }

  const YumlStyles: seq<DiagramStyle> := [
    DiagramStyle("Boring", "nofunky;"),
    DiagramStyle("Plain", "plain;"),
    DiagramStyle("Scruffy", "scruffy;")
  ]

  const WebSequenceStyles: seq<DiagramStyle> := [
    DiagramStyle("Plain UML", "default"),
    DiagramStyle("Green Earth", "earth"),
    DiagramStyle("Blue Modern", "modern-blue"),
    DiagramStyle("MSCGen", "mscgen"),
    DiagramStyle("Omegapple", "omegapple"),
    DiagramStyle("QSD", "qsd"),
    DiagramStyle("Rose", "rose"),
    DiagramStyle("Round Green", "roundgreen"),
    DiagramStyle("Napkin", "napkin")
  ]

  /** `getStylesForType`: each renderer returns its one fixed catalogue,
      whatever the type asked for. Both catalogues are non-empty and no two
      entries share a value, so the value identifies the entry. */
  function StylesForType(r: Renderer, t: Option<DiagramType>): (styles: seq<DiagramStyle>)
    ensures r.YUML? ==> |styles| == 3 && styles[0].value == "nofunky;" && styles[2].value == "scruffy;"
    ensures r.WebSequence? ==> |styles| == 9 && styles[0].value == "default" && styles[8].value == "napkin"
    ensures forall i, j :: 0 <= i < j < |styles| ==> styles[i].value != styles[j].value
  {
    match r
    case YUML => YumlStyles
    case WebSequence => WebSequenceStyles
  }

  /** `registerRenderer`: appends, keeping duplicates. */
  function RegisterRenderer(registry: seq<Renderer>, r: Renderer): (res: seq<Renderer>)
    ensures |res| == |registry| + 1 && res[|registry|] == r
    ensures forall i :: 0 <= i < |registry| ==> res[i] == registry[i]
  {
    registry + [r]
  }

  /** The position of the first registered renderer that accepts `d`, or -1. */
  function FirstMatch(registry: seq<Renderer>, d: Diagram): (i: int)
    ensures -1 <= i < |registry|
    ensures i == -1 <==> forall j :: 0 <= j < |registry| ==> !CanRender(registry[j], d)
    ensures 0 <= i ==> CanRender(registry[i], d) && forall j :: 0 <= j < i ==> !CanRender(registry[j], d)
  {
    if |registry| == 0 then -1
    else if CanRender(registry[0], d) then 0
    else
      var k := FirstMatch(registry[1..], d);
      if k == -1 then -1 else k + 1
  }

  /** `getRendererForDiagram`: the earliest registered renderer that accepts
      the diagram; `RendererException` when none does, including when nothing
      is registered. */
  function GetRendererForDiagram(registry: seq<Renderer>, d: Diagram): (r: Result<Renderer>)
    ensures r.Err? <==> forall j :: 0 <= j < |registry| ==> !CanRender(registry[j], d)
    ensures r.Err? ==> r.error == NoRenderer
    ensures r.Ok? ==> CanRender(r.value, d)
    ensures r.Ok? ==> exists i :: 0 <= i < |registry| && registry[i] == r.value
                        && forall j :: 0 <= j < i ==> !CanRender(registry[j], d)
  {
    var i := FirstMatch(registry, d);
    if i < 0 then Err(NoRenderer) else Ok(registry[i])
  }

  /** Registering more renderers never changes the answer for a diagram that
      already had one. */
  lemma RegisterKeepsAnswer(registry: seq<Renderer>, extra: Renderer, d: Diagram)
    requires GetRendererForDiagram(registry, d).Ok?
    ensures GetRendererForDiagram(RegisterRenderer(registry, extra), d) == GetRendererForDiagram(registry, d)
  {
    var longer := RegisterRenderer(registry, extra);
    var i := FirstMatch(registry, d);
    var k := FirstMatch(longer, d);
    assert longer[i] == registry[i];
    assert forall j :: 0 <= j < i ==> longer[j] == registry[j];
  }

  /** The registry the window builds: yUML first, then web sequence. */
  const Registered: seq<Renderer> := RegisterRenderer(RegisterRenderer([], YUML), WebSequence)

  /** With the window's registry every typed diagram has exactly one
      renderer: web sequence for sequence diagrams, yUML for the rest. An
      untyped diagram has none. */
  lemma RegisteredCoversEveryType(d: Diagram)
    ensures d.diagramType.Some? ==>
      exists i :: 0 <= i < |Registered| && CanRender(Registered[i], d)
        && forall j :: 0 <= j < |Registered| && j != i ==> !CanRender(Registered[j], d)
    ensures d.diagramType == Some(Sequence) ==> GetRendererForDiagram(Registered, d) == Ok(WebSequence)
    ensures d.diagramType.Some? && d.diagramType != Some(Sequence) ==> GetRendererForDiagram(Registered, d) == Ok(YUML)
    ensures d.diagramType.None? ==> GetRendererForDiagram(Registered, d) == Err(NoRenderer)
  {
    assert Registered == [YUML, WebSequence];
    match d.diagramType
    case Some(Sequence) =>
      assert CanRender(Registered[1], d);
    case Some(_) =>
      assert CanRender(Registered[0], d);
    case None =>
  }

  /** With the window's registry every typed diagram has a renderer. */
  lemma RegisteredRendersTyped(d: Diagram)
    ensures d.diagramType.Some? ==> GetRendererForDiagram(Registered, d).Ok?
  {
    RegisteredCoversEveryType(d);
  }

  /** One HTTP request: the yUML form post (its single `dsl_text` parameter),
      the web-sequence post of a prepared body, or a GET. */
  datatype Request = PostDsl(uri: string, dslText: string) | PostForm(uri: string, data: string) | Get(uri: string)

  /** Everything outside the program a render touches. `exchange` answers a
      request with its response body, or `None` for an `IOException`;
      `imgField` reads the `img` member of a JSON reply; `errorsField` says
      whether a JSON reply holds an `errors` array; `transcode` is Batik;
      `decode` is `ImageUtils.decodeImage`. */
  datatype Services = Services(
    yumlUrl: Option<string>,
    websequenceUrl: Option<string>,
    urlModifier: DiagramType -> string,
    urlEncode: string -> string,
    exchange: Request -> Option<string>,
    imgField: string -> Option<string>,
    errorsField: string -> bool,
    transcode: string -> Option<Image>,
    decode: string -> Option<Image>)

  /** `getBaseURL`: the system property, or the public service when unset. */
  function BaseUrl(r: Renderer, env: Services): string {
    match r
    case YUML => env.yumlUrl.GetOr("http://yuml.me/")
    case WebSequence => env.websequenceUrl.GetOr("http://www.websequencediagrams.com/")
  }

  /** The yUML post address. */
  function PostUri(base: string, style: string, modifier: string): string {
    base + "diagram/" + style + "/" + modifier + "/"
  }

  /** Reads the style value and type modifier back out of a yUML post
      address: the text between `diagram/` and the next `/`, then the rest
      without its final `/`. */
  function ParsePostUri(base: string, uri: string): (r: Option<(string, string)>)
  {
    var head := base + "diagram/";
    if !StartsWith(uri, head) || !EndsWith(uri, "/") || |uri| == |head| then None
    else
      var middle := uri[|head|..|uri| - 1];
      var cut := Seqs.IndexOf(middle, '/');
      if cut < 0 then None else Some((middle[..cut], middle[cut + 1..]))
  }

  /** The yUML address keeps both pieces recoverable as long as the style
      value contains no `/` (none of the catalogue values does). */
  lemma PostUriRoundTrip(base: string, style: string, modifier: string)
    requires '/' !in style
    ensures ParsePostUri(base, PostUri(base, style, modifier)) == Some((style, modifier))
  {
    var head := base + "diagram/";
    var tail := "/" + modifier;
    var middle := style + tail;
    var uri := PostUri(base, style, modifier);
    assert uri == head + middle + "/";
    assert uri[..|head|] == head;
    assert StartsWith(uri, head);
    assert uri[|uri| - 1..] == "/";
    assert EndsWith(uri, "/");
    assert uri[|head|..|uri| - 1] == middle;
    Seqs.IndexOfAfter(style, tail, '/');
    assert Seqs.IndexOf(middle, '/') == |style|;
    assert middle[..|style|] == style;
    assert middle[|style| + 1..] == modifier;
  }

  const FormatPart: string := "&format=svg&message="

  /** The web-sequence request body. */
  function FormBody(style: string, encodedScript: string): string {
    "style=" + style + FormatPart + encodedScript
  }

  /** Reads the style value and encoded script back out of a request body. */
  function ParseFormBody(data: string): (r: Option<(string, string)>)
  {
    if !StartsWith(data, "style=") then None
    else
      var rest := data[6..];
      var cut := Seqs.IndexOf(rest, '&');
      if cut < 0 || !StartsWith(rest[cut..], FormatPart) then None
      else Some((rest[..cut], rest[cut + |FormatPart|..]))
  }

  /** The body keeps both pieces recoverable as long as the style value
      contains no `&`. */
  lemma FormBodyRoundTrip(style: string, encodedScript: string)
    requires '&' !in style
    ensures ParseFormBody(FormBody(style, encodedScript)) == Some((style, encodedScript))
  {
    var tail := FormatPart + encodedScript;
    var rest := style + tail;
    var data := FormBody(style, encodedScript);
    assert data == "style=" + rest;
    assert data[..6] == "style=";
    assert data[6..] == rest;
    Seqs.IndexOfAfter(style, tail, '&');
    assert rest[|style|..] == tail;
    assert tail[..|FormatPart|] == FormatPart;
    assert rest[..|style|] == style;
    assert rest[|style| + |FormatPart|..] == encodedScript;
  }

  /** What a render leaves behind: the diagram as changed, the requests sent
      in order, and the image or the exception. */
  datatype Rendered = Rendered(diagram: Diagram, sent: seq<Request>, image: Result<Image>)

  /** What every render of `d` by `r` guarantees about its outcome. */
  predicate RenderContract(r: Renderer, d: Diagram, env: Services, out: Rendered) {
    // A missing script is reported before anything else happens.
    && (d.script.None? ==> out == Rendered(d, [], Err(NoScript)))
    // Only the stored SVG text, and the image decoded from it when there was
    // none, can change on the diagram.
    && (out.diagram == d
        || (out.diagram.encodedImage.Some?
            && out.diagram == SetEncodedImage(d, out.diagram.encodedImage.value, env.decode)))
    // At most a post and then a get from the same service.
    && |out.sent| <= 2
    && (|out.sent| > 0 ==> (if r.YUML? then out.sent[0].PostDsl? else out.sent[0].PostForm?))
    && (|out.sent| == 2 ==> out.sent[1].Get? && StartsWith(out.sent[1].uri, BaseUrl(r, env)))
    // An image comes only from transcoding the SVG now stored on the diagram.
    && (out.image.Ok? ==>
          |out.sent| == 2 && out.diagram.encodedImage.Some?
          && out.diagram.encodedImage == env.exchange(out.sent[1])
          && env.transcode(out.diagram.encodedImage.value) == Some(out.image.value))
    // A transcoder failure still leaves the fetched SVG stored.
    && (out.image == Err(TranscodeFailure) ==>
          |out.sent| == 2 && out.diagram.encodedImage == env.exchange(out.sent[1]))
  }

  /** The common tail of both renderers: fetch the SVG from `base + name`,
      store it on the diagram with `setEncodedImage`, then transcode it. The
      SVG is stored before transcoding, so a transcoder failure still leaves
      it there. */
  function FetchAndTranscode(d: Diagram, posted: Request, base: string, name: string, env: Services): (out: Rendered)
    ensures out.sent == [posted, Get(base + name)]
    ensures StartsWith(out.sent[1].uri, base)
    ensures env.exchange(Get(base + name)).None? ==> out.diagram == d && out.image == Err(IOFailure)
    ensures env.exchange(Get(base + name)).Some? ==>
      var svg := env.exchange(Get(base + name)).value;
      && out.diagram == SetEncodedImage(d, svg, env.decode)
      && out.image == (if env.transcode(svg).Some? then Ok(env.transcode(svg).value) else Err(TranscodeFailure))
  {
    var get := Get(base + name);
    assert get.uri[..|base|] == base;
    match env.exchange(get)
    case None => Rendered(d, [posted, get], Err(IOFailure))
    case Some(svg) =>
      var stored := SetEncodedImage(d, svg, env.decode);
      match env.transcode(svg)
      case Some(img) => Rendered(stored, [posted, get], Ok(img))
      case None => Rendered(stored, [posted, get], Err(TranscodeFailure))
  }

  /** `YUMLRenderer.render`. */
  function RenderYuml(d: Diagram, env: Services): (out: Rendered)
    ensures RenderContract(YUML, d, env, out)
  {
    match d.script
    case None => Rendered(d, [], Err(NoScript))
    case Some(script) =>
      var text := YumlScript.FlattenScript(script);
      var base := BaseUrl(YUML, env);
      if d.style.None? || d.diagramType.None? then Rendered(d, [], Err(NullPointer))
      else
        var post := PostDsl(PostUri(base, d.style.value.value, env.urlModifier(d.diagramType.value)), text);
        match env.exchange(post)
        case None => Rendered(d, [post], Err(IOFailure))
        case Some(name) => FetchAndTranscode(d, post, base, name, env)
  }

  /** `WebSequenceRenderer.render`. The `errors` array of the reply is read
      only after the SVG was fetched, stored and transcoded, so a reply
      without one fails the render with the SVG already on the diagram. */
  function RenderWebSequence(d: Diagram, env: Services): (out: Rendered)
    ensures RenderContract(WebSequence, d, env, out)
    ensures out.image.Ok? ==>
      env.exchange(out.sent[0]).Some? && env.errorsField(env.exchange(out.sent[0]).value)
    ensures |out.sent| == 2 && env.exchange(out.sent[0]).Some? && env.exchange(out.sent[1]).Some?
            && env.transcode(env.exchange(out.sent[1]).value).Some? && !env.errorsField(env.exchange(out.sent[0]).value) ==>
      out.image == Err(MalformedResponse) && out.diagram.encodedImage == env.exchange(out.sent[1])
  {
    match d.script
    case None => Rendered(d, [], Err(NoScript))
    case Some(script) =>
      var base := BaseUrl(WebSequence, env);
      if d.style.None? then Rendered(d, [], Err(NullPointer))
      else
        var post := PostForm(base, FormBody(d.style.value.value, env.urlEncode(script)));
        match env.exchange(post)
        case None => Rendered(d, [post], Err(IOFailure))
        case Some(answer) =>
          match env.imgField(answer)
          case None => Rendered(d, [post], Err(MalformedResponse))
          case Some(img) =>
            var fetched := FetchAndTranscode(d, post, base, img, env);
            if fetched.image.Ok? && !env.errorsField(answer) then fetched.(image := Err(MalformedResponse))
            else fetched
  }

  /** `Renderer.render` for either renderer. */
  function Render(r: Renderer, d: Diagram, env: Services): (out: Rendered)
    ensures RenderContract(r, d, env, out)
  {
    match r
    case YUML => RenderYuml(d, env)
    case WebSequence => RenderWebSequence(d, env)
  }

  /** The yUML post carries the flattened script to the address built from
      the base URL, the style value and the type's modifier. */
  lemma YumlPostShape(d: Diagram, env: Services)
    requires d.script.Some? && d.style.Some? && d.diagramType.Some?
    ensures var out := Render(YUML, d, env);
      |out.sent| > 0 && out.sent[0] == PostDsl(
        PostUri(BaseUrl(YUML, env), d.style.value.value, env.urlModifier(d.diagramType.value)),
        YumlScript.FlattenScript(d.script.value))
  {
    assert Render(YUML, d, env) == RenderYuml(d, env);
  }

  /** The web-sequence post carries the style value and the URL-encoded
      script, and goes to the base URL itself. */
  lemma WebSequencePostShape(d: Diagram, env: Services)
    requires d.script.Some? && d.style.Some?
    ensures var out := Render(WebSequence, d, env);
      |out.sent| > 0 && out.sent[0] == PostForm(BaseUrl(WebSequence, env),
        FormBody(d.style.value.value, env.urlEncode(d.script.value)))
  {
  }
}

=== FILE: seqs.dfy ===
/** Sequence operations shared by the Java collections the program uses
    (`DefaultListModel`, `LinkedList`): identity search and removal of
    one occurrence.
 */
module Seqs {

  /** `List.indexOf`: the position of the first occurrence of `x`, or -1. */
  function IndexOf<T(==)>(s: seq<T>, x: T): (r: int)
    ensures -1 <= r < |s|
    ensures r == -1 <==> x !in s
    ensures 0 <= r ==> s[r] == x && forall j :: 0 <= j < r ==> s[j] != x
  {
    if |s| == 0 then -1
    else if s[0] == x then 0
    else
      var k := IndexOf(s[1..], x);
      if k == -1 then -1 else k + 1
  }

  /** `Collection.remove(Object)` / `DefaultListModel.removeElement`: drop the
      first occurrence of `x`, keeping the order of everything else; a
      sequence without `x` is returned unchanged. */
  function RemoveFirst<T(==)>(s: seq<T>, x: T): (r: seq<T>)
    ensures x !in s ==> r == s
    ensures x in s ==> |r| == |s| - 1
    ensures x in s ==> r[..IndexOf(s, x)] == s[..IndexOf(s, x)] && r[IndexOf(s, x)..] == s[IndexOf(s, x) + 1..]
    ensures multiset(r) == multiset(s) - multiset{x}
  {
    var i := IndexOf(s, x);
    if i < 0 then s
    else
      assert s == s[..i] + [x] + s[i + 1..];
      s[..i] + s[i + 1..]
  }

  /** The first `x` in `a + b` is the head of `b` when `a` has none. */
  lemma IndexOfAfter<T>(a: seq<T>, b: seq<T>, x: T)
    requires x !in a && |b| > 0 && b[0] == x
    ensures IndexOf(a + b, x) == |a|
  {
    var s := a + b;
    assert s[|a|] == x;
    assert forall j :: 0 <= j < |a| ==> s[j] == a[j];
  }
}

=== FILE: theorems.dfy ===
/** The actions and the window together: an action's events handled by the
    main window, one after another, as `invokeLater` runs them. These are
    the end-to-end promises of the program: a saved session reopens with the
    same diagrams, closing clears the session, a created diagram lands in its
    list selected, and a confirmed delete takes it out again.
 */
module Sessions {
  import opened Base
  import opened Diagrams
  import opened ApplicationModel
  import opened Events
  import opened MainWindow
  import opened FileNames
  import opened FileActions
  import Seqs
  import UIUtils
  import Renderers

  /** The diagrams among `refs` whose type is `t`, in order. */
  function RefsOfType(h: Heap, refs: seq<Ref>, t: DiagramType): seq<Ref> {
    if |refs| == 0 then []
    else (if TypeOf(h, refs[0]) == Some(t) then [refs[0]] else []) + RefsOfType(h, refs[1..], t)
  }

  lemma {:induction false} RefsOfTypeSubset(h: Heap, refs: seq<Ref>, t: DiagramType)
    ensures forall x :: x in RefsOfType(h, refs, t) ==> x in refs
  {
    if |refs| > 0 {
      RefsOfTypeSubset(h, refs[1..], t);
    }
  }

  /** Picking the diagrams of a type and picking the records of that type
      agree. */
  lemma {:induction false} RecordsOfRefsOfType(h: Heap, refs: seq<Ref>, t: DiagramType)
    requires forall x :: x in refs ==> x in h.objects
    ensures forall x :: x in RefsOfType(h, refs, t) ==> x in h.objects
    ensures Records(h, RefsOfType(h, refs, t)) == RecordsOfType(Records(h, refs), t)
  {
    RefsOfTypeSubset(h, refs, t);
    if |refs| > 0 {
      var head := if TypeOf(h, refs[0]) == Some(t) then [refs[0]] else [];
      var tail := RefsOfType(h, refs[1..], t);
      RefsOfTypeSubset(h, refs[1..], t);
      RecordsOfRefsOfType(h, refs[1..], t);
      RecordsConcat(h, head, tail);
      var rs := Records(h, refs);
      RecordsCons(h, refs);
      assert Records(h, head) == if rs[0].diagramType == Some(t) then [rs[0]] else [];
      assert RecordsOfType(rs, t) == Records(h, head) + RecordsOfType(rs[1..], t);
    }
  }

  /** The records of a non-empty list: the first diagram's, then the rest's. */
  lemma RecordsCons(h: Heap, refs: seq<Ref>)
    requires |refs| > 0 && forall x :: x in refs ==> x in h.objects
    ensures Records(h, refs)[0].diagramType == TypeOf(h, refs[0])
    ensures Records(h, refs)[1..] == Records(h, refs[1..])
  {
  }

  lemma RunCons(w: Window, h: Heap, e: JSEvent, rest: seq<JSEvent>)
    ensures Run(w, h, [e] + rest) == Run(Step(w, h, e), h, rest)
  {
    assert ([e] + rest)[0] == e;
    assert ([e] + rest)[1..] == rest;
  }

  /** One DiagramAdded appends its diagram to the list of its type and to no
      other list; the file name and selection stay. */
  lemma AddedStep(w: Window, h: Heap, src: Source, d: Ref)
    ensures var r := Step(w, h, JSEvent(DiagramAdded, src, DiagramRef(d)));
      && (forall t :: ListOf(r.model, t) == ListOf(w.model, t) + (if TypeOf(h, d) == Some(t) then [d] else []))
      && r.model.fileName == w.model.fileName && r.selection == w.selection
  {
    AddedEvent(w, h, d, src);
  }

  /** Handling DiagramAdded for each diagram appends each typed one to the
      list of its type, in order; the file name and selection stay. */
  lemma {:induction false} ReplayAdded(w: Window, h: Heap, src: Source, refs: seq<Ref>)
    ensures var r := Run(w, h, AddedEvents(src, refs));
      && (forall t :: ListOf(r.model, t) == ListOf(w.model, t) + RefsOfType(h, refs, t))
      && r.model.fileName == w.model.fileName && r.selection == w.selection
    decreases |refs|
  {
    if |refs| == 0 {
      assert AddedEvents(src, refs) == [];
    } else {
      var first := JSEvent(DiagramAdded, src, DiagramRef(refs[0]));
      var rest := AddedEvents(src, refs[1..]);
      AddedEventsCons(src, refs);
      RunCons(w, h, first, rest);
      AddedStep(w, h, src, refs[0]);
      var w1 := Step(w, h, first);
      ReplayAdded(w1, h, src, refs[1..]);
      AppendedInTurn(w.model, w1.model, Run(w1, h, rest).model, h, refs);
    }
  }

  /** Appending the first diagram and then the typed rest is appending the
      typed whole. */
  lemma AppendedInTurn(m: Model, m1: Model, m2: Model, h: Heap, refs: seq<Ref>)
    requires |refs| > 0
    requires forall t :: ListOf(m1, t) == ListOf(m, t) + (if TypeOf(h, refs[0]) == Some(t) then [refs[0]] else [])
    requires forall t :: ListOf(m2, t) == ListOf(m1, t) + RefsOfType(h, refs[1..], t)
    ensures forall t :: ListOf(m2, t) == ListOf(m, t) + RefsOfType(h, refs, t)
  {
    forall t
      ensures ListOf(m2, t) == ListOf(m, t) + RefsOfType(h, refs, t)
    {
      var head := if TypeOf(h, refs[0]) == Some(t) then [refs[0]] else [];
      var tail := RefsOfType(h, refs[1..], t);
      assert RefsOfType(h, refs, t) == head + tail;
      AppendTwice(ListOf(m, t), ListOf(m1, t), ListOf(m2, t), head, tail);
    }
  }

  lemma AppendTwice(l: seq<Ref>, l1: seq<Ref>, l2: seq<Ref>, head: seq<Ref>, tail: seq<Ref>)
    requires l1 == l + head && l2 == l1 + tail
    ensures l2 == l + (head + tail)
  {
  }

  /** The window after a successful read: the progress events around it,
      everything cleared, every diagram added, the first one selected and
      the file named. */
  lemma ReplayRead(w: Window, h: Heap, refs: seq<Ref>, c: string)
    requires |refs| > 0
    ensures var r := Run(w, h, [Started] + ([ClearEvent] + AddedEvents(ActionSource, refs)
                        + [JSEvent(SelectDiagram, ActionSource, DiagramRef(refs[0])), FileNameChangedTo(Some(c))])
                        + [Completed]);
      && (forall t :: ListOf(r.model, t) == RefsOfType(h, refs, t))
      && r.model.fileName == Some(c) && !r.model.dirty && !r.busy
  {
    var select := JSEvent(SelectDiagram, ActionSource, DiagramRef(refs[0]));
    var named := FileNameChangedTo(Some(c));
    var added := AddedEvents(ActionSource, refs);
    assert [Started] + ([ClearEvent] + added + [select, named]) + [Completed]
        == [Started, ClearEvent] + added + [select, named, Completed];
    var w1 := Run(w, h, [Started, ClearEvent]);
    RunCons(w, h, Started, [ClearEvent]);
    RunCons(Step(w, h, Started), h, ClearEvent, []);
    DeleteAllEvent(Step(w, h, Started), h, ClearEvent);
    RunConcat(w, h, [Started, ClearEvent], added);
    ReplayAdded(w1, h, ActionSource, refs);
    var w2 := Run(w1, h, added);
    RunConcat(w, h, [Started, ClearEvent] + added, [select, named, Completed]);
    ReplayReadTail(w2, h, refs[0], c);
  }

  /** The end of a read: selecting the first diagram, announcing the file
      name and completing keeps the lists, names the model and cleans it. */
  lemma ReplayReadTail(w: Window, h: Heap, d: Ref, c: string)
    ensures var r := Run(w, h, [JSEvent(SelectDiagram, ActionSource, DiagramRef(d)), FileNameChangedTo(Some(c)), Completed]);
      && SameLists(r.model, w.model) && r.model.fileName == Some(c) && !r.model.dirty && !r.busy
  {
    var select := JSEvent(SelectDiagram, ActionSource, DiagramRef(d));
    var named := FileNameChangedTo(Some(c));
    RunCons(w, h, select, [named, Completed]);
    QuietEventsKeepModel(w, h, select);
    var w1 := Step(w, h, select);
    RunCons(w1, h, named, [Completed]);
    FileNameEvent(w1, h, Some(c), ActionSource);
    var w2 := Step(w1, h, named);
    RunCons(w2, h, Completed, []);
    ProgressKeepsView(w2, h, Completed);
    assert Run(Step(w2, h, Completed), h, []) == Step(w2, h, Completed);
  }

  /** The window after reading an empty definitions list: cleared, and
      nothing else. */
  lemma ReplayEmptyRead(w: Window, h: Heap)
    ensures var r := Run(w, h, [Started] + [ClearEvent] + [Completed]);
      && (forall t :: ListOf(r.model, t) == []) && r.model.fileName == w.model.fileName
      && !r.model.dirty && !r.busy
  {
    assert [Started] + [ClearEvent] + [Completed] == [Started, ClearEvent, Completed];
    RunCons(w, h, Started, [ClearEvent, Completed]);
    RunCons(Step(w, h, Started), h, ClearEvent, [Completed]);
    DeleteAllEvent(Step(w, h, Started), h, ClearEvent);
    RunCons(Step(Step(w, h, Started), h, ClearEvent), h, Completed, []);
  }

  /** Handling a successful save: the lists stay, the file is named after
      the canonical path of the saved file, and the model is clean. */
  lemma ReplaySave(w: Window, h: Heap, c: string)
    ensures var r := Run(w, h, [Started, FileNameChangedTo(Some(c)), Completed]);
      && r.model.fileName == Some(c) && !r.model.dirty && SameLists(r.model, w.model)
  {
    var named := FileNameChangedTo(Some(c));
    RunCons(w, h, Started, [named, Completed]);
    RunCons(Step(w, h, Started), h, named, [Completed]);
    FileNameEvent(Step(w, h, Started), h, Some(c), ActionSource);
    RunCons(Step(Step(w, h, Started), h, named), h, Completed, []);
  }

  /** The user saves the session to its file and then opens (with
      `transcode`) or loads (without) the file just written. Returns the
      window and the heap afterwards. */
  function SaveThenOpen(w0: Window, h: Heap, files: Files, p: Platform, answer: Answer,
                        decode: string -> Option<Image>, transcode: Option<string -> Option<Image>>): (Window, Heap)
    requires ValidHeap(h) && WellFormed(w0, h) && w0.model.fileName.Some?
    requires SaveTarget(w0.model.fileName.value, p).Some?
  {
    TypedListsAreLive(w0.model, h);
    var saved := Save(w0.model, h, files, p);
    var w1 := Run(w0, h, saved.events);
    RunPreservesWellFormed(w0, h, saved.events);
    TypedListsAreLive(w1.model, h);
    var reopened := OpenWith(w1.model, h, saved.files, p, answer, SaveTarget(w0.model.fileName.value, p),
                           decode, transcode);
    (Run(w1, reopened.heap, reopened.events), reopened.heap)
  }

  /** The diagrams picked by type hold that type. */
  lemma {:induction false} RefsOfTypeTyped(h: Heap, refs: seq<Ref>, t: DiagramType)
    ensures forall i :: 0 <= i < |RefsOfType(h, refs, t)| ==> TypeOf(h, RefsOfType(h, refs, t)[i]) == Some(t)
  {
    if |refs| > 0 {
      RefsOfTypeTyped(h, refs[1..], t);
      var head := if TypeOf(h, refs[0]) == Some(t) then [refs[0]] else [];
      assert RefsOfType(h, refs, t) == head + RefsOfType(h, refs[1..], t);
    }
  }

  /** A save to a writable file whose canonical path exists: the file holds
      the records of all diagrams, and the window, once it handled the
      events, is clean and named after the canonical path. */
  lemma SavedSession(w0: Window, h: Heap, files: Files, p: Platform)
    requires WellFormed(w0, h) && w0.model.fileName.Some?
    requires SaveTarget(w0.model.fileName.value, p).Some?
    requires var target := SaveTarget(w0.model.fileName.value, p).value;
      p.writable(target) && p.canon(target).Some?
    ensures ListsLive(w0.model, h)
    ensures var saved := Save(w0.model, h, files, p);
      var w1 := Run(w0, h, saved.events);
      var target := SaveTarget(w0.model.fileName.value, p).value;
      && WellFormed(w1, h) && !w1.model.dirty && w1.model.fileName == p.canon(target)
      && target in saved.files && saved.files[target] == Definitions(Records(h, AllDiagrams(w0.model)))
  {
    TypedListsAreLive(w0.model, h);
    var target := SaveTarget(w0.model.fileName.value, p).value;
    var c := p.canon(target).value;
    var saved := Save(w0.model, h, files, p);
    assert saved.events == [Started, FileNameChangedTo(Some(c)), Completed];
    ReplaySave(w0, h, c);
    RunPreservesWellFormed(w0, h, saved.events);
  }

  /** From a clean session whose file name has a directory, Open and Load
      skip the prompt and dispatch the read between the progress events. */
  lemma OpenedAsRead(w1: Window, h: Heap, files: Files, p: Platform, answer: Answer, target: string,
                     decode: string -> Option<Image>, transcode: Option<string -> Option<Image>>)
    requires ValidHeap(h) && ListsLive(w1.model, h) && !w1.model.dirty
    requires p.canon(target).Some? && w1.model.fileName == p.canon(target) && p.separator in p.canon(target).value
    ensures var o := OpenWith(w1.model, h, files, p, answer, Some(target), decode, transcode);
      var read := ReadDefinitions(h, files, target, p, decode, transcode);
      o.events == [Started] + read.events + [Completed] && o.heap == read.heap
  {
    assert SaveFirst(w1.model, h, files, p, answer) == Some(Saved(files, []));
    assert ParentDirectory(w1.model.fileName.value, p.separator).Ok?;
    var read := ReadDefinitions(h, files, target, p, decode, transcode);
    assert [] + [Started] + read.events + [Completed] == [Started] + read.events + [Completed];
  }

  /** Handling a successful read of a non-empty file: the lists hold new,
      correctly typed diagrams whose records, type by type, are the file's
      records of that type. */
  lemma ReadReplayedNonEmpty(w1: Window, h: Heap, files: Files, p: Platform, target: string,
                             recs: seq<Record>, decode: string -> Option<Image>,
                             transcode: Option<string -> Option<Image>>)
    requires ValidHeap(h) && p.canon(target).Some?
    requires target in files && files[target] == Definitions(recs) && |recs| > 0
    requires transcode.Some? ==>
      forall i :: 0 <= i < |recs| ==> recs[i].encodedImage.Some? && transcode.value(recs[i].encodedImage.value).Some?
    ensures var read := ReadDefinitions(h, files, target, p, decode, transcode);
      var r := Run(w1, read.heap, [Started] + read.events + [Completed]);
      && ListsTyped(r.model, read.heap)
      && (forall t :: (forall x :: x in ListOf(r.model, t) ==> x in read.heap.objects)
                      && Records(read.heap, ListOf(r.model, t)) == RecordsOfType(recs, t))
      && (forall t, x :: x in ListOf(r.model, t) ==> x !in h.objects)
      && !r.model.dirty && r.model.fileName == p.canon(target)
  {
    var read := ReadDefinitions(h, files, target, p, decode, transcode);
    ReadDefinitionsSucceeds(h, files, target, p, decode, transcode);
    var refs := AllocAll(h, recs, decode).1;
    ReplayRead(w1, read.heap, refs, p.canon(target).value);
    var r := Run(w1, read.heap, [Started] + read.events + [Completed]);
    forall t
      ensures forall x :: x in ListOf(r.model, t) ==> x in read.heap.objects && x !in h.objects
      ensures Records(read.heap, ListOf(r.model, t)) == RecordsOfType(recs, t)
      ensures forall i :: 0 <= i < |ListOf(r.model, t)| ==> TypeOf(read.heap, ListOf(r.model, t)[i]) == Some(t)
    {
      DecodedOfType(read.heap, h, refs, recs, t);
    }
  }

  /** The new diagrams of one type: new objects, typed, holding the
      records of that type. */
  lemma DecodedOfType(heap: Heap, h: Heap, refs: seq<Ref>, recs: seq<Record>, t: DiagramType)
    requires forall x :: x in refs ==> x in heap.objects && x !in h.objects
    requires Records(heap, refs) == recs
    ensures forall x :: x in RefsOfType(heap, refs, t) ==> x in heap.objects && x !in h.objects
    ensures Records(heap, RefsOfType(heap, refs, t)) == RecordsOfType(recs, t)
    ensures forall i :: 0 <= i < |RefsOfType(heap, refs, t)| ==> TypeOf(heap, RefsOfType(heap, refs, t)[i]) == Some(t)
  {
    RefsOfTypeSubset(heap, refs, t);
    RecordsOfRefsOfType(heap, refs, t);
    RefsOfTypeTyped(heap, refs, t);
  }

  /** Opening a definitions file from a clean session named after it: the
      session afterwards holds new, correctly typed diagrams whose records,
      type by type, are the file's records of that type. */
  lemma ReopenSaved(w1: Window, h: Heap, files: Files, p: Platform, answer: Answer, target: string,
                    recs: seq<Record>, decode: string -> Option<Image>, transcode: Option<string -> Option<Image>>)
    requires ValidHeap(h) && ListsTyped(w1.model, h) && !w1.model.dirty
    requires p.canon(target).Some? && w1.model.fileName == p.canon(target) && p.separator in p.canon(target).value
    requires target in files && files[target] == Definitions(recs)
    requires transcode.Some? ==>
      forall i :: 0 <= i < |recs| ==> recs[i].encodedImage.Some? && transcode.value(recs[i].encodedImage.value).Some?
    ensures ListsLive(w1.model, h)
    ensures var o := OpenWith(w1.model, h, files, p, answer, Some(target), decode, transcode);
      var r := Run(w1, o.heap, o.events);
      && ListsTyped(r.model, o.heap) && ListsLive(r.model, o.heap)
      && (forall t :: Records(o.heap, ListOf(r.model, t)) == RecordsOfType(recs, t))
      && (forall t, x :: x in ListOf(r.model, t) ==> x !in h.objects)
      && !r.model.dirty && r.model.fileName == p.canon(target)
  {
    TypedListsAreLive(w1.model, h);
    OpenedAsRead(w1, h, files, p, answer, target, decode, transcode);
    var o := OpenWith(w1.model, h, files, p, answer, Some(target), decode, transcode);
    var r := Run(w1, o.heap, o.events);
    if |recs| == 0 {
      assert ReadDefinitions(h, files, target, p, decode, transcode).events == [ClearEvent];
      ReplayEmptyRead(w1, o.heap);
    } else {
      ReadReplayedNonEmpty(w1, h, files, p, target, recs, decode, transcode);
    }
    TypedListsAreLive(r.model, o.heap);
  }

  /** Save then open is the identity on the diagrams: every list comes back
      with new objects holding the records of the saved ones, in the same
      order; the session is clean and named after the canonical path of the
      saved file. Opening needs every SVG to transcode; loading does not. */
  lemma SaveThenOpenRestores(w0: Window, h: Heap, files: Files, p: Platform, answer: Answer,
                             decode: string -> Option<Image>, transcode: Option<string -> Option<Image>>)
    requires ValidHeap(h) && WellFormed(w0, h) && w0.model.fileName.Some?
    requires SaveTarget(w0.model.fileName.value, p).Some?
    requires var target := SaveTarget(w0.model.fileName.value, p).value;
      p.writable(target) && p.canon(target).Some? && p.separator in p.canon(target).value
    requires transcode.Some? ==>
      forall x :: x in AllDiagrams(w0.model) ==> x in h.objects && Transcodes(h.objects[x], transcode.value)
    ensures var r := SaveThenOpen(w0, h, files, p, answer, decode, transcode);
      && ListsLive(w0.model, h) && ListsTyped(r.0.model, r.1) && ListsLive(r.0.model, r.1)
      && (forall t :: Records(r.1, ListOf(r.0.model, t)) == Records(h, ListOf(w0.model, t)))
      && (forall t, x :: x in ListOf(r.0.model, t) ==> x !in h.objects)
      && !r.0.model.dirty
      && r.0.model.fileName == p.canon(SaveTarget(w0.model.fileName.value, p).value)
  {
    SavedSession(w0, h, files, p);
    var target := SaveTarget(w0.model.fileName.value, p).value;
    var saved := Save(w0.model, h, files, p);
    var w1 := Run(w0, h, saved.events);
    var recs := Records(h, AllDiagrams(w0.model));
    if transcode.Some? {
      forall i | 0 <= i < |recs|
        ensures recs[i].encodedImage.Some? && transcode.value(recs[i].encodedImage.value).Some?
      {
        assert AllDiagrams(w0.model)[i] in AllDiagrams(w0.model);
      }
    }
    ReopenSaved(w1, h, saved.files, p, answer, target, recs, decode, transcode);
    forall t
      ensures RecordsOfType(recs, t) == Records(h, ListOf(w0.model, t))
    {
      SavedRecordsByType(w0.model, h, t);
    }
  }

  /** Handling the events Close dispatches after the prompt. */
  lemma ReplayClose(w: Window, h: Heap)
    ensures var r := Run(w, h, [Started, ClearEvent, FileNameChangedTo(None), Completed]);
      && (forall t :: ListOf(r.model, t) == []) && r.model.fileName.None? && !r.model.dirty
      && r.selection == map[] && r.displayed.None? && r.title == PlainTitle && !r.busy
      && !r.saveEnabled && !r.saveAsEnabled
  {
    var named := FileNameChangedTo(None);
    RunCons(w, h, Started, [ClearEvent, named, Completed]);
    var w1 := Step(w, h, Started);
    RunCons(w1, h, ClearEvent, [named, Completed]);
    DeleteAllEvent(w1, h, ClearEvent);
    var w2 := Step(w1, h, ClearEvent);
    RunCons(w2, h, named, [Completed]);
    FileNameEvent(w2, h, None, ActionSource);
    var w3 := Step(w2, h, named);
    RunCons(w3, h, Completed, []);
    ProgressKeepsView(w3, h, Completed);
    assert Run(Step(w3, h, Completed), h, []) == Step(w3, h, Completed);
  }

  /** Close, once past the save-first prompt, leaves an empty, clean,
      unnamed session with nothing selected or displayed and both save
      actions disabled, whatever the prompt's save did. Cancelling the
      prompt changes nothing. */
  lemma CloseClearsSession(w: Window, h: Heap, files: Files, p: Platform, answer: Answer)
    requires ListsLive(w.model, h)
    ensures w.model.dirty && answer == Cancel ==> Run(w, h, Close(w.model, h, files, p, answer).events) == w
    ensures !(w.model.dirty && answer == Cancel) ==>
      var r := Run(w, h, Close(w.model, h, files, p, answer).events);
      && (forall t :: ListOf(r.model, t) == []) && r.model.fileName.None? && !r.model.dirty
      && r.selection == map[] && r.displayed.None? && r.title == PlainTitle && !r.busy
      && !r.saveEnabled && !r.saveAsEnabled
  {
    var events := Close(w.model, h, files, p, answer).events;
    if !(w.model.dirty && answer == Cancel) {
      var gate := SaveFirst(w.model, h, files, p, answer).value;
      var tail := [Started, ClearEvent, FileNameChangedTo(None), Completed];
      assert events == gate.events + tail;
      RunConcat(w, h, gate.events, tail);
      ReplayClose(Run(w, h, gate.events), h);
    } else {
      assert events == [];
    }
  }

  /** A progress event changes neither the model nor what is selected and
      shown. */
  lemma ProgressKeepsView(w: Window, h: Heap, e: JSEvent)
    requires e.eventType in {ProgressStarted, ProgressCompleted}
    ensures var r := Step(w, h, e);
      r.model == w.model && r.selection == w.selection && r.displayed == w.displayed
  {
    assert Handle(w, h, e).(busy := w.busy) == w;
  }

  /** Selecting the diagram just appended to its list selects the last row
      and shows it; the model stays. */
  lemma SelectAppended(w: Window, h: Heap, d: Ref, t: DiagramType, before: seq<Ref>, thread: Source)
    requires TypeOf(h, d) == Some(t) && d !in before && ListOf(w.model, t) == before + [d]
    ensures var r := Step(w, h, JSEvent(SelectDiagram, thread, DiagramRef(d)));
      && r.model == w.model && r.displayed == Some(d)
      && t in r.selection && r.selection[t] == |before|
  {
    QuietEventsKeepModel(w, h, JSEvent(SelectDiagram, thread, DiagramRef(d)));
    Seqs.IndexOfAfter(before, [d], d);
  }

  /** Handling the events of a created diagram that was rendered. */
  lemma ReplayCreated(w: Window, h: Heap, d: Ref, t: DiagramType, thread: Source)
    requires TypeOf(h, d) == Some(t) && d !in ListOf(w.model, t)
    ensures var r := Run(w, h, [Started, JSEvent(DiagramAdded, thread, DiagramRef(d)),
                                JSEvent(SelectDiagram, thread, DiagramRef(d)), Completed]);
      && ListOf(r.model, t) == ListOf(w.model, t) + [d]
      && (forall u :: u != t ==> ListOf(r.model, u) == ListOf(w.model, u))
      && r.model.dirty && r.displayed == Some(d)
      && t in r.selection && r.selection[t] == |ListOf(w.model, t)|
  {
    var added := JSEvent(DiagramAdded, thread, DiagramRef(d));
    var select := JSEvent(SelectDiagram, thread, DiagramRef(d));
    RunCons(w, h, Started, [added, select, Completed]);
    var w1 := Step(w, h, Started);
    ProgressKeepsView(w, h, Started);
    RunCons(w1, h, added, [select, Completed]);
    AddedEvent(w1, h, d, thread);
    var w2 := Step(w1, h, added);
    RunCons(w2, h, select, [Completed]);
    SelectAppended(w2, h, d, t, ListOf(w.model, t), thread);
    var w3 := Step(w2, h, select);
    RunCons(w3, h, Completed, []);
    ProgressKeepsView(w3, h, Completed);
    assert Run(Step(w3, h, Completed), h, []) == Step(w3, h, Completed);
  }

  /** The progress events alone leave the model alone. */
  lemma ReplayProgress(w: Window, h: Heap)
    ensures Run(w, h, [Started, Completed]).model == w.model
  {
    RunCons(w, h, Started, [Completed]);
    QuietEventsKeepModel(w, h, Started);
    RunCons(Step(w, h, Started), h, Completed, []);
    QuietEventsKeepModel(Step(w, h, Started), h, Completed);
  }

  /** Creating a diagram with the renderers the program registers and
      handling the events: a cancelled dialog dispatches nothing and leaves
      the window as it was; otherwise either only the progress events went
      out and the model is as it was, or the new diagram is appended to the list of its
      type, selected in its new last row, displayed, and the model is
      dirty. */
  lemma CreateThenReplay(w: Window, h: Heap, t: DiagramType, ok: bool, e: UIUtils.Entries,
                         env: Renderers.Services, thread: Source)
    requires ValidHeap(h) && WellFormed(w, h)
    ensures var out := UIUtils.Create(h, t, ok, e, Renderers.Registered, env, thread);
      var d := out.0;
      var r := Run(w, out.1.heap, out.1.events);
      || (!ok && out.1.events == [] && r == w)
      || (out.1.events == [Started, Completed] && r.model == w.model)
      || (&& ListOf(r.model, t) == ListOf(w.model, t) + [d]
          && (forall u :: u != t ==> ListOf(r.model, u) == ListOf(w.model, u))
          && r.model.dirty && r.displayed == Some(d)
          && t in r.selection && r.selection[t] == |ListOf(w.model, t)|)
  {
    var out := UIUtils.Create(h, t, ok, e, Renderers.Registered, env, thread);
    UIUtils.CreateAnnouncesOrFails(h, t, ok, e, env, thread);
    TypedListsAreLive(w.model, h);
    if !ok {
    } else if out.1.events == [Started, Completed] {
      ReplayProgress(w, out.1.heap);
    } else {
      ReplayCreated(w, out.1.heap, out.0, t, thread);
    }
  }

  /** A confirmed delete takes one occurrence of the diagram out of its
      list, clears the display and keeps the window consistent; any other
      answer changes nothing. */
  lemma DeleteThenReplay(w: Window, h: Heap, d: Ref, answer: Answer)
    requires WellFormed(w, h) && TypeOf(h, d).Some?
    ensures answer != Yes ==> Run(w, h, Delete(Some(d), answer)) == w
    ensures answer == Yes ==>
      var r := Run(w, h, Delete(Some(d), answer));
      var t := TypeOf(h, d).value;
      && multiset(ListOf(r.model, t)) == multiset(ListOf(w.model, t)) - multiset{d}
      && (forall u :: u != t ==> ListOf(r.model, u) == ListOf(w.model, u))
      && r.model.dirty && r.displayed.None? && WellFormed(r, h)
  {
    if answer == Yes {
      var e := JSEvent(DiagramDeleted, NoSource, DiagramRef(d));
      RunCons(w, h, e, []);
      DeletedEvent(w, h, d, NoSource);
      StepPreservesWellFormed(w, h, e);
    }
  }
}

=== FILE: uiutils.dfy ===
/** The dialog helpers of `util/UIUtils.java`: centring a dialog on its owner,
    and the create/edit panel of `createDiagramPanel` with the protocol its OK
    button runs: copy the fields into the diagram, re-render when the script
    or style changed, announce the diagram, and always end the progress.

    The rendering thread is run to completion in line; the events it
    dispatches follow `ProgressStarted` in the order it dispatches them.
 */
module UIUtils {
  import opened Base
  import opened Diagrams
  import opened Events
  import opened Renderers
  import JavaInt

  /** A component's location and size. */
  datatype Bounds = Bounds(x: int, y: int, width: int, height: int)

  /** One coordinate of `centerComponent`: `pos + parentSize / 2 - size / 2`
      in `int` arithmetic. */
  function CenterOn(pos: int, parentSize: int, size: int): int {
    JavaInt.Sub(JavaInt.Add(pos, JavaInt.Div(parentSize, 2)), JavaInt.Div(size, 2))
  }

  /** Screen coordinates and sizes far from the `int` limits. */
  predicate Moderate(pos: int, size: int) {
    -0x4000_0000 <= pos <= 0x4000_0000 && 0 <= size <= 0x4000_0000
  }

  /** A segment `[at, at + size)` sits balanced in `[pos, pos + parentSize)`:
      the margins before and after it differ by at most one pixel, and are
      equal when both sizes have the same parity. */
  predicate Balanced(pos: int, parentSize: int, at: int, size: int) {
    var before := at - pos;
    var after := (pos + parentSize) - (at + size);
    && -1 <= before - after <= 1
    && (parentSize % 2 == size % 2 ==> before == after)
  }

  /** One axis of `centerComponent` is balanced whenever the numbers stay
      clear of `int` overflow. */
  lemma CenterOnBalanced(pos: int, parentSize: int, size: int)
    ensures Moderate(pos, parentSize) && Moderate(pos, size) ==>
      Balanced(pos, parentSize, CenterOn(pos, parentSize, size), size)
  {
    if Moderate(pos, parentSize) && Moderate(pos, size) {
      var half := parentSize / 2;
      var own := size / 2;
      assert JavaInt.Div(parentSize, 2) == half;
      assert JavaInt.Div(size, 2) == own;
      assert JavaInt.Add(pos, half) == pos + half;
      assert JavaInt.Sub(pos + half, own) == pos + half - own;
    }
  }

  /** `centerComponent`: moves the component, keeping its size, so that it
      sits balanced inside its owner on each axis. */
  function CenterComponent(component: Bounds, parent: Bounds): (r: Bounds)
    ensures r.width == component.width && r.height == component.height
    ensures r.x == CenterOn(parent.x, parent.width, component.width)
    ensures r.y == CenterOn(parent.y, parent.height, component.height)
    ensures Moderate(parent.x, parent.width) && Moderate(parent.x, component.width) ==>
      Balanced(parent.x, parent.width, r.x, r.width)
    ensures Moderate(parent.y, parent.height) && Moderate(parent.y, component.height) ==>
      Balanced(parent.y, parent.height, r.y, r.height)
  {
    CenterOnBalanced(parent.x, parent.width, component.width);
    CenterOnBalanced(parent.y, parent.height, component.height);
    component.(x := CenterOn(parent.x, parent.width, component.width),
               y := CenterOn(parent.y, parent.height, component.height))
  }

  /** What the panel captures and shows when it is built. */
  datatype EditPanel = EditPanel(
    styles: seq<DiagramStyle>,            // the style combo box items
    initialStyle: Option<DiagramStyle>,   // the combo box selection at first
    nameText: string,
    noteText: string,
    scriptText: string,
    originalScript: Option<string>,
    originalStyle: Option<DiagramStyle>)

  /** The style combo box selection when the panel opens. With an original
      script, `setSelectedItem(originalStyle)`: null clears the selection, an
      item not in the catalogue is rejected and the first item stays
      selected. Without one, `setSelectedIndex(0)`, which throws on an empty
      catalogue. */
  function InitialStyle(styles: seq<DiagramStyle>, originalScript: Option<string>,
                        originalStyle: Option<DiagramStyle>): (r: Result<Option<DiagramStyle>>)
    ensures r.Err? <==> originalScript.None? && |styles| == 0
    ensures r.Ok? && r.value.Some? ==> r.value.value in styles
    ensures originalScript.None? && |styles| > 0 ==> r == Ok(Some(styles[0]))
    ensures originalScript.Some? && originalStyle.Some? && originalStyle.value in styles ==> r == Ok(originalStyle)
    ensures originalScript.Some? && originalStyle.None? ==> r == Ok(None)
  {
    if originalScript.Some? then
      if originalStyle.None? then Ok(None)
      else if originalStyle.value in styles then Ok(originalStyle)
      else Ok(if |styles| > 0 then Some(styles[0]) else None)
    else if |styles| == 0 then Err(IllegalArgument)
    else Ok(Some(styles[0]))
  }

  /** Building the panel for a diagram: the renderer is looked up first (no
      renderer throws and no panel appears), then the catalogue of that
      renderer fills the combo box, and null texts show as empty fields. */
  function OpenPanel(registry: seq<Renderer>, d: Diagram): (r: Result<EditPanel>)
    ensures r.Err? <==> GetRendererForDiagram(registry, d).Err?
    ensures r.Ok? ==> && r.value.originalScript == d.script && r.value.originalStyle == d.style
                      && r.value.nameText == d.name.GetOr("") && r.value.noteText == d.note.GetOr("")
                      && r.value.scriptText == d.script.GetOr("")
                      && r.value.styles == StylesForType(GetRendererForDiagram(registry, d).value, d.diagramType)
  {
    var renderer :- GetRendererForDiagram(registry, d);
    var styles := StylesForType(renderer, d.diagramType);
    match InitialStyle(styles, d.script, d.style)
    case Err(e) => assert false; Err(e)
    case Ok(initial) =>
      Ok(EditPanel(styles, initial, d.name.GetOr(""), d.note.GetOr(""), d.script.GetOr(""), d.script, d.style))
  }

  /** What the fields hold when OK is pressed. Text fields are never null; the
      combo box selection may be. */
  datatype Entries = Entries(name: string, note: string, style: Option<DiagramStyle>, script: string)

  /** The entries of a panel nobody edited. */
  function Untouched(p: EditPanel): Entries {
    Entries(p.nameText, p.noteText, p.initialStyle, p.scriptText)
  }

  /** The first four statements of the OK handler. */
  function CopyEntries(d: Diagram, e: Entries): (r: Diagram)
    ensures r.name == Some(e.name) && r.note == Some(e.note)
    ensures r.style == e.style && r.script == Some(e.script)
    ensures r.(name := d.name, note := d.note, style := d.style, script := d.script) == d
  {
    SetScript(SetStyle(SetNote(SetName(d, Some(e.name)), Some(e.note)), e.style), Some(e.script))
  }

  /** `needsRendering`: the script differs from the one captured when the
      panel opened, or else the style does. When the script is the same, the
      style is dereferenced, so a null style throws. */
  function NeedsRendering(script: string, style: Option<DiagramStyle>,
                          originalScript: Option<string>, originalStyle: Option<DiagramStyle>): (r: Result<bool>)
    ensures r.Err? <==> originalScript == Some(script) && style.None?
    ensures r.Err? ==> r.error == NullPointer
    ensures r == Ok(true) <==> originalScript != Some(script) || (style.Some? && style != originalStyle)
    ensures originalScript.None? ==> r == Ok(true)
  {
    if originalScript != Some(script) then Ok(true)
    else if style.None? then Err(NullPointer)
    else Ok(style != originalStyle)
  }

  /** The events that announce a diagram: a new one is added, then selected;
      an edited one is reported modified. */
  function Announce(d: Ref, isNew: bool, thread: Source): (r: seq<JSEvent>)
    ensures isNew ==> r == [JSEvent(DiagramAdded, thread, DiagramRef(d)), JSEvent(SelectDiagram, thread, DiagramRef(d))]
    ensures !isNew ==> r == [JSEvent(DiagramModified, thread, DiagramRef(d))]
  {
    if isNew then [JSEvent(DiagramAdded, thread, DiagramRef(d)), JSEvent(SelectDiagram, thread, DiagramRef(d))]
    else [JSEvent(DiagramModified, thread, DiagramRef(d))]
  }

  /** What pressing OK leaves behind: the heap, the events dispatched in
      order, and the requests the renderer sent. */
  datatype Committed = Committed(heap: Heap, events: seq<JSEvent>, sent: seq<Request>)

  /** The OK handler and the thread it starts. Any exception in the thread
      (no renderer, a failed render, a null style) skips the announcement,
      but whatever was stored on the diagram before it stays, and
      `ProgressCompleted` is dispatched in the `finally`. */
  function Commit(h: Heap, d: Ref, p: EditPanel, e: Entries, isNew: bool,
                  registry: seq<Renderer>, env: Services, thread: Source): (out: Committed)
    requires d in h.objects
    ensures out.heap.next == h.next && d in out.heap.objects
    ensures out.heap.objects == h.objects[d := out.heap.objects[d]]
    ensures var r := out.heap.objects[d];
      && r.name == Some(e.name) && r.note == Some(e.note) && r.style == e.style && r.script == Some(e.script)
      && r.diagramType == h.objects[d].diagramType
    ensures out.events == [Started, Completed] || out.events == [Started] + Announce(d, isNew, thread) + [Completed]
    ensures NeedsRendering(e.script, e.style, p.originalScript, p.originalStyle).Err? ==> out.events == [Started, Completed]
    ensures NeedsRendering(e.script, e.style, p.originalScript, p.originalStyle) == Ok(false) ==>
      && out.events == [Started] + Announce(d, isNew, thread) + [Completed]
      && out.sent == [] && out.heap.objects[d] == CopyEntries(h.objects[d], e)
    ensures |out.events| > 2 && out.sent != [] ==>
      out.heap.objects[d].image.Some? && out.heap.objects[d].encodedImage.Some?
  {
    var edited := CopyEntries(h.objects[d], e);
    var copied := h.(objects := h.objects[d := edited]);
    match NeedsRendering(e.script, e.style, p.originalScript, p.originalStyle)
    case Err(_) => Committed(copied, [Started, Completed], [])
    case Ok(false) => Committed(copied, [Started] + Announce(d, isNew, thread) + [Completed], [])
    case Ok(true) =>
      match GetRendererForDiagram(registry, edited)
      case Err(_) => Committed(copied, [Started, Completed], [])
      case Ok(renderer) =>
        var out := Render(renderer, edited, env);
        match out.image
        case Err(_) => Committed(h.(objects := h.objects[d := out.diagram]), [Started, Completed], out.sent)
        case Ok(image) =>
          Committed(h.(objects := h.objects[d := SetImage(out.diagram, Some(image))]),
                    [Started] + Announce(d, isNew, thread) + [Completed], out.sent)
  }

  /** A new diagram (no script yet) is always rendered: when that succeeds
      the heap holds the rendered image and the diagram is added and
      selected; when it fails nothing is announced. */
  lemma NewDiagramIsRendered(h: Heap, d: Ref, p: EditPanel, e: Entries,
                             registry: seq<Renderer>, env: Services, thread: Source)
    requires d in h.objects && p.originalScript.None?
    requires GetRendererForDiagram(registry, CopyEntries(h.objects[d], e)).Ok?
    ensures var renderer := GetRendererForDiagram(registry, CopyEntries(h.objects[d], e)).value;
      var rendered := Render(renderer, CopyEntries(h.objects[d], e), env);
      var out := Commit(h, d, p, e, true, registry, env, thread);
      && out.sent == rendered.sent
      && (rendered.image.Ok? ==>
            && out.events == [Started, JSEvent(DiagramAdded, thread, DiagramRef(d)),
                              JSEvent(SelectDiagram, thread, DiagramRef(d)), Completed]
            && out.heap.objects[d].image == Some(rendered.image.value))
      && (rendered.image.Err? ==> out.events == [Started, Completed])
  {
  }

  /** OK on an edit whose script and style are both unchanged (and the style
      set) sends no request and reports the diagram modified. */
  lemma UnchangedEditSkipsRendering(h: Heap, d: Ref, p: EditPanel, e: Entries,
                                    registry: seq<Renderer>, env: Services, thread: Source)
    requires d in h.objects
    requires p.originalScript == Some(e.script) && e.style.Some? && e.style == p.originalStyle
    ensures var out := Commit(h, d, p, e, false, registry, env, thread);
      && out.sent == []
      && out.events == [Started, JSEvent(DiagramModified, thread, DiagramRef(d)), Completed]
      && out.heap.objects[d].image == h.objects[d].image
      && out.heap.objects[d].encodedImage == h.objects[d].encodedImage
  {
  }

  /** An edit whose render fails keeps the entered fields on the diagram but
      announces nothing, so the window never hears of the change. */
  lemma FailedEditKeepsFields(h: Heap, d: Ref, p: EditPanel, e: Entries,
                              registry: seq<Renderer>, env: Services, thread: Source)
    requires d in h.objects && p.originalScript != Some(e.script)
    requires var edited := CopyEntries(h.objects[d], e);
      GetRendererForDiagram(registry, edited).Ok?
      && Render(GetRendererForDiagram(registry, edited).value, edited, env).image.Err?
    ensures var out := Commit(h, d, p, e, false, registry, env, thread);
      && out.events == [Started, Completed]
      && out.heap.objects[d].script == Some(e.script) && out.heap.objects[d].name == Some(e.name)
  {
  }

  /** Pressing OK on an untouched panel of a diagram that has a script and a
      catalogue style changes no rendering, yet writes an empty name and note
      where there were none. */
  lemma UntouchedOkStoresEmptyTexts(h: Heap, d: Ref, registry: seq<Renderer>, env: Services, thread: Source)
    requires d in h.objects && OpenPanel(registry, h.objects[d]).Ok?
    requires h.objects[d].script.Some? && h.objects[d].style.Some?
    requires h.objects[d].style.value in OpenPanel(registry, h.objects[d]).value.styles
    ensures var p := OpenPanel(registry, h.objects[d]).value;
      var out := Commit(h, d, p, Untouched(p), false, registry, env, thread);
      && out.sent == []
      && out.events == [Started, JSEvent(DiagramModified, thread, DiagramRef(d)), Completed]
      && out.heap.objects[d] == h.objects[d].(name := Some(h.objects[d].name.GetOr("")),
                                                note := Some(h.objects[d].note.GetOr("")))
  {
    var x := h.objects[d];
    var p := OpenPanel(registry, x).value;
    assert p.initialStyle == x.style;
    assert Untouched(p).script == x.script.value;
  }

  /** The create actions: a fresh diagram of type `t` and a panel for it. A
      type no renderer accepts throws while the panel is built, so nothing is
      dispatched; Cancel (`ok` false) only closes the dialog; OK commits with
      `isNew`. The fresh diagram stays unreachable unless it is announced. */
  function Create(h: Heap, t: DiagramType, ok: bool, e: Entries, registry: seq<Renderer>, env: Services,
                  thread: Source): (out: (Ref, Committed))
    requires ValidHeap(h)
    ensures out.0 !in h.objects && out.0 in out.1.heap.objects
    ensures out.1.heap.objects[out.0].diagramType == Some(t)
    ensures forall r :: r in h.objects ==> r in out.1.heap.objects && out.1.heap.objects[r] == h.objects[r]
    ensures out.1.events == [] || out.1.events[0] == Started
    ensures !ok ==> out.1.events == [] && out.1.sent == []
  {
    var res := Alloc(h, SetType(NewDiagram, Some(t)));
    var grown := res.0;
    var d := res.1;
    match OpenPanel(registry, grown.objects[d])
    case Err(_) => (d, Committed(grown, [], []))
    case Ok(p) =>
      if ok then (d, Commit(grown, d, p, e, true, registry, env, thread))
      else (d, Committed(grown, [], []))
  }

  /** With the renderers the program registers, creating a diagram of any
      type either dispatches nothing (Cancel), or renders it: either it is
      added and selected, or nothing but the progress events is dispatched. */
  lemma CreateAnnouncesOrFails(h: Heap, t: DiagramType, ok: bool, e: Entries, env: Services, thread: Source)
    requires ValidHeap(h)
    ensures var created := Create(h, t, ok, e, Registered, env, thread);
      var d, out := created.0, created.1;
      && (!ok <==> out.events == [])
      && (ok ==>
            || out.events == [Started, Completed]
            || out.events == [Started, JSEvent(DiagramAdded, thread, DiagramRef(d)),
                              JSEvent(SelectDiagram, thread, DiagramRef(d)), Completed])
  {
    RegisteredRendersTyped(SetType(NewDiagram, Some(t)));
    CreateCommits(h, t, ok, e, Registered, env, thread);
  }

  /** When some renderer accepts the new diagram, creating with OK runs the
      OK handler with `isNew`: either only the progress events go out, or the
      diagram is added and selected between them. */
  lemma CreateCommits(h: Heap, t: DiagramType, ok: bool, e: Entries, registry: seq<Renderer>, env: Services,
                      thread: Source)
    requires ValidHeap(h) && GetRendererForDiagram(registry, SetType(NewDiagram, Some(t))).Ok?
    ensures var created := Create(h, t, ok, e, registry, env, thread);
      var d, out := created.0, created.1;
      ok ==>
        || out.events == [Started, Completed]
        || out.events == [Started, JSEvent(DiagramAdded, thread, DiagramRef(d)),
                          JSEvent(SelectDiagram, thread, DiagramRef(d)), Completed]
  {
    var res := Alloc(h, SetType(NewDiagram, Some(t)));
    var d := res.1;
    assert res.0.objects[d] == SetType(NewDiagram, Some(t));
    assert OpenPanel(registry, res.0.objects[d]).Ok?;
    assert [Started] + Announce(d, true, thread) + [Completed]
        == [Started, JSEvent(DiagramAdded, thread, DiagramRef(d)), JSEvent(SelectDiagram, thread, DiagramRef(d)), Completed];
  }

  /** The edit action: a panel for an existing diagram, then OK without
      `isNew` or Cancel. Nothing happens when no panel can be built or the
      dialog is cancelled. */
  function Edit(h: Heap, d: Ref, ok: bool, e: Entries, registry: seq<Renderer>, env: Services,
                thread: Source): (out: Committed)
    requires d in h.objects
    ensures OpenPanel(registry, h.objects[d]).Err? || !ok ==> out == Committed(h, [], [])
    ensures OpenPanel(registry, h.objects[d]).Ok? && ok ==>
      && d in out.heap.objects && out.heap.objects == h.objects[d := out.heap.objects[d]]
      && (out.events == [Started, Completed]
          || out.events == [Started, JSEvent(DiagramModified, thread, DiagramRef(d)), Completed])
  {
    match OpenPanel(registry, h.objects[d])
    case Err(_) => Committed(h, [], [])
    case Ok(p) =>
      if ok then
        var out := Commit(h, d, p, e, false, registry, env, thread);
        assert [Started] + Announce(d, false, thread) + [Completed]
            == [Started, JSEvent(DiagramModified, thread, DiagramRef(d)), Completed];
        out
      else Committed(h, [], [])
  }

  /** Editing only the name or note of a diagram with a script and a
      catalogue style renders nothing and reports the diagram modified. */
  lemma EditTextsOnly(h: Heap, d: Ref, e: Entries, registry: seq<Renderer>, env: Services, thread: Source)
    requires d in h.objects && OpenPanel(registry, h.objects[d]).Ok?
    requires h.objects[d].script == Some(e.script) && e.style.Some? && e.style == h.objects[d].style
    ensures var out := Edit(h, d, true, e, registry, env, thread);
      && out.sent == []
      && out.events == [Started, JSEvent(DiagramModified, thread, DiagramRef(d)), Completed]
      && out.heap.objects[d] == CopyEntries(h.objects[d], e)
  {
    UnchangedEditSkipsRendering(h, d, OpenPanel(registry, h.objects[d]).value, e, registry, env, thread);
  }
}

=== FILE: window.dfy ===
/** The main window as a listener (`JSchnizzle.java`): `onEvent` is the
    reducer that turns each dispatched event into calls on the session model,
    and `updateActionStates` derives the Save / Save As enablement afterwards.

    `onEvent` hands its work to `SwingUtilities.invokeLater`, so the events an
    action dispatches are handled after the action, one by one, in dispatch
    order; the window is therefore a left fold of `Step` over that sequence.
    The diagram heap is read (for diagram types) but never written here.

    Besides the model, the window keeps the Swing state the reducer touches:
    the selected row of each of the four lists, the diagram on display, the
    frame title, the console, and the progress bar.
 */
module MainWindow {
  import opened Base
  import opened Diagrams
  import opened ApplicationModel
  import opened Events
  import Seqs

  /** The frame title: "JSchnizzle", or "JSchnizzle - " followed by the
      text of the payload that named the file. */
  datatype Title = PlainTitle | FileTitle(shown: Payload)

  datatype Window = Window(
    model: Model,
    selection: map<DiagramType, nat>,   // selected row per list; no key = no selection
    displayed: Option<Ref>,             // the diagram in the image panel
    title: Title,
    console: seq<Payload>,              // what the Log events appended, in order
    busy: bool,                         // progress bar in indeterminate mode
    saveEnabled: bool,
    saveAsEnabled: bool)

  /** The window as constructed: a fresh model, nothing selected or shown,
      and both save actions disabled. */
  const InitialWindow: Window := Window(Initial, map[], None, PlainTitle, [], false, false, false)

  /** `updateActionStates`. */
  function UpdateActionStates(w: Window): (r: Window)
    ensures r.saveEnabled <==> w.model.dirty && w.model.fileName.Some?
    ensures r.saveAsEnabled <==> w.model.dirty
    ensures r.(saveEnabled := w.saveEnabled, saveAsEnabled := w.saveAsEnabled) == w
  {
    w.(saveEnabled := w.model.dirty && w.model.fileName.Some?, saveAsEnabled := w.model.dirty)
  }

  /** How a list's selection follows the removal of row `at` (-1 when nothing
      was removed): the selected row itself loses the selection, a row below
      it moves up by one. */
  function AfterRemoval(selection: map<DiagramType, nat>, t: DiagramType, at: int): map<DiagramType, nat> {
    if at < 0 || t !in selection then selection
    else if selection[t] == at then selection - {t}
    else if selection[t] > at then selection[t := selection[t] - 1]
    else selection
  }

  /** `setSelectedIndex(i)` on list `t`: -1 changes nothing. */
  function SelectRow(selection: map<DiagramType, nat>, t: DiagramType, i: int): map<DiagramType, nat> {
    if i < 0 then selection else selection[t := i]
  }

  /** The body of the `Runnable` in `onEvent`. A payload of the wrong class or
      a null where an object is dereferenced throws; the exception is caught
      and logged, and whatever happened before it stays done. */
  function Handle(w: Window, h: Heap, e: JSEvent): Window {
    match e.eventType
    case Log =>
      if e.payload.NoPayload? then w else w.(console := w.console + [e.payload])
    case DiagramAdded =>
      if !e.payload.DiagramRef? then w
      else
        (match AddDiagram(w.model, h, e.payload.ref)
         case Ok(m) => w.(model := m)
         case Err(_) => w)
    case DiagramDeleted =>
      if !e.payload.DiagramRef? then w
      else
        var d := e.payload.ref;
        (match DeleteDiagram(w.model, h, d)
         case Ok(m) =>
           var t := TypeOf(h, d).value;
           w.(model := m,
              selection := AfterRemoval(w.selection, t, Seqs.IndexOf(ListOf(w.model, t), d)),
              displayed := None)
         case Err(_) => w)
    case DiagramDeleteAll =>
      w.(model := DeleteAllDiagrams(w.model), selection := map[], displayed := None)
    case DiagramModified =>
      // refreshSelectedDiagram reads the list at its selected index; with no
      // selection that is get(-1), which throws before markModelDirty.
      if !e.payload.DiagramRef? || TypeOf(h, e.payload.ref).None? then w
      else
        var t := TypeOf(h, e.payload.ref).value;
        if t in w.selection && w.selection[t] < |ListOf(w.model, t)| then
          w.(displayed := Some(ListOf(w.model, t)[w.selection[t]]), model := MarkDirty(w.model))
        else w
    case ProgressCompleted =>
      w.(busy := false)
    case ProgressStarted =>
      w.(busy := true)
    case SelectDiagram =>
      if !e.payload.DiagramRef? || TypeOf(h, e.payload.ref).None? then w
      else
        var d := e.payload.ref;
        var t := TypeOf(h, d).value;
        w.(selection := SelectRow(w.selection, t, Seqs.IndexOf(ListOf(w.model, t), d)), displayed := Some(d))
    case FileNameChanged =>
      match e.payload
      case NoPayload => w.(title := PlainTitle, model := MarkClean(SetFileName(w.model, None)))
      case Text(name) => w.(title := FileTitle(e.payload), model := MarkClean(SetFileName(w.model, Some(name))))
      case DiagramRef(_) => w.(title := FileTitle(e.payload))   // the cast to String throws after the title is set
  }

  /** `onEvent`: handle the event, then, in the `finally`, update the save
      actions, whether or not handling threw. */
  function Step(w: Window, h: Heap, e: JSEvent): (r: Window)
    ensures r.saveEnabled <==> r.model.dirty && r.model.fileName.Some?
    ensures r.saveAsEnabled <==> r.model.dirty
  {
    UpdateActionStates(Handle(w, h, e))
  }

  /** The window after handling a sequence of events in order. */
  function Run(w: Window, h: Heap, events: seq<JSEvent>): Window
    decreases |events|
  {
    if |events| == 0 then w else Run(Step(w, h, events[0]), h, events[1..])
  }

  /** Handling `a` then `b` is handling `a + b`. */
  lemma {:induction false} RunConcat(w: Window, h: Heap, a: seq<JSEvent>, b: seq<JSEvent>)
    ensures Run(w, h, a + b) == Run(Run(w, h, a), h, b)
    decreases |a|
  {
    if |a| == 0 {
      assert a + b == b;
    } else {
      assert (a + b)[0] == a[0];
      assert (a + b)[1..] == a[1..] + b;
      RunConcat(Step(w, h, a[0]), h, a[1..], b);
    }
  }

  /** Handling one more event is one more step. */
  lemma RunSnoc(w: Window, h: Heap, a: seq<JSEvent>, e: JSEvent)
    ensures Run(w, h, a + [e]) == Step(Run(w, h, a), h, e)
  {
    RunConcat(w, h, a, [e]);
  }

  /** After any non-empty run the save actions agree with the model. */
  lemma RunEnablement(w: Window, h: Heap, events: seq<JSEvent>)
    requires |events| > 0
    ensures var r := Run(w, h, events);
      (r.saveEnabled <==> r.model.dirty && r.model.fileName.Some?) && (r.saveAsEnabled <==> r.model.dirty)
  {
    assert events == events[..|events| - 1] + [events[|events| - 1]];
    RunSnoc(w, h, events[..|events| - 1], events[|events| - 1]);
  }

  /** Every selected row exists. */
  predicate SelectionInRange(selection: map<DiagramType, nat>, m: Model) {
    forall t :: t in selection ==> selection[t] < |ListOf(m, t)|
  }

  /** The consistency the window keeps: each list holds diagrams of its own
      type, and every selected row exists. */
  predicate WellFormed(w: Window, h: Heap) {
    ListsTyped(w.model, h) && SelectionInRange(w.selection, w.model)
  }

  lemma InitialWellFormed(h: Heap)
    ensures WellFormed(InitialWindow, h)
  {
  }

  /** Every element left after a removal was there before. */
  lemma RemoveFirstKeepsElements(s: seq<Ref>, x: Ref, i: nat)
    requires i < |Seqs.RemoveFirst(s, x)|
    ensures Seqs.RemoveFirst(s, x)[i] in s
  {
    var r := Seqs.RemoveFirst(s, x);
    assert r[i] in multiset(r);
  }

  /** Appending a diagram to the list of its own type keeps the lists typed. */
  lemma AddKeepsTyped(m: Model, h: Heap, d: Ref)
    requires ListsTyped(m, h) && TypeOf(h, d).Some?
    ensures ListsTyped(AddDiagram(m, h, d).value, h)
  {
    var t := TypeOf(h, d).value;
    var r := AddDiagram(m, h, d).value;
    forall u, i | 0 <= i < |ListOf(r, u)|
      ensures TypeOf(h, ListOf(r, u)[i]) == Some(u)
    {
      if u == t {
        assert ListOf(r, u) == ListOf(m, t) + [d];
        if i < |ListOf(m, t)| {
          assert ListOf(r, u)[i] == ListOf(m, t)[i];
        }
      }
    }
  }

  /** Removing a diagram keeps the lists typed. */
  lemma DeleteKeepsTyped(m: Model, h: Heap, d: Ref)
    requires ListsTyped(m, h) && TypeOf(h, d).Some?
    ensures ListsTyped(DeleteDiagram(m, h, d).value, h)
  {
    var t := TypeOf(h, d).value;
    var r := DeleteDiagram(m, h, d).value;
    var before := ListOf(m, t);
    forall i | 0 <= i < |ListOf(r, t)|
      ensures TypeOf(h, ListOf(r, t)[i]) == Some(t)
    {
      RemoveFirstKeepsElements(before, d, i);
      var j :| 0 <= j < |before| && before[j] == ListOf(r, t)[i];
    }
  }

  /** After a removal the adjusted selection still points at existing rows. */
  lemma DeleteKeepsSelection(w: Window, h: Heap, d: Ref)
    requires SelectionInRange(w.selection, w.model) && TypeOf(h, d).Some?
    ensures var t := TypeOf(h, d).value;
      SelectionInRange(AfterRemoval(w.selection, t, Seqs.IndexOf(ListOf(w.model, t), d)),
                       DeleteDiagram(w.model, h, d).value)
  {
  }

  /** An event that leaves the lists and the selection alone keeps the
      window consistent. */
  lemma UnchangedKeepsWellFormed(w: Window, r: Window, h: Heap)
    requires WellFormed(w, h)
    requires SameLists(r.model, w.model) && r.selection == w.selection
    ensures WellFormed(r, h)
  {
  }

  /** Selecting keeps the window consistent: `indexOf` yields an existing row
      or -1. */
  lemma SelectKeepsWellFormed(w: Window, h: Heap, e: JSEvent)
    requires WellFormed(w, h) && e.eventType == SelectDiagram
    ensures WellFormed(Step(w, h, e), h)
  {
    var r := Step(w, h, e);
    assert r.model == w.model;
    if e.payload.DiagramRef? && TypeOf(h, e.payload.ref).Some? {
      var t := TypeOf(h, e.payload.ref).value;
      assert r.selection == SelectRow(w.selection, t, Seqs.IndexOf(ListOf(w.model, t), e.payload.ref));
    }
  }

  /** DiagramAdded keeps the window consistent. */
  lemma AddedKeepsWellFormed(w: Window, h: Heap, e: JSEvent)
    requires WellFormed(w, h) && e.eventType == DiagramAdded
    ensures WellFormed(Step(w, h, e), h)
  {
    if e.payload.DiagramRef? && TypeOf(h, e.payload.ref).Some? {
      var m := AddDiagram(w.model, h, e.payload.ref).value;
      assert Step(w, h, e).model == m && Step(w, h, e).selection == w.selection;
      AddKeepsTyped(w.model, h, e.payload.ref);
    } else {
      UnchangedKeepsWellFormed(w, Step(w, h, e), h);
    }
  }

  /** DiagramDeleted keeps the window consistent. */
  lemma DeletedKeepsWellFormed(w: Window, h: Heap, e: JSEvent)
    requires WellFormed(w, h) && e.eventType == DiagramDeleted
    ensures WellFormed(Step(w, h, e), h)
  {
    if e.payload.DiagramRef? && TypeOf(h, e.payload.ref).Some? {
      var d := e.payload.ref;
      var t := TypeOf(h, d).value;
      var m := DeleteDiagram(w.model, h, d).value;
      assert Step(w, h, e).model == m;
      assert Step(w, h, e).selection == AfterRemoval(w.selection, t, Seqs.IndexOf(ListOf(w.model, t), d));
      DeleteKeepsTyped(w.model, h, d);
      DeleteKeepsSelection(w, h, d);
    } else {
      UnchangedKeepsWellFormed(w, Step(w, h, e), h);
    }
  }

  /** DiagramDeleteAll empties every list and drops every selection. */
  lemma DeleteAllKeepsWellFormed(w: Window, h: Heap, e: JSEvent)
    requires WellFormed(w, h) && e.eventType == DiagramDeleteAll
    ensures WellFormed(Step(w, h, e), h)
  {
  }

  /** DiagramModified at most marks the model dirty and shows a diagram. */
  lemma ModifiedKeepsWellFormed(w: Window, h: Heap, e: JSEvent)
    requires WellFormed(w, h) && e.eventType == DiagramModified
    ensures WellFormed(Step(w, h, e), h)
  {
    var r := Handle(w, h, e);
    assert r.model == w.model || r.model == MarkDirty(w.model);
    assert r.selection == w.selection;
    UnchangedKeepsWellFormed(w, Step(w, h, e), h);
  }

  /** FileNameChanged at most renames and cleans the model. */
  lemma FileNameKeepsWellFormed(w: Window, h: Heap, e: JSEvent)
    requires WellFormed(w, h) && e.eventType == FileNameChanged
    ensures WellFormed(Step(w, h, e), h)
  {
    var r := Handle(w, h, e);
    match e.payload {
      case NoPayload =>
        assert r.model == MarkClean(SetFileName(w.model, None));
      case Text(name) =>
        assert r.model == MarkClean(SetFileName(w.model, Some(name)));
      case DiagramRef(_) =>
        assert r.model == w.model;
    }
    assert SameLists(r.model, w.model) && r.selection == w.selection;
    UnchangedKeepsWellFormed(w, Step(w, h, e), h);
  }

  /** Log and the progress events leave the model and the selection alone. */
  lemma QuietKeepsWellFormed(w: Window, h: Heap, e: JSEvent)
    requires WellFormed(w, h) && e.eventType in {Log, ProgressStarted, ProgressCompleted}
    ensures WellFormed(Step(w, h, e), h)
  {
    var r := Handle(w, h, e);
    assert r.model == w.model && r.selection == w.selection;
    UnchangedKeepsWellFormed(w, Step(w, h, e), h);
  }

  /** Every event keeps the window consistent. */
  lemma StepPreservesWellFormed(w: Window, h: Heap, e: JSEvent)
    requires WellFormed(w, h)
    ensures WellFormed(Step(w, h, e), h)
  {
    if e.eventType == DiagramAdded {
      AddedKeepsWellFormed(w, h, e);
    } else if e.eventType == DiagramDeleted {
      DeletedKeepsWellFormed(w, h, e);
    } else if e.eventType == DiagramDeleteAll {
      DeleteAllKeepsWellFormed(w, h, e);
    } else if e.eventType == SelectDiagram {
      SelectKeepsWellFormed(w, h, e);
    } else if e.eventType == DiagramModified {
      ModifiedKeepsWellFormed(w, h, e);
    } else if e.eventType == FileNameChanged {
      FileNameKeepsWellFormed(w, h, e);
    } else {
      QuietKeepsWellFormed(w, h, e);
    }
  }

  /** A whole run keeps the window consistent. */
  lemma {:induction false} RunPreservesWellFormed(w: Window, h: Heap, events: seq<JSEvent>)
    requires WellFormed(w, h)
    ensures WellFormed(Run(w, h, events), h)
    decreases |events|
  {
    if |events| > 0 {
      StepPreservesWellFormed(w, h, events[0]);
      RunPreservesWellFormed(Step(w, h, events[0]), h, events[1..]);
    }
  }

  /** Log, progress and selection events leave the model alone: lists,
      dirty flag and file name. */
  lemma QuietEventsKeepModel(w: Window, h: Heap, e: JSEvent)
    requires e.eventType in {Log, ProgressStarted, ProgressCompleted, SelectDiagram}
    ensures Step(w, h, e).model == w.model
  {
  }

  /** DiagramAdded appends the diagram to its type's list and marks the
      model dirty; a payload that is not a typed diagram changes nothing but
      the save actions. */
  lemma AddedEvent(w: Window, h: Heap, d: Ref, src: Source)
    ensures var r := Step(w, h, JSEvent(DiagramAdded, src, DiagramRef(d)));
      if TypeOf(h, d).Some? then
        var t := TypeOf(h, d).value;
        && ListOf(r.model, t) == ListOf(w.model, t) + [d]
        && (forall u :: u != t ==> ListOf(r.model, u) == ListOf(w.model, u))
        && r.model.dirty && r.model.fileName == w.model.fileName
        && r.selection == w.selection
      else
        UpdateActionStates(w) == r
  {
  }

  /** DiagramDeleted removes the first occurrence of the diagram from its
      type's list, marks the model dirty and clears the display. */
  lemma DeletedEvent(w: Window, h: Heap, d: Ref, src: Source)
    requires TypeOf(h, d).Some?
    ensures var r := Step(w, h, JSEvent(DiagramDeleted, src, DiagramRef(d)));
      var t := TypeOf(h, d).value;
      && ListOf(r.model, t) == Seqs.RemoveFirst(ListOf(w.model, t), d)
      && (forall u :: u != t ==> ListOf(r.model, u) == ListOf(w.model, u))
      && r.model.dirty && r.displayed.None?
  {
  }

  /** DiagramDeleteAll empties every list, leaves the model clean, clears
      every selection and the display, and disables both save actions. */
  lemma DeleteAllEvent(w: Window, h: Heap, e: JSEvent)
    requires e.eventType == DiagramDeleteAll
    ensures var r := Step(w, h, e);
      && (forall t :: ListOf(r.model, t) == [])
      && !r.model.dirty && r.model.fileName == w.model.fileName
      && r.selection == map[] && r.displayed.None?
      && !r.saveEnabled && !r.saveAsEnabled
  {
  }

  /** DiagramModified changes no list. It marks the model dirty exactly when
      the list of the diagram's type has a selected row: otherwise reading row
      -1 throws first and the model stays as it was. */
  lemma ModifiedEvent(w: Window, h: Heap, d: Ref, src: Source)
    requires WellFormed(w, h) && TypeOf(h, d).Some?
    ensures var r := Step(w, h, JSEvent(DiagramModified, src, DiagramRef(d)));
      var t := TypeOf(h, d).value;
      && SameLists(r.model, w.model)
      && (r.model.dirty <==> w.model.dirty || t in w.selection)
      && (t in w.selection ==> r.displayed == Some(ListOf(w.model, t)[w.selection[t]]))
  {
  }

  /** SelectDiagram selects the diagram's row in its own list, when the
      diagram is there, and displays it. */
  lemma SelectEvent(w: Window, h: Heap, d: Ref, src: Source)
    requires TypeOf(h, d).Some?
    ensures var r := Step(w, h, JSEvent(SelectDiagram, src, DiagramRef(d)));
      var t := TypeOf(h, d).value;
      && r.displayed == Some(d)
      && (d in ListOf(w.model, t) ==> t in r.selection && ListOf(w.model, t)[r.selection[t]] == d)
      && (d !in ListOf(w.model, t) ==> r.selection == w.selection)
      && (forall u :: u != t ==> (u in r.selection <==> u in w.selection))
  {
  }

  /** FileNameChanged with a file name or with null records it, marks the
      model clean and retitles the frame; the lists are untouched. */
  lemma FileNameEvent(w: Window, h: Heap, name: Option<string>, src: Source)
    ensures var payload := if name.Some? then Text(name.value) else NoPayload;
      var r := Step(w, h, JSEvent(FileNameChanged, src, payload));
      && r.model.fileName == name && !r.model.dirty && SameLists(r.model, w.model)
      && r.title == (if name.Some? then FileTitle(payload) else PlainTitle)
      && !r.saveEnabled && !r.saveAsEnabled
      && r.selection == w.selection && r.displayed == w.displayed
  {
  }

  /** A diagram as the FileNameChanged payload retitles the frame, then the
      cast to `String` throws: the file name and dirty flag stay. */
  lemma FileNameWrongPayload(w: Window, h: Heap, d: Ref, src: Source)
    ensures var r := Step(w, h, JSEvent(FileNameChanged, src, DiagramRef(d)));
      r.model == w.model && r.title == FileTitle(DiagramRef(d))
  {
  }

  /** `mousePressed` on list `t` clears the selection of the other three
      lists, so afterwards at most list `t` holds a selection. A list that
      loses its selection tells its selection listener, which finds no
      selected row and blanks the image panel. */
  function MousePressed(w: Window, t: DiagramType): (r: Window)
    ensures forall u :: u in r.selection ==> u == t
    ensures t in w.selection ==> t in r.selection && r.selection[t] == w.selection[t]
    ensures (exists u :: u in w.selection && u != t) ==> r.displayed.None?
    ensures (forall u :: u in w.selection ==> u == t) ==> r.displayed == w.displayed
    ensures r.(selection := w.selection, displayed := w.displayed) == w
  {
    var kept := map u | u in w.selection && u == t :: w.selection[u];
    if exists u :: u in w.selection && u != t then w.(selection := kept, displayed := None)
    else w.(selection := kept)
  }

  /** A press keeps the window consistent: the model is untouched and the
      one selection left is one that was in range. */
  lemma MousePressedKeepsWellFormed(w: Window, h: Heap, t: DiagramType)
    requires WellFormed(w, h)
    ensures WellFormed(MousePressed(w, t), h)
  {
  }

  /** Pressing the same list again changes nothing more. */
  lemma MousePressedIdempotent(w: Window, t: DiagramType)
    ensures MousePressed(MousePressed(w, t), t) == MousePressed(w, t)
  {
  }
}

=== FILE: yuml.dfy ===
/** The text the yUML renderer posts (`renderer/YUMLRenderer.java`): the
    script trimmed, cut into lines, comment lines dropped, every kept line
    trimmed, joined with `", "` and followed by `.svg`.
 */
module YumlScript {
  import opened JavaString

  /** A comment line starts with `#`; the test is made before trimming, so an
      indented `  #x` is not a comment. */
  predicate IsComment(token: string) {
    StartsWith(token, "#")
  }

  /** The separator the renderer writes after a kept line. */
  const Separator: string := ", "

  /** The flattened text of a sequence of lines. A kept line is followed by
      the separator exactly when any line, comment or not, comes after it. */
  function FlattenTokens(tokens: seq<string>): string
  {
    if |tokens| == 0 then [] else Piece(tokens) + FlattenTokens(tokens[1..])
  }

  /** What the first of the remaining lines contributes. */
  function Piece(tokens: seq<string>): string
    requires |tokens| > 0
  {
    LinePiece(tokens[0], |tokens| > 1)
  }

  /** What one line contributes: nothing for a comment, otherwise the trimmed
      line and, when more lines follow, the separator. */
  function LinePiece(token: string, more: bool): string {
    if IsComment(token) then [] else Trim(token) + (if more then Separator else [])
  }

  /** The `dsl_text` sent for a script. */
  function FlattenScript(script: string): (r: string)
    ensures EndsWith(r, ".svg")
    ensures (forall k :: 0 <= k < |script| ==> IsTrimmable(script[k])) ==> r == ".svg"
  {
    var flat := FlattenTokens(Tokens(Trim(script), '\n'));
    EndsWithAppended(flat, ".svg");
    flat + ".svg"
  }

  /** The `StringBuilder` loop of `render`, one token at a time; `hasMoreTokens`
      after a token is "a later token exists". */
  method AppendTokens(tokens: seq<string>) returns (buffer: string)
    ensures buffer == FlattenTokens(tokens)
  {
    buffer := "";
    var i := 0;
    FlattenFromStart(tokens);
    while i < |tokens|
      invariant 0 <= i <= |tokens|
      invariant buffer + FlattenTokens(tokens[i..]) == FlattenTokens(tokens)
    {
      var piece := LinePiece(tokens[i], i + 1 < |tokens|);
      FlattenStep(tokens, i, buffer, piece);
      buffer := buffer + piece;
      i := i + 1;
    }
    assert tokens[i..] == [];
  }

  /** The whole of the text building in `render`: tokenize the trimmed script
      on newlines, append the kept lines, then `.svg`. */
  method BuildDslText(script: string) returns (text: string)
    ensures text == FlattenScript(script)
  {
    var buffer := AppendTokens(Tokens(Trim(script), '\n'));
    text := buffer + ".svg";
  }

  lemma FlattenFromStart(tokens: seq<string>)
    ensures "" + FlattenTokens(tokens[0..]) == FlattenTokens(tokens)
  {
    assert tokens[0..] == tokens;
  }

  /** One step of the loop: appending the piece of line `i` to the text of
      the lines before it leaves the text of the lines after it to do. */
  lemma FlattenStep(tokens: seq<string>, i: nat, buffer: string, piece: string)
    requires i < |tokens|
    requires piece == LinePiece(tokens[i], i + 1 < |tokens|)
    ensures (buffer + piece) + FlattenTokens(tokens[i + 1..]) == buffer + FlattenTokens(tokens[i..])
  {
    var rest := tokens[i..];
    assert rest[0] == tokens[i];
    assert rest[1..] == tokens[i + 1..];
    assert piece == Piece(rest);
    assert FlattenTokens(rest) == piece + FlattenTokens(rest[1..]);
    AppendAssoc(buffer, piece, FlattenTokens(tokens[i + 1..]));
  }

  lemma AppendAssoc(a: string, b: string, c: string)
    ensures (a + b) + c == a + (b + c)
  {
  }

  /** `String.join`: the parts with the separator between neighbours. */
  function Join(parts: seq<string>, sep: string): string {
    if |parts| == 0 then []
    else if |parts| == 1 then parts[0]
    else parts[0] + sep + Join(parts[1..], sep)
  }

  /** Every line trimmed. */
  function TrimAll(tokens: seq<string>): (r: seq<string>)
    ensures |r| == |tokens|
    ensures forall i :: 0 <= i < |r| ==> r[i] == Trim(tokens[i])
  {
    if |tokens| == 0 then [] else [Trim(tokens[0])] + TrimAll(tokens[1..])
  }

  /** Without comment lines the flattened text is the trimmed lines joined by
      the separator. */
  lemma {:induction false} FlattenWithoutComments(tokens: seq<string>)
    requires forall i :: 0 <= i < |tokens| ==> !IsComment(tokens[i])
    ensures FlattenTokens(tokens) == Join(TrimAll(tokens), Separator)
  {
    if |tokens| > 1 {
      FlattenWithoutComments(tokens[1..]);
      assert TrimAll(tokens)[1..] == TrimAll(tokens[1..]);
    }
  }

  /** A comment line at the end still earns the kept line before it a
      separator, so the text ends with a dangling `", "`. */
  lemma {:induction false} TrailingCommentDangles(tokens: seq<string>, comment: string)
    requires |tokens| > 0 && !IsComment(tokens[|tokens| - 1])
    requires IsComment(comment)
    ensures FlattenTokens(tokens + [comment]) == FlattenTokens(tokens) + Separator
  {
    var all := tokens + [comment];
    assert all[0] == tokens[0];
    assert all[1..] == tokens[1..] + [comment];
    if |tokens| == 1 {
      var line := tokens[0];
      assert all[1..] == [comment];
      assert FlattenTokens(all[1..]) == LinePiece(comment, false) + FlattenTokens([]);
      assert FlattenTokens(all) == Trim(line) + Separator + [];
      assert FlattenTokens(tokens) == Trim(line) + FlattenTokens(tokens[1..]);
      assert tokens[1..] == [];
    } else {
      var head := Piece(tokens);
      var tail := FlattenTokens(tokens[1..]);
      assert Piece(all) == head;
      TrailingCommentDangles(tokens[1..], comment);
      assert FlattenTokens(all) == head + (tail + Separator);
      AppendAssoc(head, tail, Separator);
    }
  }

  /** A trailing comment on its own line of a script leaves the dangling
      separator just before `.svg`. */
  lemma TrailingCommentInScript(body: string, comment: string)
    requires |body| > 0 && !IsTrimmable(body[0]) && !IsTrimmable(body[|body| - 1])
    requires '\n' !in body && !IsComment(body)
    requires |comment| > 0 && IsComment(comment) && '\n' !in comment
    requires !IsTrimmable(comment[|comment| - 1])
    ensures FlattenScript(body + "\n" + comment) == body + Separator + ".svg"
  {
    TwoLineScript(body, comment);
    TrimUntrimmed(body);
    TrailingCommentDangles([body], comment);
    assert [body] + [comment] == [body, comment];
    assert FlattenTokens([body]) == body + FlattenTokens([]);
  }

  /** A script of two untrimmed lines is cut into exactly those lines. */
  lemma TwoLineScript(body: string, comment: string)
    requires |body| > 0 && !IsTrimmable(body[0]) && '\n' !in body
    requires |comment| > 0 && !IsTrimmable(comment[|comment| - 1]) && '\n' !in comment
    ensures Tokens(Trim(body + "\n" + comment), '\n') == [body, comment]
  {
    var script := body + "\n" + comment;
    assert script == body + ['\n'] + comment;
    assert script[0] == body[0] && script[|script| - 1] == comment[|comment| - 1];
    TrimUntrimmed(script);
    TokensSplit(body, comment, '\n');
    TokensNoDelimiter(body, '\n');
    TokensNoDelimiter(comment, '\n');
  }
}
